=== FILE: README.md ===
# Conch rack-build core, modelled in Dafny

Conch tracks datacenter racks as they are built and validated. This project models four parts of it:

- **The Conch web UI's stores.** These are the rack, relay, device, workspace, problem, validation and login stores.
- **The UI's views.** These are the rack layout page, the device report page, the status page with its rack-progress graph, and the problem pages.
- **Two offline report scripts.** They compute the time to the earliest remediation for each device component.
- **The Chef LLDP inventory plugin.** It turns `lldpctl` key/value output into a nested hash.

Every store operation is a pure function. It takes the store and an abstract HTTP outcome (`Response`: a body, or a status code with an error text). It returns the new store and an `Effect`, which is a redirect to login, a log line, a rejected promise, or nothing. Views are functions from the store to the rows and links they render. The report scripts are folds over a sequence of records, and the filter is a method with loop invariants.

Shared JavaScript semantics live in four modules:

- `JsValues`: truthiness and `||` defaults.
- `StringOrder`: string order by code point, which equals JavaScript's UTF-16 code-unit order on text without astral characters.
- `Sorting`: `Array.prototype.sort` as a stable insertion sort driven by the page's own comparator.
- `JsObject`: objects as key-ordered association lists.

`JsArray` adds `join`, the default sort (which compares joined text), ASCII `toUpperCase` and `parseInt`.

The code does not do the following, and the model does not add it:

- The layout payload is built from typed assignments only; untouched occupants are not submitted.
- Requests go to `/rack/...`; there are no workspace-scoped URLs.
- There is no stale-response rejection.
- There is no timer reset on resubmission.

## Model

| member | source | states |
|---|---|---|
| JsValues.OrElse | Conch/ui/src/views/Device.js:87-92 | `x \|\| fallback` on an optional string: the value when truthy (present and non-empty), the fallback otherwise |
| JsValues.LoaderFailure | Conch/ui/src/models/Rack.js:22-28 | a loader's `catch`: redirect to login exactly when the error text is "unauthorized", otherwise log; never a silent success |
| StringOrder.Compare | Conch/ui/src/models/Device.js:35-43 | the `<`/`>` comparator: 0 iff the strings are equal, negative iff the first is less in code-point order, positive iff greater |
| StringOrder.LessTransitive | Conch/ui/src/models/Device.js:36-41 | code-point string order is transitive (with LessIrreflexive, LessAsymmetric and LessTrichotomy it is a strict total order) |
| Sorting.SortSorted | Conch/ui/src/models/Relay.js:31 | the stable sort yields a sequence sorted by the comparator whenever the comparator is consistent on the input |
| Sorting.SortOfSorted | Conch/ui/src/models/Problem.js:4-5 | sorting an already sorted sequence with a consistent comparator leaves it unchanged |
| JsObject.Put | Conch/ui/src/models/Validation.js:16 | `acc[id] = name`: the key now maps to the value and every other key keeps its value |
| JsObject.SortObject | Conch/ui/src/models/Problem.js:3-10 | `sortObject` keeps exactly the same key/value pairs and the same size, with keys strictly ascending |
| JsObject.SortObjectIdempotent | Conch/ui/src/models/Problem.js:3-10 | sorting an object's keys twice gives the same object as sorting once |
| JsObject.SortedUnique | Conch/ui/src/models/Problem.js:3-10 | two key-ascending objects with the same lookups are identical, so `sortObject`'s result is determined by the pairs alone |
| JsArray.DefaultSort | Conch/ui/src/views/Problem.js:117-118 | `rows.sort()` with no comparator: a permutation of the rows, ordered by their comma-joined text |
| JsArray.AsciiUpper | Conch/ui/src/views/Device.js:294 | `toUpperCase` maps each letter a-z to A-Z and keeps every other character, length preserved |
| JsArray.ParseInt | Conch/ui/src/views/Device.js:248-250 | `parseInt` without a radix yields a number only if the text holds a digit (hexadecimal digits count, for the `0x` form) |
| JsArray.ParseIntOfDigits | Conch/ui/src/views/Device.js:248-250 | white space, an optional `+` or `-`, then a run of decimal digits followed by anything that is not a digit reads as the signed value of the run, leading zeros allowed ("07" is 7, "12abc" is 12, " -3px" is -3); a lone 0 before `x` is left to the hexadecimal form |
| JsArray.NoDigitIsNaN | Conch/ui/src/views/Device.js:249-250 | text with no decimal digit parses to NaN |
| JsArray.ParseIntOrZero | Conch/ui/src/views/Device.js:249-250 | `parseInt(x) \|\| 0`: NaN becomes 0, a number is kept |
| JsArray.ParseIntOfShow | Conch/ui/src/views/Device.js:248-250 | round trip: `parseInt` of an integer's decimal text followed by text not starting with a digit (nor with `x` after a lone 0) gives back the integer |
| DeviceModel.ActiveWindow | Conch/ui/src/models/Device.js:153-161 | `isActive` is false without `last_seen`, and true iff `last_seen` is strictly after now minus five minutes |
| DeviceModel.ActiveEarlier | Conch/ui/src/models/Device.js:153-161 | a device active at some time was active at every earlier time |
| DeviceModel.LoadDeviceIds | Conch/ui/src/models/Device.js:7-25 | success stores a sorted permutation of the response and changes nothing else; failure keeps the store and redirects on "unauthorized" |
| DeviceModel.LoadDevices | Conch/ui/src/models/Device.js:27-52 | success stores a permutation of the response ordered by ascending id; failure keeps the store |
| DeviceModel.IdSortedAscending | Conch/ui/src/models/Device.js:35-43 | a list sorted by the id comparator has non-descending ids |
| DeviceModel.LoadFirmwareStatus | Conch/ui/src/models/Device.js:73-99 | `updatingFirmware` becomes true iff the body's firmware is "updating"; a 404 sets it false; a 401 redirects; other failures only log |
| DeviceModel.GetDeviceLocation | Conch/ui/src/models/Device.js:101-127 | a location is returned iff the request succeeded, and success changes nothing else; a 401 redirects and keeps the store; a 409 or 400 clears `rackLocation` silently; every other failure only logs and keeps the store |
| DeviceModel.LoadRackLocation | Conch/ui/src/models/Device.js:101-132 | `rackLocation` becomes the location on success and is cleared on every failure, as the caught chain resolves to undefined; nothing else in the store changes; a 401 redirects, a 409 or 400 is silent and any other failure logs |
| Health.Classify | Conch/ui/src/views/Device.js:101-120 | the four health icons, each iff its condition: validated and PASS, PASS unvalidated, FAIL, anything else |
| Health.FailIgnoresValidated | Conch/ui/src/views/Device.js:111-120 | when health is not PASS, the `validated` field cannot change the icon |
| DeviceStatus.ReportedHealth | Conch/ui/src/views/component/DeviceStatus.js:11-18 | pass icon iff health is PASS, fail icon iff FAIL, never the validated icon |
| DeviceStatus.View | Conch/ui/src/views/component/DeviceStatus.js:8-27 | empty element iff there is no device; otherwise the health icon and the reporting icon iff the device is active |
| DeviceStatus.AgreesWithClassify | Conch/ui/src/views/component/DeviceStatus.js:11-18 | the component's icon is the page's icon with "validated" folded into "pass" |
| DeviceStatus.IgnoresValidated | Conch/ui/src/views/component/DeviceStatus.js:11-18 | changing `validated` never changes the component's output |
| Relay.ByAlias | Conch/ui/src/models/Relay.js:4-19 | result in {-1,0,1}; with different letter projections, 1 iff the first's letters are greater; with equal letters and digits on both sides, 1, 0 or -1 as the first digit value is greater than, equal to or less than the second (so PRD10 after PRD2); with equal letters and no digits on either side (NaN), -1 |
| Relay.ZeroIff | Conch/ui/src/models/Relay.js:11-14 | for aliases with digits: 0 iff the letter projections and the digit values are equal |
| Relay.Antisymmetric | Conch/ui/src/models/Relay.js:14 | for aliases with digits, `byAlias(a,b) = -byAlias(b,a)` |
| Relay.LettersBranchAntisymmetric | Conch/ui/src/models/Relay.js:16-18 | when the letter projections differ, the comparator is antisymmetric |
| Relay.NoDigitsBothWays | Conch/ui/src/models/Relay.js:12-14 | equal letters and a digitless alias make both directions -1, since NaN compares false |
| Relay.Prd2BeforePrd10 | Conch/ui/src/models/Relay.js:4-5 | "PRD2" orders before "PRD10", and "PRD10" after "PRD2" |
| Relay.Transitive | Conch/ui/src/models/Relay.js:6-19 | for aliases with digits, the comparator's `<= 0` is transitive |
| Relay.SortByAlias | Conch/ui/src/models/Relay.js:31 | a permutation of the list, ordered by `byAlias` when every alias has digits; throws (None) iff two or more relays and one lacks an alias |
| Relay.Reload | Conch/ui/src/models/Relay.js:25-56 | the shared handler: a sortable response replaces the list sorted; a throw in the sort logs and keeps it; a failed request keeps it and redirects or logs |
| Relay.LoadRelays | Conch/ui/src/models/Relay.js:25-40 | success stores the response sorted by alias and leaves the active list; a throw in the sort or a failed request keeps the list |
| Relay.LoadActiveRelays | Conch/ui/src/models/Relay.js:41-56 | the same for the active list, leaving `list` untouched |
| RackModel.SlotOrder | Conch/ui/src/views/Rack.js:262 | `Object.keys(slots)`: every slot number exactly once, in increasing numeric order |
| RackModel.Payload | Conch/ui/src/models/Rack.js:51-60 | every device id in the payload is non-empty and maps to a slot that assigns it; every slot's non-empty assignment is in the payload, at that slot or a later one |
| RackModel.PostedPayload | Conch/ui/src/models/Rack.js:51-66 | the posted body has the payload's device ids, each mapped to its slot as unsigned decimal text that reads back as that slot number |
| RackModel.PayloadReadsOnlyAssignments | Conch/ui/src/models/Rack.js:55 | two racks with the same slot numbers and assignments give the same payload, whatever their occupants |
| RackModel.LaterSlotWins | Conch/ui/src/models/Rack.js:57 | when two slots assign the same id, the lower slot is not the one in the payload |
| RackModel.LoadRooms | Conch/ui/src/models/Rack.js:6-28 | success stores exactly the response's room/rack-list pairs with room names strictly ascending; a body without `racks` keeps the store and logs, as the thrown TypeError reaches the catch; failure keeps the store |
| RackModel.Load | Conch/ui/src/models/Rack.js:32-49 | success replaces the current rack wholesale; failure keeps it and redirects or logs |
| RackModel.AssignDone | Conch/ui/src/models/Rack.js:61-79 | a successful POST raises `assignSuccess`, has no other effect and reloads the same rack id; a failed one only logs and leaves the flag |
| RackView.InputValue | Conch/ui/src/views/Rack.js:173 | the input shows the typed assignment if non-empty, else the occupant's id, else "" |
| RackView.Placeholder | Conch/ui/src/views/Rack.js:172 | the "Unassigned" placeholder appears iff the slot has no occupant |
| RackView.TypeInto | Conch/ui/src/views/Rack.js:169-171 | typing sets only that slot's assignment; all other slots and rack fields are unchanged |
| RackView.LastKeystrokeWins | Conch/ui/src/views/Rack.js:169-171 | typing twice into a slot equals typing only the second text |
| RackView.InputShowsTyping | Conch/ui/src/views/Rack.js:169-173 | after typing non-empty text the input shows it; after clearing, it shows what an untyped slot shows |
| RackView.TypedIdIsSubmitted | Conch/ui/src/views/Rack.js:169-171 | an id typed into a slot is in the next payload, at that slot or a later one |
| RackView.UntouchedRackSubmitsNothing | Conch/ui/src/models/Rack.js:55-58 | with no slot typed into, the payload is empty even if every slot is occupied |
| RackView.StatusIndicator | Conch/ui/src/views/Rack.js:225-247 | empty iff no occupant; otherwise the page's health icon and the reporting icon iff the occupant is active |
| RackView.StatusIndicatorVersusComponent | Conch/ui/src/views/Rack.js:224-236 | the inline indicator differs from the shared component exactly for a validated, passing occupant |
| RackView.ReportButton | Conch/ui/src/views/Rack.js:142-166 | only occupied slots get a report cell; PASS links to the device, FAIL to its problems, UNKNOWN gives text, other health gives nothing |
| RackView.RowOrder | Conch/ui/src/views/Rack.js:262-264 | slots are rendered in strictly decreasing slot number, each slot once |
| RackView.ActiveRelay | Conch/ui/src/views/Rack.js:79-81 | the first active relay whose location's rack id is the current rack's; none iff no relay matches |
| RackView.Highlighted | Conch/ui/src/views/Rack.js:174-178 | a slot's input has the `row-highlight` class iff the highlighted id is present, non-empty and equal to the occupant's id; an empty slot is never highlighted |
| RackView.DeepLinkHighlights | Conch/ui/src/views/Rack.js:70-76 | following a problem page's "Show Device in Rack" link (`/rack/<rack>?device=<id>`) opens that rack and highlights exactly the slots whose occupant has that id; an empty id highlights none |
| RackView.FlagAction | Conch/ui/src/views/Rack.js:204-222 | only an occupied slot gets the flag button (line 275); clicking it sends the subject "[NOTICE] User Flagged Device" and a message naming the occupant and the slot number |
| RackView.FlagIdentifiesDevice | Conch/ui/src/views/Rack.js:209-211 | for one slot number, two different occupants give two different notices |
| RackPage.OnInitHighlight | Conch/ui/src/views/Rack.js:74 | the route's `device` attribute becomes the highlighted device, and nothing else in the rack store changes |
| Route.MatchRack | Conch/ui/src/index.js:45-53 | a link reaches the rack page only if its path is `/rack/` and one non-empty segment without `/` or `?`, and that segment is the page's `id` |
| Route.MatchRackLink | Conch/ui/src/index.js:45-53 | `/rack/<id>?device=<dev>` reaches the rack page with `id` and `device` exactly as written, for an id without `/` or `?` and a device id without `&` or `=` |
| Route.QueryOfOne | Conch/ui/src/index.js:45-53 | a one-entry query string `key=value` gives the key exactly that value |
| RackProgress.NodeParent | Conch/ui/src/views/Status/RackProgress.js:8-27 | Failing iff any FAIL; Not Started iff no FAIL, PASS or VALID; Validated iff VALID only; In Progress otherwise |
| RackProgress.NodeValue | Conch/ui/src/views/Status/RackProgress.js:33-47 | -1 iff any FAIL; otherwise in [0,100], 0 for an empty rack, 100 iff all validated, 50 for all passing, 0 iff the score is under one percent |
| RackProgress.Score | Conch/ui/src/views/Status/RackProgress.js:41-45 | the truncated percentage is at most 100, equals 100 iff all points are earned, 50 at half, 0 iff below one percent |
| RackProgress.ChooseGrouping | Conch/ui/src/views/Status/RackProgress.js:72-78 | status grouping iff the group is missing or "status", role grouping otherwise |
| RackProgress.StatusRank | Conch/ui/src/views/Status/RackProgress.js:50-54 | exactly the four status labels have a rank |
| RackProgress.RoleRank | Conch/ui/src/views/Status/RackProgress.js:56-60 | exactly TRITON, MANTA, MANTA_TALL and CERES have a rank |
| RackProgress.NodeOf | Conch/ui/src/views/Status/RackProgress.js:80-95 | a rack's node carries its room, name, role, size, id and value, with the parent chosen by the grouping |
| RackProgress.Nodes | Conch/ui/src/views/Status/RackProgress.js:80-95 | one node per rack of every room, each built from some rack |
| RackProgress.EveryRackHasANode | Conch/ui/src/views/Status/RackProgress.js:80-95 | every rack of every room appears among the nodes |
| RackProgress.RankCompare | Conch/ui/src/views/Status/RackProgress.js:62-66 | 0 iff equal ranks, 1 iff both ranked and the first larger, -1 otherwise (undefined ranks included) |
| RackProgress.UnrankedIsInconsistent | Conch/ui/src/views/Status/RackProgress.js:64-65 | an unranked parent sorts below a ranked one in both directions |
| RackProgress.SortNodes | Conch/ui/src/views/Status/RackProgress.js:62-66 | a permutation of the nodes, sorted by rank when every parent has one |
| RackProgress.StatusNodesAreRanked | Conch/ui/src/views/Status/RackProgress.js:8-27 | under status grouping every node's parent has a rank |
| RackProgress.Graph | Conch/ui/src/views/Status/RackProgress.js:68-103 | the graph data is a permutation of the rack nodes, sorted by status rank under status grouping |
| DeviceView.OrUnknown | Conch/ui/src/views/Device.js:87-92 | a missing or empty field shows as UNKNOWN, a present one as itself |
| DeviceView.BasicInfo | Conch/ui/src/views/Device.js:75-97 | product name, BIOS version and system UUID each default to UNKNOWN; the state is shown as is |
| DeviceView.StatusRows | Conch/ui/src/views/Device.js:99-135 | the health row comes first; the firmware row appears iff firmware is updating; the reporting row appears iff the device is active, after the firmware row |
| DeviceView.LocationLink | Conch/ui/src/views/Device.js:156-185 | a rack link exists iff there is a location, and it points at that rack |
| DeviceView.TemperatureRows | Conch/ui/src/views/Device.js:187-195 | no table without a `temp` object; otherwise one row per sensor, names strictly ascending, each reading as reported |
| DeviceView.NetworkRows | Conch/ui/src/views/Device.js:196-226 | one row per interface, names strictly ascending, each row carrying that interface's fields |
| DeviceView.EveryInterfaceListed | Conch/ui/src/views/Device.js:209-211 | every reported interface has a row |
| DeviceView.DiskKey | Conch/ui/src/views/Device.js:248-250 | the key is 100·hba + slot, where a field `parseInt` reads as NaN contributes 0: both NaN gives 0, only the HBA numeric gives 100·hba, only the slot numeric gives slot |
| DeviceView.DiskKeyOfNumbers | Conch/ui/src/views/Device.js:248-250 | for numeric HBA and slot text, the key is 100·hba + slot |
| DeviceView.DiskKeyIsLexicographic | Conch/ui/src/views/Device.js:248-250 | for slots in [0,100), key order is HBA first, then slot |
| DeviceView.WideSlotCollides | Conch/ui/src/views/Device.js:248-250 | slot 100 on HBA 0 gets the same key as slot 0 on HBA 1 |
| DeviceView.DiskRows | Conch/ui/src/views/Device.js:227-270 | one row per disk, keys non-descending, each row carrying its disk and that disk's key |
| DeviceView.PlanRowOf | Conch/ui/src/views/Device.js:289-297 | the warning icon appears iff the status is not "pass"; the six cells are category, the name looked up by validation id, component id, upper-cased status, message and hint, in that order |
| DeviceView.PlanRows | Conch/ui/src/views/Device.js:289-297 | a permutation of the result rows, ordered by their joined text as the default sort does |
| DeviceView.PlanTitle | Conch/ui/src/views/Device.js:271-279 | the plan's name after "Validation Plan: ", or "undefined" when the id is not indexed |
| DeviceView.TestCompare | Conch/ui/src/views/Device.js:304-317 | 0 iff the type+name strings are equal, negative iff less, positive iff greater |
| DeviceView.SplitNamesTie | Conch/ui/src/views/Device.js:306-307 | tests whose type and name split the same text differently compare equal |
| DeviceView.TestRows | Conch/ui/src/views/Device.js:300-325 | a permutation of the tests ordered by type+name, with a warning iff the status is 0 |
| StatusView.BucketKey | Conch/ui/src/views/Status.js:57-61 | a string `graduated` gives GRADUATED, ahead of `validated`; else a string `validated` gives VALIDATED; else the health value |
| StatusView.Count | Conch/ui/src/views/Status.js:57-65 | `countBy` for one key never exceeds the list length |
| StatusView.CountIsMembers | Conch/ui/src/views/Status.js:57-65 | a bucket count is positive iff some device falls in that bucket |
| StatusView.Active | Conch/ui/src/views/Status.js:51 | exactly the active devices of the list |
| StatusView.Inactive | Conch/ui/src/views/Status.js:52-55 | exactly the inactive devices of the list |
| StatusView.Partition | Conch/ui/src/views/Status.js:51-55 | the active and inactive lists partition the devices, per bucket as well as in total |
| StatusView.Summary | Conch/ui/src/views/Status.js:75-125 | five bucket rows (unknown, failing, passing, validated, graduated) and the Sum row; each bucket row's Active, Inactive and Total columns count its health key over the active devices, the inactive devices and all devices; Sum's columns are the sizes of those three lists; in each row active + inactive = total, and Sum's total bounds the five buckets |
| StatusView.BucketRow | Conch/ui/src/views/Status.js:84-116 | a bucket row counts its health key over the active devices, the inactive devices and all devices, and active + inactive = total |
| StatusView.SumRow | Conch/ui/src/views/Status.js:118-123 | the Sum row holds the sizes of the active list, the inactive list and the whole list, and active + inactive = total |
| StatusView.FiveBucketsBounded | Conch/ui/src/views/Status.js:57-125 | the five bucket totals together never exceed the device count |
| StatusView.UnreportedDeviceUncounted | Conch/ui/src/views/Status.js:57-61 | a device with no graduated, validated or health value is in none of the five rows |
| StatusView.ActiveDeviceCount | Conch/ui/src/views/Status.js:132 | 0 iff none of the relay's devices is active |
| StatusView.RelayRowOf | Conch/ui/src/views/Status.js:129-157 | alias or else id; the active-device count; the relay link; a rack link iff the relay has a location |
| StatusView.RelayRows | Conch/ui/src/views/Status.js:126-158 | one row per active relay, in list order, each built from that relay |
| StatusView.DeviceLinks | Conch/ui/src/views/Status.js:14-33 | links only when a list exists, one per device, under `/problem/` for problem lists and `/device/` otherwise (the status page defines `deviceList` but never calls it) |
| WorkspaceModel.FindNamed | Conch/ui/src/models/Workspace.js:34 | the first workspace with the name; none iff no workspace has it |
| WorkspaceModel.ChooseId | Conch/ui/src/models/Workspace.js:31-36 | keeps a stored id that is listed; else GLOBAL; else the first; none iff the list is empty; a chosen id is listed |
| WorkspaceModel.LoadWorkspaces | Conch/ui/src/models/Workspace.js:23-41 | the list is stored; a chosen id is persisted and returned; an empty list throws after storing it |
| WorkspaceModel.ListedIdKept | Conch/ui/src/models/Workspace.js:31-32 | a stored id that is listed survives a load unchanged |
| WorkspaceModel.ChoiceIsStable | Conch/ui/src/models/Workspace.js:29-39 | loading the same non-empty list again chooses the same workspace and leaves the store as it was |
| WorkspaceModel.WithWorkspace | Conch/ui/src/models/Workspace.js:6-13 | with a stored id and a non-empty list, calls back at once with that id; otherwise loads and calls back with the chosen id |
| WorkspaceModel.StaleIdUsed | Conch/ui/src/models/Workspace.js:8 | the shortcut never checks that the stored id is still listed |
| WorkspaceModel.SecondPageUsesChoice | Conch/ui/src/models/Workspace.js:6-13 | after a load has chosen an id, the next page gets it without a request |
| AuthModel.RequireLogin | Conch/ui/src/models/Auth.js:7-32 | runs the continuation iff it is a function and the user is logged in or `/me` succeeds; a 401 clears the flag and redirects; other errors propagate |
| AuthModel.Login | Conch/ui/src/models/Auth.js:39-66 | success sets the flag and clears email and password, returning true; a 401 clears only the password, returning false; other errors propagate |
| AuthModel.Logout | Conch/ui/src/models/Auth.js:67-71 | success clears the flag; failure rejects and keeps it |
| AuthModel.SetLoginEmail | Conch/ui/src/models/Auth.js:33-35 | sets the email, nothing else |
| AuthModel.SetPassword | Conch/ui/src/models/Auth.js:36-38 | sets the password, nothing else |
| AuthModel.FailedLoginStaysOut | Conch/ui/src/models/Auth.js:47-65 | from the initial state, a failed login never leaves the user logged in |
| AuthModel.LoginThenPagesRun | Conch/ui/src/models/Auth.js:8 | after a successful login the gate runs the continuation without asking `/me` |
| AuthModel.LogoutThenPagesAsk | Conch/ui/src/models/Auth.js:9-19 | after a logout the gate asks `/me` again |
| NameIndex.IdToName | Conch/ui/src/models/Validation.js:14-20 | every key is an id from the list, and each id maps to the name of its last entry |
| NameIndex.EveryIdIndexed | Conch/ui/src/models/ValidationPlan.js:14-20 | every id in the list has a name |
| NameIndex.LaterNameWins | Conch/ui/src/models/Validation.js:16 | of two entries with one id, the later name is kept |
| NameIndex.Load | Conch/ui/src/models/Validation.js:6-22 | success stores the list and indexes exactly its ids; failure leaves the index and rejects |
| ProblemModel.LoadDeviceProblems | Conch/ui/src/models/Problem.js:15-36 | success stores exactly the three categories, each key-sorted; a missing category throws and is logged; failure keeps the store |
| ProblemModel.DeviceHasProblem | Conch/ui/src/models/Problem.js:37-42 | true iff some category has an entry for the id |
| ProblemModel.LoadedCategories | Conch/ui/src/models/Problem.js:23-27 | after a load, each category holds exactly the response's entries for it, keys strictly ascending |
| ProblemModel.NothingBeforeLoad | Conch/ui/src/models/Problem.js:12-14 | before any load no device has a problem |
| ProblemModel.HasProblemAfterLoad | Conch/ui/src/models/Problem.js:23-27 | after a load, a device has a problem iff one of the response's three categories lists it |
| ProblemView.CategoryTitle | Conch/ui/src/views/Problem.js:12-23 | the three known categories map to their titles, anything else to "Other Problems", each iff |
| ProblemView.SelectCurrent | Conch/ui/src/views/Problem.js:39-49 | with a URL id listed in some category the current device becomes that entry (the last category listing it); otherwise unchanged |
| ProblemView.ProblemRow | Conch/ui/src/views/Problem.js:94-101 | a problem becomes the four cells component type, component name, criterion condition and log, in that order, a missing field showing as an empty cell |
| ProblemView.Failed | Conch/ui/src/views/Problem.js:104-106 | every result whose status is not exactly "pass" is kept and every kept result is such a result |
| ProblemView.FailedCounts | Conch/ui/src/views/Problem.js:104-112 | each result is kept exactly as many times as it occurs when its status is not "pass", and never otherwise; the number kept is the number of non-pass results |
| ProblemView.FailedAppend | Conch/ui/src/views/Problem.js:104-112 | `forEach` with `push` keeps input order: the kept results of `a + b` are those of `a` followed by those of `b` |
| ProblemView.AllResults | Conch/ui/src/views/Problem.js:103-116 | a result is visited iff some state holds it, and as many results are visited as the states hold together |
| ProblemView.AllResultsAppend | Conch/ui/src/views/Problem.js:103-116 | the `reduce` over states visits each state's results in turn: the results of `a + b` are those of `a` followed by those of `b` |
| ProblemView.ValidationRows | Conch/ui/src/views/Problem.js:103-116 | every row comes from a non-pass result and every non-pass result of every state has its row; there are exactly as many rows as non-pass results, duplicates included |
| ProblemView.ValidationRowsAppend | Conch/ui/src/views/Problem.js:103-116 | the rows of `a + b` are the rows of `a` followed by the rows of `b`, so each state contributes its own non-pass results in order |
| ProblemView.ValidationRowMatchesPlan | Conch/ui/src/views/Problem.js:103-116 | the problem page lists a result exactly when the device page marks its plan row with a warning, and its row is that plan row's category, name, status and message cells |
| ProblemView.CapitalisedPassListed | Conch/ui/src/views/Problem.js:106-110 | a "Pass" result is listed and displayed as PASS, as the test is case-sensitive |
| ProblemView.MergedRows | Conch/ui/src/views/Problem.js:117-118 | a permutation of the problem rows plus the validation rows, in joined-text order |
| ProblemView.ReportHref | Conch/ui/src/views/Problem.js:134-143 | the report button appears iff `report_id` is set and links to the device by URL id |
| ProblemView.RackHref | Conch/ui/src/views/Problem.js:159-168 | the rack button appears iff there is a location and targets its rack with `?device=` set to the URL id |
| ProblemView.LocationRow | Conch/ui/src/views/Problem.js:145-158 | a location table row exists iff the device has a location, and holds datacenter name, rack name, rack role and unit, in that order |
| ProblemView.LocationRowAgrees | Conch/ui/src/views/Problem.js:145-170 | the location table appears exactly when the "Show Device in Rack" link does, and the unit cell reads back as the rack unit |
| ProblemView.ShowDeviceAsWritten | Conch/ui/src/views/Problem.js:94-133 | throws iff the device has no problem list; otherwise always shows the failure table |
| ProblemView.ShowDevice | Conch/ui/src/views/Problem.js:120-143 | failure table iff a problem list exists; nothing when only a report exists; the "not sent a report" notice otherwise |
| ProblemView.AsWrittenAgreesWhenDefined | Conch/ui/src/views/Problem.js:94-133 | wherever the written view does not throw, it shows what the corrected view shows |
| ProblemView.UnreportedDeviceThrows | Conch/ui/src/views/Problem.js:94-133 | a device with neither problems nor report throws as written; the corrected view shows the notice |
| RackPage.LoadUrl | Conch/ui/src/models/Rack.js:32-36 | the request is `/rack/` followed by exactly the id |
| RackPage.LoadUrlInjective | Conch/ui/src/models/Rack.js:36 | distinct rack ids give distinct request URLs |
| RackPage.OnInitLoadAsWritten | Conch/ui/src/views/Rack.js:71-75 | as written, the request is `/rack/` followed by the workspace id |
| RackPage.LoadAsWrittenMissesRack | Conch/ui/src/views/Rack.js:71-75 | `Rack.load(workspaceId, attrs.id)` requests the workspace id as a rack, whatever the route's rack |
| RackPage.OnInitLoad | Conch/ui/src/views/Rack.js:71-75 | the intended request names the routed rack |
| RackPage.AssignDevicesCall | Conch/ui/src/models/Rack.js:51-66 | a POST happens iff the first argument is a rack, to that rack's layout URL with its payload |
| RackPage.SubmitAsWritten | Conch/ui/src/views/Rack.js:106-109 | `assignDevices(workspaceId, Rack.current)` never posts |
| RackPage.Submit | Conch/ui/src/views/Rack.js:106-109 | the intended submit posts iff a rack is loaded, to that rack's layout URL |
| RackPage.SubmitCarriesTypedIds | Conch/ui/src/models/Rack.js:51-60 | every id typed into the loaded rack reaches the posted body, at a slot that assigns it |
| PageGate.StartAsWritten | Conch/ui/src/views/Status.js:38-46 | the loader runs before the gate; the gate never runs the continuation and throws a TypeError iff the user is logged in or `/me` succeeds |
| PageGate.LoaderRunsWhileRedirected | Conch/ui/src/views/Rack.js:71-76 | a logged-out visitor with a stored workspace is redirected, yet the loader has run |
| PageGate.LoggedInPageThrows | Conch/ui/src/views/Problem.js:28-34 | a logged-in user always hits a TypeError in the gate |
| PageGate.AgreesPastTheGate | Conch/ui/src/views/Status.js:38-46 | past the gate (logged in, or `/me` succeeds) the written and the intended start load the same workspace and leave the same stores |
| PageGate.StartGated | Conch/ui/src/views/Device.js:15-19 | the intended start runs the loader only past the gate, iff the user is logged in or `/me` succeeds, and never throws a TypeError |
| RemediationReduce.Step | report/manta_jobs/time_to_earliest_remediation/reduce_first_failure_and_pass.js:12-53 | other keys are untouched; other statuses change nothing; a first failure creates an entry with no pass; a pass without a failure is ignored |
| RemediationReduce.ReduceMeetsReference | report/manta_jobs/time_to_earliest_remediation/reduce_first_failure_and_pass.js:27-52 | an entry exists iff the key has a failure; it holds the earliest failure and the earliest pass read after an earlier-created failure, first read winning ties |
| RemediationReduce.PassNeedsFail | report/manta_jobs/time_to_earliest_remediation/reduce_first_failure_and_pass.js:41-52 | a key with a qualifying pass also has a failure |
| RemediationReduce.PassAfterFail | report/manta_jobs/time_to_earliest_remediation/reduce_first_failure_and_pass.js:37-52 | a recorded pass was created strictly after the recorded failure |
| RemediationReduce.PassBeforeFailIgnored | report/manta_jobs/time_to_earliest_remediation/reduce_first_failure_and_pass.js:41-43 | a pass read before any failure is never recorded, even if created later |
| RemediationFilter.Filter | report/manta_jobs/time_to_earliest_remediation/filter_redundant_results.js:12-28 | a line is written iff no earlier line has its triple; output in input order; each triple once; every triple represented |
| Lldp.Insert | chef/cookbooks/base/files/default/plugins/lldp.rb:20-23 | the top-level keys gain the first path key and keep all other entries |
| Lldp.InsertFailsIffBlocked | chef/cookbooks/base/files/default/plugins/lldp.rb:21-22 | the insertion fails iff the path runs through a string value |
| Lldp.LookupInserted | chef/cookbooks/base/files/default/plugins/lldp.rb:20-23 | after `hashify(h, [k1..kn, v])`, looking up k1..kn yields v |
| Lldp.InsertFrame | chef/cookbooks/base/files/default/plugins/lldp.rb:20-23 | every path that parts ways with the inserted one looks up what it did before |
| Lldp.SubHashReused | chef/cookbooks/base/files/default/plugins/lldp.rb:21 | an existing sub-hash on the path is reused: its other keys survive |
| Lldp.DropTrailingEmpty | chef/cookbooks/base/files/default/plugins/lldp.rb:31 | Ruby's `split` keeps a prefix of the fields, ending in a non-empty one, and drops only empty fields |
| Lldp.ParseWellFormed | chef/cookbooks/base/files/default/plugins/lldp.rb:31-32 | a line `top.k1.….kn=value` parses to the path k1..kn with the value |
| Lldp.ParseLine | chef/cookbooks/base/files/default/plugins/lldp.rb:31-32 | a line fails (Ruby raises on `nil`) iff the text before its first `=` is empty or only dots; no component of a parsed path contains a dot, a parsed value has no `=`, and a line without `=` has no value |
| Lldp.Collect | chef/cookbooks/base/files/default/plugins/lldp.rb:30-39 | no lines leave the hash as it was and complete; a complete run parsed every line; no top-level key is lost, and every new one is the first path key of some line |
| Lldp.CollectAppend | chef/cookbooks/base/files/default/plugins/lldp.rb:30-39 | lines are folded in order: output `a + b` is `a` then `b` from the hash `a` left, and a failing line of `a` ends the run with the hash as it was before that line |
| Lldp.OneLine | chef/cookbooks/base/files/default/plugins/lldp.rb:30-35 | one well-formed line gives a hash where its path holds its value |

## Left out

- HTTP, `localStorage`, rendering, i18n and icons are left out. Requests become `Response` parameters, the stored workspace id is a field, and views return rows and links. Routing is modelled only for the rack page (`Route`).
- Timers and `m.redraw` are left out, including the 2600 ms clearing of `assignSuccess`. The clock is an explicit `now` in milliseconds.
- The d3 relationship graph is left out; only its input data and sort are modelled.
- The readline, stdin and stdout plumbing and `JSON.parse` of the report scripts are left out. Records are already parsed, with `created` as integer milliseconds. Invalid dates (NaN times), non-numeric statuses and JSON output order are not modelled.
- The legacy `ui/` tree, the Chef recipes and the IPMI plugin are left out.
- Asset-tag editing in the rack view is left out. The flag action is modelled up to the notice it sends; the POST to `/feedback`, its reply and the `alert` are not. `Device.loadDevice` and `Device.loadDeviceLogs` are left out too, since they only store or log a response.
- The rack listing page's rendering is left out.
- Health values that are missing and health values that are null are both "undefined" in the model.
- DeviceModel.ActiveWindow: `last_seen` is an integer millisecond time. The source parses the timestamp string with `moment`, and an unparsable one gives an invalid moment whose comparison is false, so that device is inactive; timestamp parsing and time zones are not modelled.
- RackProgress.NodeValue: computed with exact integers. The source divides in floating point before `Math.trunc`, so a few scores may be one lower there.
- JsArray.ParseInt: whitespace is the ASCII set plus U+00A0, U+2028, U+2029 and U+FEFF; other Unicode spaces and float precision for very long digit runs are not modelled.
- JsArray.AsciiUpper: upper-cases ASCII letters only.
- Route.MatchRack: the router's percent-decoding of path and query values, `#` fragments, a trailing `/`, bracketed query keys and any conversion of "true" and "false" query values are not modelled. So RackView.DeepLinkHighlights is stated for a rack id without `/` or `?` and a device id without `&` or `=`.
- StringOrder.Compare: orders by Unicode code point. JavaScript's `<` compares UTF-16 code units, so text with characters above U+FFFF can order differently (U+1F600 is below U+FF01 in JavaScript and above it here). Code points and code units agree on text without such characters.
- JsObject.SortObject: objects are association lists in insertion order. Engines list integer-like keys first, and that is modelled only for rack slots (a map keyed by slot number).
- Relay.SortByAlias: sortedness is stated only when every alias has digits. Otherwise `byAlias` is inconsistent and the engine's resulting order is unspecified.
- RackProgress.SortNodes: sortedness is stated only when every parent has a rank. Role grouping with other roles is inconsistent the same way.
- StatusView.BucketKey: `R.propIs(String, ...)` is modelled as "field present"; non-string values of those fields are not modelled.
- DeviceView.NetworkRows: takes the interfaces object; the `interfaces ?` guard around the table is not modelled.
- Lldp.Insert: a path that runs through a string value makes Ruby index into the string. The model treats this as the plugin failing and does not model the string edits.
- Lldp.Collect: stops at the first line that fails, as the `rescue` does. Any partial edits made by that line before the exception are not modelled.
- ProblemView.ProblemRow: reads `criteria.condition` as one optional field. A problem whose `criteria` is missing makes the source throw a TypeError while rendering; that throw is not modelled, and such a row shows an empty condition.
- RemediationFilter.Filter: keys inherited from `Object.prototype` (a component named "constructor") are not modelled, nor the newline written after each line.
- The model adds no stale-response rejection, occupant fallback in the payload, or edit preservation across reloads, since the code has none.

## Findings

| source | as written | input that shows it | evidently intended | confidence | as-written member | corrected member |
|---|---|---|---|---|---|---|
| Conch/ui/src/views/Rack.js:106-109 | `Rack.assignDevices(workspaceId, Rack.current)` binds the workspace id to `rack`; `Object.keys(undefined)` throws | any submit of the rack form | `Rack.assignDevices(Rack.current)` | high, not executed | RackPage.SubmitAsWritten | RackPage.Submit |
| Conch/ui/src/views/Rack.js:71-75 | `Rack.load(workspaceId, attrs.id)` requests `/rack/<workspace id>` (also at lines 38-40) | workspace "w1", route rack "r1": GET `/rack/w1` | `Rack.load(attrs.id)` | high, not executed | RackPage.LoadAsWrittenMissesRack | RackPage.OnInitLoad |
| Conch/ui/src/views/Status.js:38-46 | `Auth.requireLogin(Workspace.withWorkspace(cb))` runs the loader first and hands the gate `undefined` (also Rack.js:16-23 and 71-76, Problem.js:28-34, Device.js:15-19) | logged out, stored workspace, `/me` answers 401: loader runs and the user is redirected; logged in: TypeError | `Auth.requireLogin(() => Workspace.withWorkspace(cb))` | high, not executed | PageGate.StartAsWritten | PageGate.StartGated |
| Conch/ui/src/views/Problem.js:94-101 | `Problem.current.problems.map` runs before the `problems ?` test at line 120 | a device with no `problems` and no `report_id` | test `problems` before mapping, so the "Device has not sent a report" notice shows | high, not executed | ProblemView.ShowDeviceAsWritten | ProblemView.ShowDevice |

=== FILE: auth.dfy ===
/**
  The login state of the client: the remembered "logged in" flag, the login
  form's fields, and how `/me`, `/login` and `/logout` responses move them.
 */
module AuthModel {
  import opened JsValues

  datatype State = State(loggedIn: bool, email: string, password: string)

  const Initial: State := State(false, "", "")

  /** What `requireLogin` is handed: a function to run once logged in, or
      something that is not a function (such as `undefined` or a promise). */
  datatype Next = Callable | NotCallable

  /** How `requireLogin` ends: it ran the continuation, sent the user to the
      login page, let a rejection through with its status, or failed with a
      `TypeError` from calling something that is not a function. */
  datatype Gate = RanNext | Redirected | Propagated(status: int) | NotAFunction

  datatype Checked = Checked(state: State, gate: Gate, requested: bool)

  /** Calling `next()`. */
  function Call(next: Next): Gate
  {
    if next == Callable then RanNext else NotAFunction
  }

  /** `requireLogin(next)`: run `next` at once when the flag is set; otherwise
      ask `/me`, set the flag and run `next` on success, clear the flag and
      redirect on 401, and rethrow anything else. A `TypeError` thrown by
      `next()` inside the success handler has no `status` and is rethrown. */
  function RequireLogin(st: State, next: Next, me: Response<()>): (r: Checked)
    ensures st.loggedIn ==> r == Checked(st, Call(next), false)
    ensures !st.loggedIn ==> r.requested
    ensures !st.loggedIn && me.Ok? ==> r.state == st.(loggedIn := true) && r.gate == Call(next)
    ensures !st.loggedIn && me.Fail? && me.status == 401 ==> r.state == st.(loggedIn := false) && r.gate == Redirected
    ensures !st.loggedIn && me.Fail? && me.status != 401 ==> r == Checked(st, Propagated(me.status), true)
    ensures r.gate == RanNext <==> next == Callable && (st.loggedIn || me.Ok?)
  {
    if st.loggedIn then Checked(st, Call(next), false)
    else match me
      case Ok(_) => Checked(st.(loggedIn := true), Call(next), true)
      case Fail(status, _) =>
        if status == 401 then Checked(st.(loggedIn := false), Redirected, true)
        else Checked(st, Propagated(status), true)
  }

  datatype LoginOutcome = Returned(ok: bool) | LoginRejected(status: int)

  /** `login()`: success sets the flag, clears both fields and resolves true;
      a 401 clears only the password and resolves false; anything else is
      rethrown with nothing changed. */
  function Login(st: State, res: Response<()>): (r: (State, LoginOutcome))
    ensures res.Ok? ==> r == (State(true, "", ""), Returned(true))
    ensures res.Fail? && res.status == 401 ==> r == (st.(password := ""), Returned(false))
    ensures res.Fail? && res.status != 401 ==> r == (st, LoginRejected(res.status))
    ensures r.1 == Returned(true) <==> res.Ok?
    ensures r.0.loggedIn <==> res.Ok? || st.loggedIn
  {
    match res
    case Ok(_) => (State(true, "", ""), Returned(true))
    case Fail(status, _) =>
      if status == 401 then (st.(password := ""), Returned(false))
      else (st, LoginRejected(status))
  }

  /** `logout()`: success clears the flag; a failure rejects with nothing
      changed. */
  function Logout(st: State, res: Response<()>): (r: Handled<State>)
    ensures res.Ok? ==> r == Handled(st.(loggedIn := false), NoEffect)
    ensures res.Fail? ==> r == Handled(st, Rejected)
  {
    match res
    case Ok(_) => Handled(st.(loggedIn := false), NoEffect)
    case Fail(_, _) => Handled(st, Rejected)
  }

  /** `setLoginEmail` and `setPassword`: each form field changes only itself. */
  function SetLoginEmail(st: State, value: string): (r: State)
    ensures r.email == value && r.password == st.password && r.loggedIn == st.loggedIn
  {
    st.(email := value)
  }

  function SetPassword(st: State, value: string): (r: State)
    ensures r.password == value && r.email == st.email && r.loggedIn == st.loggedIn
  {
    st.(password := value)
  }

  /** After a successful login, pages run without asking `/me`. */
  lemma LoginThenPagesRun(st: State, res: Response<()>, me: Response<()>)
    requires res.Ok?
    ensures RequireLogin(Login(st, res).0, Callable, me) == Checked(Login(st, res).0, RanNext, false)
  {
  }

  /** After a successful logout, the next page asks `/me` again. */
  lemma LogoutThenPagesAsk(st: State, res: Response<()>, next: Next, me: Response<()>)
    requires res.Ok?
    ensures RequireLogin(Logout(st, res).state, next, me).requested
  {
  }

  /** A failed login never sets the flag. */
  lemma FailedLoginStaysOut(res: Response<()>)
    requires res.Fail?
    ensures !Login(Initial, res).0.loggedIn
  {
  }
}

=== FILE: device_model.dfy ===
/**
  The device store of the client: the sorted id list, the id-sorted device
  list, the firmware-update flag and the rack location of the device on
  display, together with the "actively reporting" rule.
 */
module DeviceModel {
  import opened JsValues
  import opened StringOrder
  import Sorting

  /** A device as the backend lists it. `validated` and `graduated` are
      timestamps when present; `lastSeen` is in milliseconds. */
  datatype Device = Device(
    id: string,
    health: Option<string>,
    validated: Option<string>,
    graduated: Option<string>,
    lastSeen: Option<int>,
    assetTag: Option<string>)

  /** Where a device is installed, as `/device/{id}/location` reports it. */
  datatype Location = Location(
    datacenterName: string,
    rackId: string,
    rackName: string,
    rackRole: string,
    rackUnit: int)

  datatype Store = Store(
    deviceIds: seq<string>,
    devices: seq<Device>,
    updatingFirmware: bool,
    rackLocation: Option<Location>)

  /** Five minutes in milliseconds. */
  const FiveMinutes: int := 300_000

  /** `isActive`: a device is active when it was last seen strictly after
      five minutes before `now`; a device never seen is not active. */
  predicate IsActive(lastSeen: Option<int>, now: int)
  {
    lastSeen.Some? && now - FiveMinutes < lastSeen.value
  }

  /** Activity only expires: a device active at `later` was active at every
      earlier instant since it was seen. */
  lemma ActiveEarlier(lastSeen: Option<int>, earlier: int, later: int)
    requires IsActive(lastSeen, later)
    requires earlier <= later
    ensures IsActive(lastSeen, earlier)
  {
  }

  /** A device is active exactly during the five minutes after it was seen. */
  lemma ActiveWindow(seen: int, now: int)
    ensures IsActive(Some(seen), now) <==> now < seen + FiveMinutes
    ensures !IsActive(None, now)
  {
  }

  /** `loadDeviceIds`: the ids are stored sorted. */
  function LoadDeviceIds(st: Store, res: Response<seq<string>>): (h: Handled<Store>)
    ensures res.Ok? ==> multiset(h.state.deviceIds) == multiset(res.body)
    ensures res.Ok? ==> Ascending(h.state.deviceIds)
    ensures res.Ok? ==> h.state.(deviceIds := st.deviceIds) == st && h.effect == NoEffect
    ensures res.Fail? ==> h.state == st && h.effect == LoaderFailure(res.error)
  {
    match res
    case Ok(ids) =>
      var sorted := Sorting.Sort(ids, Compare);
      CompareConsistent(ids);
      Sorting.SortSorted(ids, Compare);
      Handled(st.(deviceIds := sorted), NoEffect)
    case Fail(_, error) => Handled(st, LoaderFailure(error))
  }

  lemma CompareConsistent(s: seq<string>)
    ensures Sorting.ConsistentOn(Compare, s)
  {
    forall a, b, c | Compare(a, b) <= 0 && Compare(b, c) <= 0
      ensures Compare(a, c) <= 0
    {
      CompareTransitive(a, b, c);
    }
  }

  /** The comparator `loadDevices` passes to sort. */
  function IdCompare(a: Device, b: Device): int
  {
    if Less(a.id, b.id) then -1 else if Less(b.id, a.id) then 1 else 0
  }

  lemma IdCompareConsistent(s: seq<Device>)
    ensures Sorting.ConsistentOn(IdCompare, s)
  {
    forall a, b
      ensures IdCompare(a, b) == Compare(a.id, b.id)
    {
      LessAsymmetric(a.id, b.id);
    }
    forall a, b, c | IdCompare(a, b) <= 0 && IdCompare(b, c) <= 0
      ensures IdCompare(a, c) <= 0
    {
      CompareTransitive(a.id, b.id, c.id);
    }
  }

  lemma IdSortedAscending(s: seq<Device>)
    requires Sorting.SortedBy(IdCompare, s)
    ensures forall i, j | 0 <= i < j < |s| :: !Less(s[j].id, s[i].id)
  {
    forall i, j | 0 <= i < j < |s|
      ensures !Less(s[j].id, s[i].id)
    {
      assert IdCompare(s[i], s[j]) <= 0;
      LessAsymmetric(s[i].id, s[j].id);
    }
  }

  /** `loadDevices`: the devices are stored in ascending id order. */
  function LoadDevices(st: Store, res: Response<seq<Device>>): (h: Handled<Store>)
    ensures res.Ok? ==> multiset(h.state.devices) == multiset(res.body)
    ensures res.Ok? ==> forall i, j | 0 <= i < j < |h.state.devices| ::
                          !Less(h.state.devices[j].id, h.state.devices[i].id)
    ensures res.Ok? ==> h.state.(devices := st.devices) == st && h.effect == NoEffect
    ensures res.Fail? ==> h.state == st && h.effect == LoaderFailure(res.error)
  {
    match res
    case Ok(ds) =>
      IdCompareConsistent(ds);
      Sorting.SortSorted(ds, IdCompare);
      IdSortedAscending(Sorting.Sort(ds, IdCompare));
      Handled(st.(devices := Sorting.Sort(ds, IdCompare)), NoEffect)
    case Fail(_, error) => Handled(st, LoaderFailure(error))
  }

  /** `loadFirmwareStatus`: the body's `firmware` field decides the flag; a
      404 clears it; a 401 goes to the login page; anything else is logged. */
  function LoadFirmwareStatus(st: Store, res: Response<Option<string>>): (h: Handled<Store>)
    ensures h.state.(updatingFirmware := st.updatingFirmware) == st
    ensures res.Ok? ==> (h.state.updatingFirmware <==> res.body == Some("updating"))
    ensures res.Fail? && res.status == 404 ==> !h.state.updatingFirmware && h.effect == NoEffect
    ensures res.Fail? && res.status == 401 ==> h.state == st && h.effect == RedirectToLogin
    ensures res.Fail? && res.status != 404 && res.status != 401 ==> h.state == st && h.effect == LogError
  {
    match res
    case Ok(firmware) => Handled(st.(updatingFirmware := firmware == Some("updating")), NoEffect)
    case Fail(status, _) =>
      if status == 404 then Handled(st.(updatingFirmware := false), NoEffect)
      else if status == 401 then Handled(st, RedirectToLogin)
      else Handled(st, LogError)
  }

  /** `getDeviceLocation`: the body on success; on failure the catch clause
      runs (401 login, 409/400 clears `rackLocation`, else a log line) and
      resolves to nothing. Returns the resolved value, the state after the
      catch clause, and the effect. */
  function GetDeviceLocation(st: Store, res: Response<Location>): (r: (Option<Location>, Handled<Store>))
    ensures r.0.Some? <==> res.Ok?
    ensures res.Ok? ==> r.0 == Some(res.body) && r.1 == Handled(st, NoEffect)
    ensures res.Fail? && res.status == 401 ==> r.1 == Handled(st, RedirectToLogin)
    ensures res.Fail? && (res.status == 409 || res.status == 400) ==>
              r.1 == Handled(st.(rackLocation := None), NoEffect)
    ensures res.Fail? && res.status != 401 && res.status != 409 && res.status != 400 ==>
              r.1 == Handled(st, LogError)
  {
    match res
    case Ok(location) => (Some(location), Handled(st, NoEffect))
    case Fail(status, _) =>
      if status == 401 then (None, Handled(st, RedirectToLogin))
      else if status == 409 || status == 400 then (None, Handled(st.(rackLocation := None), NoEffect))
      else (None, Handled(st, LogError))
  }

  /** `loadRackLocation`: stores whatever `getDeviceLocation` resolved to, so
      every failure, not only 409 and 400, leaves no location on display. */
  function LoadRackLocation(st: Store, res: Response<Location>): (h: Handled<Store>)
    ensures h.state.(rackLocation := st.rackLocation) == st
    ensures res.Ok? ==> h.state.rackLocation == Some(res.body)
    ensures res.Fail? ==> h.state.rackLocation == None
    ensures res.Fail? && res.status == 401 ==> h.effect == RedirectToLogin
    ensures res.Fail? && (res.status == 409 || res.status == 400) ==> h.effect == NoEffect
    ensures res.Fail? && res.status != 401 && res.status != 409 && res.status != 400 ==> h.effect == LogError
  {
    var (resolved, handled) := GetDeviceLocation(st, res);
    Handled(handled.state.(rackLocation := resolved), handled.effect)
  }
}

=== FILE: device_status.dfy ===
/**
  The `DeviceStatus` component: a three-way health icon that never looks at
  the validation marker, plus the "reporting" icon for active devices.
 */
module DeviceStatus {
  import opened JsValues
  import opened DeviceModel
  import opened Health

  /** PASS, FAIL, anything else. */
  function ReportedHealth(health: Option<string>): (r: HealthIcon)
    ensures r != ValidatedIcon
    ensures r == PassIcon <==> health == Some(PassHealth)
    ensures r == FailIcon <==> health == Some(FailHealth)
  {
    if health == Some(PassHealth) then PassIcon
    else if health == Some(FailHealth) then FailIcon
    else NoReportIcon
  }

  /** The rendered status: nothing for no device, else the health icon and
      whether the reporting icon is shown. */
  datatype StatusView = Empty | Icons(health: HealthIcon, reporting: bool)

  function View(device: Option<Device>, now: int): (v: StatusView)
    ensures device.None? <==> v == Empty
    ensures device.Some? ==> v.health == ReportedHealth(device.value.health)
    ensures device.Some? ==> (v.reporting <==> IsActive(device.value.lastSeen, now))
  {
    match device
    case None => Empty
    case Some(d) => Icons(ReportedHealth(d.health), IsActive(d.lastSeen, now))
  }

  /** The component agrees with the four-way rule except that it shows a
      validated passing device as merely passing. */
  lemma AgreesWithClassify(d: Device)
    ensures ReportedHealth(d.health) ==
              if Classify(d) == ValidatedIcon then PassIcon else Classify(d)
  {
  }

  /** The validation marker is never consulted. */
  lemma IgnoresValidated(d: Device, v: Option<string>, now: int)
    ensures View(Some(d.(validated := v)), now) == View(Some(d), now)
  {
  }
}

=== FILE: device_view.dfy ===
/**
  The device report page: the basic-information row with its "UNKNOWN"
  defaults, the status rows, the location link, and the row orders of the
  environment, network, storage, validation-plan and validation-test tables.
 */
module DeviceView {
  import opened JsValues
  import opened StringOrder
  import Sorting
  import opened JsObject
  import opened JsArray
  import opened DeviceModel
  import opened Health
  import opened ValidationStateModel

  const UnknownText: string := "UNKNOWN"

  /** The identity fields of the latest report. */
  datatype Identity = Identity(productName: Option<string>, biosVersion: Option<string>, systemUuid: Option<string>)

  /** `field || "UNKNOWN"`. */
  function OrUnknown(field: Option<string>): (r: string)
    ensures Truthy(field) ==> r == field.value
    ensures r == UnknownText <==> !Truthy(field) || field == Some(UnknownText)
  {
    OrElse(field, UnknownText)
  }

  /** Product name, BIOS version, system UUID, and the device's state. */
  function BasicInfo(id: Identity, state: string): (row: seq<string>)
    ensures |row| == 4 && row[3] == state
    ensures row[0] == OrUnknown(id.productName)
    ensures row[1] == OrUnknown(id.biosVersion)
    ensures row[2] == OrUnknown(id.systemUuid)
  {
    [OrUnknown(id.productName), OrUnknown(id.biosVersion), OrUnknown(id.systemUuid), state]
  }

  datatype StatusRow = HealthRow(icon: HealthIcon) | FirmwareRow | ReportingRow

  /** The "Device Status" table: the health row, then the firmware row while
      firmware is updating, then the reporting row while the device is active. */
  function StatusRows(d: Device, updatingFirmware: bool, now: int): (rows: seq<StatusRow>)
    ensures |rows| > 0 && rows[0] == HealthRow(Classify(d))
    ensures FirmwareRow in rows <==> updatingFirmware
    ensures ReportingRow in rows <==> IsActive(d.lastSeen, now)
    ensures forall i, j | 0 <= i < |rows| && 0 <= j < |rows| && rows[i] == ReportingRow && rows[j] == FirmwareRow :: j < i
    ensures forall i | 0 < i < |rows| :: !rows[i].HealthRow?
  {
    [HealthRow(Classify(d))]
      + (if updatingFirmware then [FirmwareRow] else [])
      + (if IsActive(d.lastSeen, now) then [ReportingRow] else [])
  }

  /** The "Show Rack" link of the location table; no location, no table. */
  function LocationLink(loc: Option<Location>): (href: Option<string>)
    ensures href.Some? <==> loc.Some?
    ensures loc.Some? ==> href.value == "/rack/" + loc.value.rackId
  {
    match loc
    case None => None
    case Some(l) => Some("/rack/" + l.rackId)
  }

  // ---------------------------------------------------------------------
  // Environment and network tables

  /** The environment table: absent when the report has no `temp` object
      (an empty object still gives a table), otherwise one name/reading row per
      sensor, by ascending sensor name. */
  function TemperatureRows<V>(temp: Option<Obj<V>>): (rows: Option<seq<(string, V)>>)
    ensures rows.Some? <==> temp.Some?
    ensures rows.Some? ==> |rows.value| == |temp.value|
    ensures rows.Some? ==> forall i, j | 0 <= i < j < |rows.value| :: Less(rows.value[i].0, rows.value[j].0)
    ensures rows.Some? ==> forall i | 0 <= i < |rows.value| :: Get(temp.value, rows.value[i].0) == Some(rows.value[i].1)
  {
    match temp
    case None => None
    case Some(t) =>
      var sorted := SortObject(t);
      forall i | 0 <= i < |sorted|
        ensures Get(t, sorted[i].0) == Some(sorted[i].1)
      {
        GetAt(sorted, i);
      }
      assert forall i | 0 <= i < |sorted| :: sorted[i].0 == Keys(sorted)[i];
      Some(sorted)
  }

  /** One network interface of the report. */
  datatype Interface = Interface(
    mac: Option<string>, ipaddr: Option<string>, state: Option<string>, product: Option<string>,
    peerSwitch: Option<string>, peerPort: Option<string>, peerMac: Option<string>)

  datatype NetworkRow = NetworkRow(name: string, iface: Interface)

  function NetworkRowsOf(entries: seq<(string, Interface)>): (rows: seq<NetworkRow>)
    ensures |rows| == |entries|
    ensures forall i | 0 <= i < |entries| :: rows[i] == NetworkRow(entries[i].0, entries[i].1)
  {
    if |entries| == 0 then [] else [NetworkRow(entries[0].0, entries[0].1)] + NetworkRowsOf(entries[1..])
  }

  /** The network table: one row per interface, by ascending interface name. */
  function NetworkRows(interfaces: Obj<Interface>): (rows: seq<NetworkRow>)
    ensures |rows| == |interfaces|
    ensures forall i, j | 0 <= i < j < |rows| :: Less(rows[i].name, rows[j].name)
    ensures forall i | 0 <= i < |rows| :: Get(interfaces, rows[i].name) == Some(rows[i].iface)
  {
    var sorted := SortObject(interfaces);
    var rows := NetworkRowsOf(sorted);
    forall i | 0 <= i < |rows|
      ensures Get(interfaces, rows[i].name) == Some(rows[i].iface)
    {
      GetAt(sorted, i);
    }
    assert forall i | 0 <= i < |rows| :: rows[i].name == Keys(sorted)[i];
    rows
  }

  /** Every interface of the report has its row. */
  lemma EveryInterfaceListed(interfaces: Obj<Interface>, name: string)
    requires Get(interfaces, name).Some?
    ensures exists i | 0 <= i < |NetworkRows(interfaces)| :: NetworkRows(interfaces)[i].name == name
  {
    var sorted := SortObject(interfaces);
    GetSomeIff(sorted, name);
    var i :| 0 <= i < |sorted| && sorted[i].0 == name;
    assert NetworkRows(interfaces)[i].name == name;
  }

  // ---------------------------------------------------------------------
  // Storage table

  /** One disk of the report: its HBA and slot as the report spells them, and
      the remaining columns. */
  datatype Disk = Disk(hba: string, slot: string, other: seq<string>)

  /** `100 * (parseInt(hba) || 0) + (parseInt(slot) || 0)`. */
  function DiskKey(d: Disk): (k: int)
    ensures ParseInt(d.hba).None? && ParseInt(d.slot).None? ==> k == 0
    ensures ParseInt(d.hba).Some? && ParseInt(d.slot).None? ==> k == 100 * ParseInt(d.hba).value
    ensures ParseInt(d.hba).None? && ParseInt(d.slot).Some? ==> k == ParseInt(d.slot).value
    ensures ParseInt(d.hba).Some? && ParseInt(d.slot).Some? ==>
              k == 100 * ParseInt(d.hba).value + ParseInt(d.slot).value
  {
    100 * ParseIntOrZero(d.hba) + ParseIntOrZero(d.slot)
  }

  /** A disk whose HBA and slot are written as plain integers gets the key
      `100 * hba + slot`. */
  lemma DiskKeyOfNumbers(hba: int, slot: int, other: seq<string>)
    ensures DiskKey(Disk(Show(hba), Show(slot), other)) == 100 * hba + slot
  {
    ParseIntOfShow(hba, "");
    ParseIntOfShow(slot, "");
    assert Show(hba) + "" == Show(hba);
    assert Show(slot) + "" == Show(slot);
  }

  /** With slot numbers in [0, 100) the key orders disks by HBA, then by slot. */
  lemma DiskKeyIsLexicographic(a: Disk, b: Disk)
    requires 0 <= ParseIntOrZero(a.slot) < 100 && 0 <= ParseIntOrZero(b.slot) < 100
    ensures DiskKey(a) < DiskKey(b) <==>
              ParseIntOrZero(a.hba) < ParseIntOrZero(b.hba) ||
              (ParseIntOrZero(a.hba) == ParseIntOrZero(b.hba) && ParseIntOrZero(a.slot) < ParseIntOrZero(b.slot))
  {
  }

  /** A slot number of 100 or more collides with the next HBA. */
  lemma WideSlotCollides()
    ensures DiskKey(Disk(Show(0), Show(100), [])) == DiskKey(Disk(Show(1), Show(0), []))
  {
    DiskKeyOfNumbers(0, 100, []);
    DiskKeyOfNumbers(1, 0, []);
  }

  datatype DiskRow = DiskRow(serial: string, disk: Disk, key: int)

  function KeyedRows(entries: seq<(string, Disk)>): (rows: seq<DiskRow>)
    ensures |rows| == |entries|
    ensures forall i | 0 <= i < |entries| :: rows[i] == DiskRow(entries[i].0, entries[i].1, DiskKey(entries[i].1))
  {
    seq(|entries|, i requires 0 <= i < |entries| => DiskRow(entries[i].0, entries[i].1, DiskKey(entries[i].1)))
  }

  /** `(a, b) => a.sortKey - b.sortKey`. */
  function KeyCompare(a: DiskRow, b: DiskRow): int
  {
    a.key - b.key
  }

  lemma KeyCompareConsistent(rows: seq<DiskRow>)
    ensures Sorting.ConsistentOn(KeyCompare, rows)
  {
  }

  lemma KeyedRowFacts(disks: Obj<Disk>, r: DiskRow)
    requires r in multiset(KeyedRows(disks))
    ensures Get(disks, r.serial) == Some(r.disk) && r.key == DiskKey(r.disk)
  {
    var keyed := KeyedRows(disks);
    var k :| 0 <= k < |keyed| && keyed[k] == r;
    GetAt(disks, k);
  }

  /** The storage table: the disks in object order, keyed, then sorted by key. */
  function DiskRows(disks: Obj<Disk>): (rows: seq<DiskRow>)
    ensures multiset(rows) == multiset(KeyedRows(disks))
    ensures |rows| == |disks|
    ensures forall i, j | 0 <= i < j < |rows| :: rows[i].key <= rows[j].key
    ensures forall i | 0 <= i < |rows| :: Get(disks, rows[i].serial) == Some(rows[i].disk) && rows[i].key == DiskKey(rows[i].disk)
  {
    var keyed := KeyedRows(disks);
    KeyCompareConsistent(keyed);
    Sorting.SortSorted(keyed, KeyCompare);
    var rows := Sorting.Sort(keyed, KeyCompare);
    forall i | 0 <= i < |rows|
      ensures Get(disks, rows[i].serial) == Some(rows[i].disk) && rows[i].key == DiskKey(rows[i].disk)
    {
      assert rows[i] in multiset(rows);
      KeyedRowFacts(disks, rows[i]);
    }
    rows
  }

  // ---------------------------------------------------------------------
  // Validation-plan tables

  /** A row of a validation-plan table. The icon column renders as
      "[object Object]" whichever icon it holds, so the sort never looks at it. */
  datatype PlanRow = PlanRow(warning: bool, cells: seq<string>)

  const IconText: string := "[object Object]"

  /** A result's plan row: category, validation name, component id,
      upper-cased status, message and hint, behind the warning icon for a
      result that did not pass. */
  function PlanRowOf(r: Result, names: Obj<string>): (row: PlanRow)
    ensures row.warning <==> r.status != "pass"
    ensures |row.cells| == 6
    ensures row.cells[0] == r.category
    ensures row.cells[1] == CellText(Get(names, r.validationId))
    ensures row.cells[2] == CellText(r.componentId)
    ensures row.cells[3] == AsciiUpper(r.status)
    ensures row.cells[4] == CellText(r.message) && row.cells[5] == CellText(r.hint)
  {
    PlanRow(r.status != "pass",
      [r.category, CellText(Get(names, r.validationId)), CellText(r.componentId),
       AsciiUpper(r.status), CellText(r.message), CellText(r.hint)])
  }

  /** The text a plan row contributes to the default sort. */
  function PlanRowText(row: PlanRow): seq<string>
  {
    [IconText] + row.cells
  }

  function PlanRowCompare(a: PlanRow, b: PlanRow): int
  {
    RowCompare(PlanRowText(a), PlanRowText(b))
  }

  function PlanRowsOf(results: seq<Result>, names: Obj<string>): (rows: seq<PlanRow>)
    ensures |rows| == |results|
    ensures forall i | 0 <= i < |results| :: rows[i] == PlanRowOf(results[i], names)
  {
    if |results| == 0 then [] else [PlanRowOf(results[0], names)] + PlanRowsOf(results[1..], names)
  }

  /** `validationState.results.map(...).sort()`: one row per result, in the
      order of their joined text. */
  function PlanRows(results: seq<Result>, names: Obj<string>): (rows: seq<PlanRow>)
    ensures multiset(rows) == multiset(PlanRowsOf(results, names))
    ensures forall i, j | 0 <= i < j < |rows| :: !Less(Join(PlanRowText(rows[j])), Join(PlanRowText(rows[i])))
  {
    var unsorted := PlanRowsOf(results, names);
    PlanRowCompareConsistent(unsorted);
    Sorting.SortSorted(unsorted, PlanRowCompare);
    Sorting.Sort(unsorted, PlanRowCompare)
  }

  lemma PlanRowCompareConsistent(rows: seq<PlanRow>)
    ensures Sorting.ConsistentOn(PlanRowCompare, rows)
  {
    forall a, b
      ensures PlanRowCompare(a, b) > 0 <==> PlanRowCompare(b, a) < 0
    {
      LessAsymmetric(Join(PlanRowText(a)), Join(PlanRowText(b)));
    }
    forall a, b, c | PlanRowCompare(a, b) <= 0 && PlanRowCompare(b, c) <= 0
      ensures PlanRowCompare(a, c) <= 0
    {
      CompareTransitive(Join(PlanRowText(a)), Join(PlanRowText(b)), Join(PlanRowText(c)));
    }
  }

  /** The table title: a plan id missing from the index is written "undefined". */
  function PlanTitle(planId: string, planNames: Obj<string>): (t: string)
    ensures Get(planNames, planId).Some? ==> t == "Validation Plan: " + Get(planNames, planId).value
    ensures Get(planNames, planId).None? ==> t == "Validation Plan: undefined"
  {
    "Validation Plan: " + match Get(planNames, planId) case Some(n) => n case None => "undefined"
  }

  // ---------------------------------------------------------------------
  // Validation-test table

  /** One validation test of the device; `status` is 1 on pass, 0 on failure. */
  datatype ValidationTest = ValidationTest(componentType: string, componentName: string, status: int, metric: Option<string>, log: Option<string>)

  function TestKey(v: ValidationTest): string
  {
    v.componentType + v.componentName
  }

  /** The comparator of the validation-test table. */
  function TestCompare(a: ValidationTest, b: ValidationTest): (r: int)
    ensures r == 0 <==> TestKey(a) == TestKey(b)
    ensures r < 0 <==> Less(TestKey(a), TestKey(b))
    ensures r > 0 <==> Less(TestKey(b), TestKey(a))
  {
    LessAsymmetric(TestKey(a), TestKey(b));
    Compare(TestKey(a), TestKey(b))
  }

  /** Two tests whose type and name split one string differently tie. */
  lemma SplitNamesTie()
    ensures TestCompare(ValidationTest("ab", "c", 1, None, None), ValidationTest("a", "bc", 0, None, None)) == 0
  {
    assert "ab" + "c" == "a" + "bc";
  }

  lemma TestCompareConsistent(vs: seq<ValidationTest>)
    ensures Sorting.ConsistentOn(TestCompare, vs)
  {
    forall a, b, c | TestCompare(a, b) <= 0 && TestCompare(b, c) <= 0
      ensures TestCompare(a, c) <= 0
    {
      CompareTransitive(TestKey(a), TestKey(b), TestKey(c));
    }
  }

  datatype TestRow = TestRow(warning: bool, test: ValidationTest)

  function TestRowsOf(vs: seq<ValidationTest>): (rows: seq<TestRow>)
    ensures |rows| == |vs|
    ensures forall i | 0 <= i < |vs| :: rows[i].test == vs[i] && (rows[i].warning <==> vs[i].status == 0)
  {
    seq(|vs|, i requires 0 <= i < |vs| => TestRow(vs[i].status == 0, vs[i]))
  }

  /** The tests a table shows, in row order. */
  function Tests(rows: seq<TestRow>): seq<ValidationTest>
  {
    seq(|rows|, i requires 0 <= i < |rows| => rows[i].test)
  }

  /** The validation-test table: the tests sorted by type and name, a warning
      on every test whose status is falsy. */
  function TestRows(vs: seq<ValidationTest>): (rows: seq<TestRow>)
    ensures |rows| == |vs|
    ensures forall i, j | 0 <= i < j < |rows| :: !Less(TestKey(rows[j].test), TestKey(rows[i].test))
    ensures forall i | 0 <= i < |rows| :: rows[i].warning <==> rows[i].test.status == 0
    ensures multiset(Tests(rows)) == multiset(vs)
  {
    TestCompareConsistent(vs);
    Sorting.SortSorted(vs, TestCompare);
    var sorted := Sorting.Sort(vs, TestCompare);
    var rows := TestRowsOf(sorted);
    assert Tests(rows) == sorted;
    rows
  }
}

=== FILE: health.dfy ===
/**
  The four-way health rule the rack layout and the device report both apply
  to a device: validated and passing, passing, failing, or no report.
 */
module Health {
  import opened JsValues
  import opened DeviceModel

  datatype HealthIcon = ValidatedIcon | PassIcon | FailIcon | NoReportIcon

  const PassHealth: string := "PASS"
  const FailHealth: string := "FAIL"

  /** Validated-and-PASS first, then PASS, then FAIL, then no report. A
      `validated` timestamp counts only when it is a non-empty string. */
  function Classify(d: Device): (r: HealthIcon)
    ensures r == ValidatedIcon <==> Truthy(d.validated) && d.health == Some(PassHealth)
    ensures r == PassIcon <==> !Truthy(d.validated) && d.health == Some(PassHealth)
    ensures r == FailIcon <==> d.health == Some(FailHealth)
    ensures r == NoReportIcon <==> d.health != Some(PassHealth) && d.health != Some(FailHealth)
  {
    if Truthy(d.validated) && d.health == Some(PassHealth) then ValidatedIcon
    else if d.health == Some(PassHealth) then PassIcon
    else if d.health == Some(FailHealth) then FailIcon
    else NoReportIcon
  }

  /** A failing device shows as failing whatever its validation marker says,
      and a validation marker never rescues a device without a PASS report. */
  lemma FailIgnoresValidated(d: Device, v: Option<string>)
    ensures d.health != Some(PassHealth) ==> Classify(d.(validated := v)) == Classify(d)
  {
  }
}

=== FILE: js_array.dfy ===
/**
  Array and string built-ins the views rely on: `Array.prototype.join`, the
  default `sort()` of an array of rows (which compares the rows' joined
  text), `toUpperCase` on ASCII text, and `parseInt` without a radix.
 */
module JsArray {
  import opened JsValues
  import opened StringOrder
  import Sorting

  /** `cells.join(",")`; absent cells have already been turned into "". */
  function Join(cells: seq<string>): (r: string)
    ensures |cells| == 1 ==> r == cells[0]
    ensures |cells| == 0 ==> r == ""
  {
    if |cells| == 0 then ""
    else if |cells| == 1 then cells[0]
    else cells[0] + "," + Join(cells[1..])
  }

  /** The text `join` gives an optional cell: `undefined` and `null` give "". */
  function CellText(s: Option<string>): (r: string)
    ensures s.Some? ==> r == s.value
    ensures s.None? ==> r == ""
  {
    if s.Some? then s.value else ""
  }

  /** The comparison the default `sort()` applies to two rows. */
  function RowCompare(a: seq<string>, b: seq<string>): int
  {
    Compare(Join(a), Join(b))
  }

  lemma RowCompareConsistent(rows: seq<seq<string>>)
    ensures Sorting.ConsistentOn(RowCompare, rows)
  {
    forall a, b
      ensures RowCompare(a, b) > 0 <==> RowCompare(b, a) < 0
    {
      LessAsymmetric(Join(a), Join(b));
    }
    forall a, b, c | RowCompare(a, b) <= 0 && RowCompare(b, c) <= 0
      ensures RowCompare(a, c) <= 0
    {
      CompareTransitive(Join(a), Join(b), Join(c));
    }
  }

  /** `rows.sort()` with no comparator: a stable sort by joined text. */
  function DefaultSort(rows: seq<seq<string>>): (r: seq<seq<string>>)
    ensures multiset(r) == multiset(rows)
    ensures forall i, j | 0 <= i < j < |r| :: !Less(Join(r[j]), Join(r[i]))
  {
    RowCompareConsistent(rows);
    Sorting.SortSorted(rows, RowCompare);
    Sorting.Sort(rows, RowCompare)
  }

  function UpperChar(c: char): (u: char)
    ensures 'a' <= c <= 'z' ==> 'A' <= u <= 'Z'
    ensures !('a' <= c <= 'z') ==> u == c
  {
    if 'a' <= c <= 'z' then (c as int - 32) as char else c
  }

  /** `toUpperCase` on ASCII letters; every other character is kept. */
  function AsciiUpper(s: string): (r: string)
    ensures |r| == |s|
    ensures forall i | 0 <= i < |s| :: r[i] == UpperChar(s[i])
  {
    if |s| == 0 then [] else [UpperChar(s[0])] + AsciiUpper(s[1..])
  }

  lemma UpperPass()
    ensures AsciiUpper("pass") == "PASS"
  {
  }

  // ---------------------------------------------------------------------
  // parseInt(s) with no radix

  /** The white space `parseInt` skips before the number. */
  predicate IsSpace(c: char)
  {
    c == ' ' || c == '\t' || c == '\n' || c == '\r' || c == '\U{000B}' || c == '\U{000C}' ||
    c == '\U{00A0}' || c == '\U{2028}' || c == '\U{2029}' || c == '\U{FEFF}'
  }

  predicate IsDecimalDigit(c: char)
  {
    '0' <= c <= '9'
  }

  function SkipSpaces(s: string): (r: string)
    ensures |r| <= |s| && r == s[|s| - |r|..]
    ensures |r| > 0 ==> !IsSpace(r[0])
    ensures forall i | 0 <= i < |s| - |r| :: IsSpace(s[i])
  {
    if |s| > 0 && IsSpace(s[0]) then SkipSpaces(s[1..]) else s
  }

  /** The value of `c` as a digit in base 10 or 16, if it is one. */
  function Digit(c: char, radix: nat): (d: Option<nat>)
    requires radix == 10 || radix == 16
    ensures d.Some? ==> d.value < radix
    ensures radix == 10 ==> (d.Some? <==> IsDecimalDigit(c))
    ensures IsDecimalDigit(c) ==> d == Some(c as int - '0' as int)
  {
    if '0' <= c <= '9' then Some(c as int - '0' as int)
    else if radix == 16 && 'a' <= c <= 'f' then Some(c as int - 'a' as int + 10)
    else if radix == 16 && 'A' <= c <= 'F' then Some(c as int - 'A' as int + 10)
    else None
  }

  /** The length of the longest prefix of `s` made of digits. */
  function DigitRun(s: string, radix: nat): (n: nat)
    requires radix == 10 || radix == 16
    ensures n <= |s|
    ensures forall i | 0 <= i < n :: Digit(s[i], radix).Some?
    ensures n < |s| ==> Digit(s[n], radix).None?
  {
    if |s| > 0 && Digit(s[0], radix).Some? then 1 + DigitRun(s[1..], radix) else 0
  }

  /** The number a run of digits denotes. */
  function ValueOf(ds: string, radix: nat): nat
    requires radix == 10 || radix == 16
    requires forall i | 0 <= i < |ds| :: Digit(ds[i], radix).Some?
  {
    if |ds| == 0 then 0
    else ValueOf(ds[..|ds| - 1], radix) * radix + Digit(ds[|ds| - 1], radix).value
  }

  /** The unsigned part of `parseInt`: an optional `0x` prefix selects base
      16, then the longest run of digits is read; no digits is `NaN`. */
  function ParseUnsigned(u: string): (r: Option<nat>)
    ensures r.Some? ==> |u| > 0 && Digit(u[0], 16).Some?
  {
    var hex := |u| >= 2 && u[0] == '0' && (u[1] == 'x' || u[1] == 'X');
    var radix := if hex then 16 else 10;
    var body := if hex then u[2..] else u;
    var n := DigitRun(body, radix);
    if n == 0 then None else Some(ValueOf(body[..n], radix))
  }

  /** `parseInt(s)`: white space is skipped, then the signed part is read. */
  function ParseInt(s: string): (r: Option<int>)
    ensures r.Some? ==> exists i | 0 <= i < |s| :: Digit(s[i], 16).Some?
  {
    var t := SkipSpaces(s);
    var r := ParseSigned(t);
    assert r.Some? ==> Digit(t[0], 16).Some? || Digit(t[1], 16).Some?;
    assert |t| > 0 ==> t[0] == s[|s| - |t|];
    assert |t| > 1 ==> t[1] == s[|s| - |t| + 1];
    r
  }

  /** An optional sign, then the unsigned part. */
  function ParseSigned(t: string): (r: Option<int>)
    ensures r.Some? ==> |t| > 0 && (Digit(t[0], 16).Some? || (|t| > 1 && Digit(t[1], 16).Some?))
  {
    var signed := |t| > 0 && (t[0] == '-' || t[0] == '+');
    var u := if signed then t[1..] else t;
    match ParseUnsigned(u)
    case None => None
    case Some(v) => if signed && t[0] == '-' then Some(-(v as int)) else Some(v)
  }

  /** `parseInt(s) || 0`: `NaN` (and 0) count as 0. */
  function ParseIntOrZero(s: string): (v: int)
    ensures ParseInt(s).None? ==> v == 0
    ensures ParseInt(s).Some? ==> v == ParseInt(s).value
  {
    match ParseInt(s)
    case None => 0
    case Some(n) => n
  }

  /** Text without a single digit parses to `NaN`. */
  lemma NoDigitIsNaN(s: string)
    requires forall i | 0 <= i < |s| :: !IsDecimalDigit(s[i])
    ensures ParseInt(s).None?
  {
  }

  function DigitChar(d: nat): (c: char)
    requires d < 10
    ensures IsDecimalDigit(c) && Digit(c, 10) == Some(d)
  {
    ('0' as int + d) as char
  }

  /** The decimal text of a natural number, as `String(n)` writes it. */
  function ShowNat(n: nat): (s: string)
    ensures |s| > 0
    ensures forall i | 0 <= i < |s| :: IsDecimalDigit(s[i])
    ensures s[0] == '0' ==> n == 0
    decreases n
  {
    if n < 10 then [DigitChar(n)] else ShowNat(n / 10) + [DigitChar(n % 10)]
  }

  /** `String(n)` for an integer. */
  function Show(n: int): (s: string)
  {
    if n < 0 then "-" + ShowNat(-n) else ShowNat(n)
  }

  lemma {:induction false} ValueOfShowNat(n: nat)
    ensures ValueOf(ShowNat(n), 10) == n
    decreases n
  {
    if n >= 10 {
      var s := ShowNat(n);
      assert s[..|s| - 1] == ShowNat(n / 10);
      ValueOfShowNat(n / 10);
    }
  }

  lemma {:induction false} DigitRunOfPrefix(ds: string, rest: string)
    requires forall i | 0 <= i < |ds| :: IsDecimalDigit(ds[i])
    requires |rest| == 0 || !IsDecimalDigit(rest[0])
    ensures DigitRun(ds + rest, 10) == |ds|
  {
    if |ds| > 0 {
      assert (ds + rest)[1..] == ds[1..] + rest;
      DigitRunOfPrefix(ds[1..], rest);
    }
  }

  lemma ParseUnsignedOfShow(m: nat, rest: string)
    requires |rest| == 0 || !IsDecimalDigit(rest[0])
    requires m == 0 ==> |rest| == 0 || (rest[0] != 'x' && rest[0] != 'X')
    ensures ParseUnsigned(ShowNat(m) + rest) == Some(m)
  {
    var digits := ShowNat(m);
    var u := digits + rest;
    assert |u| >= 2 && u[0] == '0' ==> m == 0 && u[1] == rest[0];
    DigitRunOfPrefix(digits, rest);
    assert u[..|digits|] == digits;
    ValueOfShowNat(m);
  }

  /** A run of decimal digits followed by a non-digit, unless it is the "0x"
      prefix, reads as the value of the run. */
  lemma ParseUnsignedOfDigits(digits: string, rest: string)
    requires |digits| > 0 && forall i | 0 <= i < |digits| :: IsDecimalDigit(digits[i])
    requires |rest| == 0 || !IsDecimalDigit(rest[0])
    requires |digits| == 1 && digits[0] == '0' ==> |rest| == 0 || (rest[0] != 'x' && rest[0] != 'X')
    ensures ParseUnsigned(digits + rest) == Some(ValueOf(digits, 10))
  {
    var u := digits + rest;
    NotHexPrefix(u, digits, rest);
    DigitRunOfPrefix(digits, rest);
    assert u[..|digits|] == digits;
    DecimalParse(u, |digits|);
  }

  /** A run of decimal digits that is not "0" before 'x' does not open a
      hexadecimal literal. */
  lemma NotHexPrefix(u: string, digits: string, rest: string)
    requires u == digits + rest
    requires |digits| > 0 && forall i | 0 <= i < |digits| :: IsDecimalDigit(digits[i])
    requires |digits| == 1 && digits[0] == '0' ==> |rest| == 0 || (rest[0] != 'x' && rest[0] != 'X')
    ensures !(|u| >= 2 && u[0] == '0' && (u[1] == 'x' || u[1] == 'X'))
  {
    if |u| >= 2 {
      if |digits| >= 2 {
        assert u[1] == digits[1];
      } else {
        assert u[1] == rest[0];
      }
    }
  }

  /** Without the "0x" prefix, `ParseUnsigned` reads the decimal run. */
  lemma DecimalParse(u: string, n: nat)
    requires !(|u| >= 2 && u[0] == '0' && (u[1] == 'x' || u[1] == 'X'))
    requires 0 < n && DigitRun(u, 10) == n
    ensures ParseUnsigned(u) == Some(ValueOf(u[..n], 10))
  {
  }

  /** Leading white space is skipped up to the first other character. */
  lemma {:induction false} SkipLeadingSpaces(ws: string, x: string)
    requires forall i | 0 <= i < |ws| :: IsSpace(ws[i])
    requires |x| == 0 || !IsSpace(x[0])
    ensures SkipSpaces(ws + x) == x
    decreases |ws|
  {
    if |ws| == 0 {
      assert ws + x == x;
    } else {
      assert (ws + x)[0] == ws[0];
      assert (ws + x)[1..] == ws[1..] + x;
      SkipLeadingSpaces(ws[1..], x);
    }
  }

  /** `parseInt` of white space, an optional sign, a run of decimal digits
      and any text that does not continue the run: the signed value of the
      run, leading zeros allowed ("07" is 7, "12abc" is 12, " -3px" is -3). */
  lemma ParseIntOfDigits(s: string, ws: string, sign: string, digits: string, rest: string)
    requires s == ws + sign + digits + rest
    requires forall i | 0 <= i < |ws| :: IsSpace(ws[i])
    requires |sign| <= 1 && (|sign| == 1 ==> sign[0] == '-' || sign[0] == '+')
    requires |digits| > 0 && forall i | 0 <= i < |digits| :: IsDecimalDigit(digits[i])
    requires |rest| == 0 || !IsDecimalDigit(rest[0])
    requires |digits| == 1 && digits[0] == '0' ==> |rest| == 0 || (rest[0] != 'x' && rest[0] != 'X')
    ensures ParseInt(s) == Some(WithSign(sign, ValueOf(digits, 10)))
  {
    var u := digits + rest;
    var t := sign + u;
    var v := ValueOf(digits, 10);
    Regroup(ws, sign, digits, rest);
    assert s == ws + t;
    ParseUnsignedOfDigits(digits, rest);
    SignedOfDigits(sign, u, v);
    SkipLeadingSpaces(ws, t);
    ParseIntIsSigned(s, t);
    assert ParseInt(s) == ParseSigned(t);
  }

  /** `v` negated after a minus sign, as it is otherwise. */
  function WithSign(sign: string, v: nat): int
  {
    if |sign| == 1 && sign[0] == '-' then -(v as int) else v
  }

  lemma Regroup<T>(a: seq<T>, b: seq<T>, c: seq<T>, d: seq<T>)
    ensures a + b + c + d == a + (b + (c + d))
  {
  }

  /** The signed part of a sign followed by a digit-led unsigned part. */
  lemma SignedOfDigits(sign: string, u: string, v: nat)
    requires |sign| <= 1 && (|sign| == 1 ==> sign[0] == '-' || sign[0] == '+')
    requires |u| > 0 && IsDecimalDigit(u[0]) && ParseUnsigned(u) == Some(v)
    ensures |sign + u| > 0 && !IsSpace((sign + u)[0])
    ensures ParseSigned(sign + u) == Some(WithSign(sign, v))
  {
    var t := sign + u;
    DigitNotSpace(u[0]);
    if |sign| == 0 {
      assert t == u;
      ParseSignedUnsigned(u);
    } else {
      assert t[0] == sign[0] && t[1..] == u;
      ParseSignedOfSign(t, u);
    }
  }

  /** `parseInt` reads its signed part where the white space ends. */
  lemma ParseIntIsSigned(s: string, t: string)
    requires SkipSpaces(s) == t
    ensures ParseInt(s) == ParseSigned(t)
  {
  }

  /** Without a sign the unsigned part is read as it is. */
  lemma ParseSignedUnsigned(u: string)
    requires |u| > 0 && IsDecimalDigit(u[0]) && ParseUnsigned(u).Some?
    ensures ParseSigned(u) == Some(ParseUnsigned(u).value as int)
  {
    assert u[0] != '-' && u[0] != '+';
  }

  /** A sign is dropped before the unsigned part, and a minus negates it. */
  lemma ParseSignedOfSign(t: string, u: string)
    requires |t| > 0 && (t[0] == '-' || t[0] == '+') && t[1..] == u
    requires ParseUnsigned(u).Some?
    ensures ParseSigned(t) == Some(if t[0] == '-' then -(ParseUnsigned(u).value as int) else ParseUnsigned(u).value)
  {
  }

  lemma SkipNoSpace(u: string)
    requires |u| > 0 && IsDecimalDigit(u[0])
    ensures SkipSpaces(u) == u
  {
    DigitNotSpace(u[0]);
  }

  lemma DigitNotSpace(c: char)
    requires IsDecimalDigit(c)
    ensures !IsSpace(c)
  {
  }

  lemma ParseIntPlain(u: string)
    requires |u| > 0 && IsDecimalDigit(u[0]) && ParseUnsigned(u).Some?
    ensures ParseInt(u) == Some(ParseUnsigned(u).value)
  {
    SkipNoSpace(u);
  }

  lemma ParseIntMinus(s: string, u: string)
    requires |s| > 0 && s[0] == '-' && s[1..] == u
    requires |u| > 0 && IsDecimalDigit(u[0]) && ParseUnsigned(u).Some?
    ensures ParseInt(s) == Some(-(ParseUnsigned(u).value as int))
  {
    assert !IsSpace(s[0]);
    assert SkipSpaces(s) == s;
  }

  /** `parseInt` reads back what `String` writes, and stops at the first
      character that is not a digit; "0x" after a zero starts a hexadecimal
      number instead. */
  lemma ParseIntOfShow(n: int, rest: string)
    requires |rest| == 0 || !IsDecimalDigit(rest[0])
    requires n == 0 ==> |rest| == 0 || (rest[0] != 'x' && rest[0] != 'X')
    ensures ParseInt(Show(n) + rest) == Some(n)
  {
    if n < 0 {
      ParseNegative(n, rest);
    } else {
      ParseNonNegative(n, rest);
    }
  }

  lemma ParseNegative(n: int, rest: string)
    requires n < 0
    requires |rest| == 0 || !IsDecimalDigit(rest[0])
    ensures ParseInt(Show(n) + rest) == Some(n)
  {
    var m: nat := -n;
    var s := Show(n) + rest;
    var u := ShowNat(m) + rest;
    assert |s| > 0 && s[0] == '-' && s[1..] == u by { ShowNegative(n, rest); }
    assert ParseUnsigned(u) == Some(m) by { ParseUnsignedOfShow(m, rest); }
    assert |u| > 0 && IsDecimalDigit(u[0]) by { LeadingDigit(m, rest); }
    ParseIntMinus(s, u);
  }

  lemma ShowNegative(n: int, rest: string)
    requires n < 0
    ensures |Show(n) + rest| > 0 && (Show(n) + rest)[0] == '-'
    ensures (Show(n) + rest)[1..] == ShowNat(-n) + rest
  {
    var digits := ShowNat(-n);
    assert Show(n) + rest == ['-'] + (digits + rest);
  }

  lemma LeadingDigit(m: nat, rest: string)
    ensures |ShowNat(m) + rest| > 0 && IsDecimalDigit((ShowNat(m) + rest)[0])
  {
    var digits := ShowNat(m);
    assert (digits + rest)[0] == digits[0];
  }

  lemma ParseNonNegative(n: nat, rest: string)
    requires |rest| == 0 || !IsDecimalDigit(rest[0])
    requires n == 0 ==> |rest| == 0 || (rest[0] != 'x' && rest[0] != 'X')
    ensures ParseInt(Show(n) + rest) == Some(n)
  {
    ParseUnsignedOfShow(n, rest);
    LeadingDigit(n, rest);
    ParseIntPlain(ShowNat(n) + rest);
  }
}

=== FILE: js_object.dfy ===
/**
  A JavaScript object with string keys, as the association list of its
  own enumerable properties in enumeration order, and the key-sorting
  idiom the client applies to such objects:
  `Object.keys(o).sort().reduce((acc, k) => { acc[k] = o[k]; return acc; }, {})`.
 */
module JsObject {
  import opened JsValues
  import opened StringOrder
  import Sorting

  predicate DistinctKeys<V>(o: seq<(string, V)>)
  {
    forall i, j | 0 <= i < j < |o| :: o[i].0 != o[j].0
  }

  /** An object: no key appears twice. */
  type Obj<V> = o: seq<(string, V)> | DistinctKeys(o) witness []

  /** `Object.keys(o)`. */
  function Keys<V>(o: seq<(string, V)>): (ks: seq<string>)
    ensures |ks| == |o|
    ensures forall i | 0 <= i < |o| :: ks[i] == o[i].0
  {
    if |o| == 0 then [] else [o[0].0] + Keys(o[1..])
  }

  /** `o[k]`, absent when `k` is not an own key. */
  function Get<V>(o: seq<(string, V)>, k: string): Option<V>
  {
    if |o| == 0 then None
    else if o[0].0 == k then Some(o[0].1)
    else Get(o[1..], k)
  }

  lemma {:induction false} GetSomeIff<V>(o: seq<(string, V)>, k: string)
    ensures Get(o, k).Some? <==> exists i | 0 <= i < |o| :: o[i].0 == k
    ensures Get(o, k).Some? ==> exists i | 0 <= i < |o| :: o[i] == (k, Get(o, k).value)
  {
    if |o| > 0 {
      GetSomeIff(o[1..], k);
      if Get(o[1..], k).Some? && o[0].0 != k {
        var i :| 0 <= i < |o[1..]| && o[1..][i] == (k, Get(o[1..], k).value);
        assert o[i + 1] == o[1..][i];
      }
      if o[0].0 != k && (exists i | 0 <= i < |o| :: o[i].0 == k) {
        var i :| 0 <= i < |o| && o[i].0 == k;
        assert o[1..][i - 1].0 == k;
      }
    }
  }

  /** `acc[k] = v`: replaces the value of an existing key in place, or
      appends a new key at the end. */
  function Put<V>(o: Obj<V>, k: string, v: V): (r: Obj<V>)
    ensures Get(r, k) == Some(v)
    ensures forall k' | k' != k :: Get(r, k') == Get(o, k')
  {
    if |o| == 0 then [(k, v)]
    else if o[0].0 == k then [(k, v)] + o[1..]
    else
      var rest := Put(o[1..], k, v);
      GetSomeIff(o[1..], o[0].0);
      GetSomeIff(rest, o[0].0);
      [o[0]] + rest
  }

  /** The comparator `.sort()` applies to the keys, lifted to entries. */
  function EntryCompare<V>(a: (string, V), b: (string, V)): int
  {
    Compare(a.0, b.0)
  }

  /** The key-sorted copy of an object. Because keys are distinct, sorting the
      keys and re-inserting each with its value gives the same list as
      sorting the entries by key. */
  function SortObject<V>(o: Obj<V>): (r: Obj<V>)
    ensures StrictlyAscending(Keys(r))
    ensures forall k :: Get(r, k) == Get(o, k)
    ensures |r| == |o|
  {
    SortObjectFacts(o);
    AscendingDistinct(Sorting.Sort(o, EntryCompare));
    Sorting.Sort(o, EntryCompare)
  }

  lemma {:induction false} SortObjectFacts<V>(o: Obj<V>)
    ensures StrictlyAscending(Keys(Sorting.Sort(o, EntryCompare)))
    ensures forall k :: Get(Sorting.Sort(o, EntryCompare), k) == Get(o, k)
  {
    if |o| > 0 {
      var rest: Obj<V> := o[1..];
      SortObjectFacts(rest);
      var t := Sorting.Sort(rest, EntryCompare);
      assert Sorting.Sort(o, EntryCompare) == Sorting.Insert(o[0], t, EntryCompare);
      HeadNotInRest(o);
      InsertEntry(o[0], t);
      GetCons(o);
    }
  }

  /** The first key of an object does not occur again. */
  lemma HeadNotInRest<V>(o: Obj<V>)
    requires |o| > 0
    ensures Get(o[1..], o[0].0) == None
  {
    GetSomeIff(o[1..], o[0].0);
    assert forall i | 0 <= i < |o| - 1 :: o[1..][i] == o[i + 1];
  }

  /** A lookup either hits the first entry or continues in the rest. */
  lemma GetCons<V>(o: seq<(string, V)>)
    requires |o| > 0
    ensures forall k :: Get(o, k) == if k == o[0].0 then Some(o[0].1) else Get(o[1..], k)
  {
  }

  lemma AscendingDistinct<V>(t: seq<(string, V)>)
    requires StrictlyAscending(Keys(t))
    ensures DistinctKeys(t)
  {
    forall i, j | 0 <= i < j < |t|
      ensures t[i].0 != t[j].0
    {
      assert Less(Keys(t)[i], Keys(t)[j]);
      LessIrreflexive(t[i].0);
    }
  }

  lemma InsertEntry<V>(x: (string, V), s: seq<(string, V)>)
    requires StrictlyAscending(Keys(s))
    requires Get(s, x.0) == None
    ensures StrictlyAscending(Keys(Sorting.Insert(x, s, EntryCompare)))
    ensures forall k :: Get(Sorting.Insert(x, s, EntryCompare), k)
                        == if k == x.0 then Some(x.1) else Get(s, k)
  {
    InsertGet(x, s);
    InsertAscending(x, s);
  }

  /** Inserting a new key makes it look up its value and changes no other lookup. */
  lemma {:induction false} InsertGet<V>(x: (string, V), s: seq<(string, V)>)
    requires Get(s, x.0) == None
    ensures forall k :: Get(Sorting.Insert(x, s, EntryCompare), k)
                        == if k == x.0 then Some(x.1) else Get(s, k)
    decreases |s|
  {
    if |s| > 0 {
      var tail := s[1..];
      assert Get(tail, x.0) == None;
      if EntryCompare(x, s[0]) > 0 {
        InsertGet(x, tail);
        var t := Sorting.Insert(x, tail, EntryCompare);
        assert Sorting.Insert(x, s, EntryCompare) == [s[0]] + t;
        assert ([s[0]] + t)[1..] == t;
      } else {
        assert Sorting.Insert(x, s, EntryCompare) == [x] + s;
        assert ([x] + s)[1..] == s;
      }
    }
  }

  /** Inserting a new key into a key-ascending object keeps it ascending. */
  lemma {:induction false} InsertAscending<V>(x: (string, V), s: seq<(string, V)>)
    requires StrictlyAscending(Keys(s))
    requires Get(s, x.0) == None
    ensures StrictlyAscending(Keys(Sorting.Insert(x, s, EntryCompare)))
    decreases |s|
  {
    if |s| > 0 {
      var tail := s[1..];
      AscendingTail(s);
      assert Get(tail, x.0) == None;
      if EntryCompare(x, s[0]) > 0 {
        InsertAscending(x, tail);
        InsertGet(x, tail);
        assert Sorting.Insert(x, s, EntryCompare) == [s[0]] + Sorting.Insert(x, tail, EntryCompare);
        InsertEntryAfter(x, s);
      } else {
        assert Sorting.Insert(x, s, EntryCompare) == [x] + s;
        InsertEntryFront(x, s);
      }
    }
  }

  lemma InsertEntryFront<V>(x: (string, V), s: seq<(string, V)>)
    requires |s| > 0 && EntryCompare(x, s[0]) <= 0
    requires StrictlyAscending(Keys(s))
    requires Get(s, x.0) == None
    ensures StrictlyAscending(Keys([x] + s))
  {
    var r := [x] + s;
    assert Get(s, s[0].0).Some?;
    assert Less(x.0, s[0].0);
    forall i, j | 0 <= i < j < |r|
      ensures Less(Keys(r)[i], Keys(r)[j])
    {
      if i == 0 && j > 1 {
        assert Less(Keys(s)[0], Keys(s)[j - 1]);
        LessTransitive(x.0, s[0].0, s[j - 1].0);
      } else if i > 0 {
        assert Keys(r)[i] == Keys(s)[i - 1] && Keys(r)[j] == Keys(s)[j - 1];
      }
    }
  }

  lemma InsertEntryAfter<V>(x: (string, V), s: seq<(string, V)>)
    requires |s| > 0 && EntryCompare(x, s[0]) > 0
    requires StrictlyAscending(Keys(s))
    requires StrictlyAscending(Keys(Sorting.Insert(x, s[1..], EntryCompare)))
    requires forall k :: Get(Sorting.Insert(x, s[1..], EntryCompare), k)
                         == if k == x.0 then Some(x.1) else Get(s[1..], k)
    ensures StrictlyAscending(Keys([s[0]] + Sorting.Insert(x, s[1..], EntryCompare)))
  {
    var t := Sorting.Insert(x, s[1..], EntryCompare);
    var ks := Keys(t);
    forall j | 0 <= j < |ks|
      ensures Less(s[0].0, ks[j])
    {
      assert ks[j] == t[j].0;
      GetSomeIff(t, t[j].0);
      if t[j].0 != x.0 {
        HeadBelowTail(s, t[j].0);
      }
    }
    StringOrder.AscendingCons(s[0].0, ks);
    assert Keys([s[0]] + t) == [s[0].0] + ks by {
      assert ([s[0]] + t)[1..] == t;
    }
  }

  /** In a key-ascending object, the first key is below every later key. */
  lemma HeadBelowTail<V>(s: seq<(string, V)>, k: string)
    requires |s| > 0 && StrictlyAscending(Keys(s))
    requires Get(s[1..], k).Some?
    ensures Less(s[0].0, k)
  {
    GetSomeIff(s[1..], k);
    var i :| 0 <= i < |s[1..]| && s[1..][i].0 == k;
    assert Less(Keys(s)[0], Keys(s)[i + 1]);
  }

  /** Sorting an already sorted object changes nothing. */
  lemma SortObjectIdempotent<V>(o: Obj<V>)
    ensures SortObject(SortObject(o)) == SortObject(o)
  {
    var r := SortObject(o);
    forall i, j | 0 <= i < j < |r|
      ensures EntryCompare(r[i], r[j]) <= 0
    {
      assert Less(Keys(r)[i], Keys(r)[j]);
    }
    Sorting.SortOfSorted(r, EntryCompare);
  }

  /** Two key-sorted objects with the same key/value pairs are the same list:
      the sorted form depends only on the pairs, not on the input order. */
  lemma {:induction false} SortedUnique<V>(a: seq<(string, V)>, b: seq<(string, V)>)
    requires StrictlyAscending(Keys(a)) && StrictlyAscending(Keys(b))
    requires forall k :: Get(a, k) == Get(b, k)
    ensures a == b
    decreases |a|
  {
    FirstKeyPresent(a);
    FirstKeyPresent(b);
    if |a| > 0 && |b| > 0 {
      SameFirstKey(a, b);
      TailsAgree(a, b);
      AscendingTail(a);
      AscendingTail(b);
      assert Get(a, a[0].0) == Some(a[0].1);
      assert Get(b, b[0].0) == Some(b[0].1);
      SortedUnique(a[1..], b[1..]);
      assert a == [a[0]] + a[1..] && b == [b[0]] + b[1..];
    }
  }

  /** Two key-ascending objects with the same lookups start with the same key. */
  lemma SameFirstKey<V>(a: seq<(string, V)>, b: seq<(string, V)>)
    requires |a| > 0 && |b| > 0
    requires StrictlyAscending(Keys(a)) && StrictlyAscending(Keys(b))
    requires forall k :: Get(a, k) == Get(b, k)
    ensures a[0].0 == b[0].0
  {
    FirstKeyPresent(a);
    FirstKeyPresent(b);
    GetSomeIff(a, b[0].0);
    GetSomeIff(b, a[0].0);
    var i :| 0 <= i < |a| && a[i].0 == b[0].0;
    var j :| 0 <= j < |b| && b[j].0 == a[0].0;
    if i > 0 {
      assert Less(Keys(a)[0], Keys(a)[i]);
      if j > 0 {
        assert Less(Keys(b)[0], Keys(b)[j]);
        LessAsymmetric(a[0].0, b[0].0);
      }
    }
    if j > 0 && i == 0 {
      assert Less(Keys(b)[0], Keys(b)[j]);
      LessIrreflexive(a[0].0);
    }
  }

  /** Past a shared first key, the rests of two such objects agree too. */
  lemma TailsAgree<V>(a: seq<(string, V)>, b: seq<(string, V)>)
    requires |a| > 0 && |b| > 0 && a[0].0 == b[0].0
    requires StrictlyAscending(Keys(a)) && StrictlyAscending(Keys(b))
    requires forall k :: Get(a, k) == Get(b, k)
    ensures forall k :: Get(a[1..], k) == Get(b[1..], k)
  {
    forall k
      ensures Get(a[1..], k) == Get(b[1..], k)
    {
      if k == a[0].0 {
        NotInTail(a, k);
        NotInTail(b, k);
      } else {
        assert Get(a, k) == Get(a[1..], k);
        assert Get(b, k) == Get(b[1..], k);
      }
    }
  }

  lemma AscendingTail<V>(a: seq<(string, V)>)
    requires |a| > 0 && StrictlyAscending(Keys(a))
    ensures StrictlyAscending(Keys(a[1..]))
  {
    var ks := Keys(a);
    assert ks == [a[0].0] + Keys(a[1..]);
    assert ks[1..] == Keys(a[1..]);
    StringOrder.AscendingSuffix(ks);
  }

  lemma FirstKeyPresent<V>(a: seq<(string, V)>)
    ensures |a| > 0 ==> Get(a, a[0].0) == Some(a[0].1)
  {
  }

  lemma NotInTail<V>(a: seq<(string, V)>, k: string)
    requires |a| > 0 && a[0].0 == k
    requires StrictlyAscending(Keys(a))
    ensures Get(a[1..], k) == None
  {
    GetSomeIff(a[1..], k);
    if Get(a[1..], k).Some? {
      var i :| 0 <= i < |a[1..]| && a[1..][i].0 == k;
      assert Less(Keys(a)[0], Keys(a)[i + 1]);
      LessIrreflexive(k);
    }
  }

  /** Every entry of an object is what looking its key up yields. */
  lemma {:induction false} GetAt<V>(o: Obj<V>, i: nat)
    requires i < |o|
    ensures Get(o, o[i].0) == Some(o[i].1)
  {
    if i > 0 {
      assert o[0].0 != o[i].0;
      var t: Obj<V> := o[1..];
      assert t[i - 1] == o[i];
      GetAt(t, i - 1);
    }
  }
}

=== FILE: js_values.dfy ===
/**
  Vocabulary shared by the whole model: optional JSON fields, the outcome of
  an HTTP request, and the side effects a response handler can have besides
  changing client state.
 */
module JsValues {

  /** A JSON field that may be absent (`undefined` or `null`). */
  datatype Option<+T> = None | Some(value: T)

  /** The outcome of one request: the parsed body, or a rejection that carries
      the HTTP status and the `error` field of the error body ("" when the body
      has none). */
  datatype Response<+T> = Ok(body: T) | Fail(status: int, error: string)

  /** What a handler does besides updating state: navigate to the login page,
      write a diagnostic line, let the rejection reach its caller, or nothing. */
  datatype Effect = NoEffect | RedirectToLogin | LogError | Rejected

  /** A handler's result: the new client state and its side effect. */
  datatype Handled<S> = Handled(state: S, effect: Effect)

  /** The `error` value the backend sends when the session is not authenticated. */
  const Unauthorized: string := "unauthorized"

  /** JavaScript truthiness of an optional string: absent and "" are falsy. */
  predicate Truthy(s: Option<string>)
  {
    s.Some? && s.value != ""
  }

  /** `s || fallback` on an optional string. */
  function OrElse(s: Option<string>, fallback: string): (r: string)
    ensures Truthy(s) ==> r == s.value
    ensures !Truthy(s) ==> r == fallback
  {
    if Truthy(s) then s.value else fallback
  }

  /** The catch clause shared by the loaders that test the body's `error`
      field: "unauthorized" sends the user to the login page, anything else is
      only logged. */
  function LoaderFailure(error: string): (e: Effect)
    ensures e == RedirectToLogin <==> error == Unauthorized
    ensures e != NoEffect
  {
    if error == Unauthorized then RedirectToLogin else LogError
  }
}

=== FILE: lldp.dfy ===
/**
  The LLDP inventory plugin: each `key=value` line of `lldpctl -f keyvalue`
  becomes a path of dotted key components (the first one dropped) ending in
  the value, inserted into a nested hash.
 */
module Lldp {
  import opened JsValues

  /** A node of the nested hash: a leaf value (`nil` when the line had no
      value) or a sub-hash. */
  datatype Node = Leaf(value: Option<string>) | Branch(children: map<string, Node>)

  /** The node at a non-empty key path, if every step above it is a hash. */
  function Lookup(h: map<string, Node>, path: seq<string>): Option<Node>
    requires |path| > 0
    decreases |path|
  {
    if path[0] !in h then None
    else if |path| == 1 then Some(h[path[0]])
    else match h[path[0]]
      case Branch(m) => Lookup(m, path[1..])
      case Leaf(_) => None
  }

  /** `hashify(h, path + [v])` for a non-empty path: the node at the first key,
      if `nil` or missing, becomes an empty hash (`||= {}`); the rest of the
      path is inserted below it, and the last key receives the value whatever
      it held. A string met where a hash is needed is not indexed into: the
      insertion fails (`None`). */
  function Insert(h: map<string, Node>, path: seq<string>, v: Option<string>): (r: Option<map<string, Node>>)
    requires |path| > 0
    ensures r.Some? ==> r.value.Keys == h.Keys + {path[0]}
    ensures r.Some? ==> forall k | k in h && k != path[0] :: r.value[k] == h[k]
    decreases |path|
  {
    var key := path[0];
    if |path| == 1 then Some(h[key := Leaf(v)])
    else
      var existing := if key in h then h[key] else Leaf(None);
      match existing
      case Leaf(Some(_)) => None
      case Leaf(None) =>
        var sub := Insert(map[], path[1..], v);
        if sub.None? then None else Some(h[key := Branch(sub.value)])
      case Branch(m) =>
        var sub := Insert(m, path[1..], v);
        if sub.None? then None else Some(h[key := Branch(sub.value)])
  }

  /** Whether a path passes through a string leaf of `h` before its end. */
  predicate Blocked(h: map<string, Node>, path: seq<string>)
    requires |path| > 0
    decreases |path|
  {
    |path| > 1 && path[0] in h &&
    match h[path[0]]
    case Leaf(v) => v.Some?
    case Branch(m) => Blocked(m, path[1..])
  }

  /** The insertion fails exactly when the path runs through a string. */
  lemma {:induction false} InsertFailsIffBlocked(h: map<string, Node>, path: seq<string>, v: Option<string>)
    requires |path| > 0
    ensures Insert(h, path, v).None? <==> Blocked(h, path)
    decreases |path|
  {
    if |path| > 1 {
      if path[0] in h && h[path[0]].Branch? {
        InsertFailsIffBlocked(h[path[0]].children, path[1..], v);
      } else if path[0] !in h || h[path[0]] == Leaf(None) {
        InsertFailsIffBlocked(map[], path[1..], v);
        NothingBlocksEmpty(path[1..]);
      }
    }
  }

  lemma NothingBlocksEmpty(path: seq<string>)
    requires |path| > 0
    ensures !Blocked(map[], path)
  {
  }

  /** After an insertion the path leads to the value. */
  lemma {:induction false} LookupInserted(h: map<string, Node>, path: seq<string>, v: Option<string>)
    requires |path| > 0 && Insert(h, path, v).Some?
    ensures Lookup(Insert(h, path, v).value, path) == Some(Leaf(v))
    decreases |path|
  {
    if |path| > 1 {
      var key := path[0];
      var m := if key in h && h[key].Branch? then h[key].children else map[];
      LookupInserted(m, path[1..], v);
    }
  }

  /** Two paths part ways before either ends. */
  predicate Diverge(p: seq<string>, q: seq<string>)
  {
    exists i | 0 <= i < |p| && i < |q| :: p[i] != q[i]
  }

  /** Paths that part ways with the inserted one look up what they did before. */
  lemma {:induction false} InsertFrame(h: map<string, Node>, path: seq<string>, v: Option<string>, q: seq<string>)
    requires |path| > 0 && |q| > 0 && Insert(h, path, v).Some?
    requires Diverge(path, q)
    ensures Lookup(Insert(h, path, v).value, q) == Lookup(h, q)
    decreases |path|
  {
    var r := Insert(h, path, v).value;
    if q[0] != path[0] {
    } else {
      var i :| 0 <= i < |path| && i < |q| && path[i] != q[i];
      assert i > 0;
      assert Diverge(path[1..], q[1..]) by {
        assert path[1..][i - 1] != q[1..][i - 1];
      }
      var key := path[0];
      var created := !(key in h && h[key].Branch?);
      var m := if created then map[] else h[key].children;
      InsertFrame(m, path[1..], v, q[1..]);
      if created && |q| > 1 {
        EmptyLooksUpNothing(q[1..]);
      }
    }
  }

  lemma EmptyLooksUpNothing(q: seq<string>)
    requires |q| > 0
    ensures Lookup(map[], q) == None
  {
  }

  /** An existing sub-hash is kept: its other keys survive an insertion below it. */
  lemma SubHashReused(h: map<string, Node>, path: seq<string>, v: Option<string>, sibling: string)
    requires |path| > 1 && path[0] in h && h[path[0]].Branch?
    requires sibling in h[path[0]].children && sibling != path[1]
    requires Insert(h, path, v).Some?
    ensures Lookup(Insert(h, path, v).value, [path[0], sibling]) == Some(h[path[0]].children[sibling])
  {
    InsertFrame(h, path, v, [path[0], sibling]);
  }

  /** `hashify(h, list)` where `list` is the key path followed by the value: a
      one-element list is the value itself and leaves `h` alone. */
  function Hashify(h: map<string, Node>, path: seq<string>, v: Option<string>): (r: Option<map<string, Node>>)
  {
    if |path| == 0 then Some(h) else Insert(h, path, v)
  }

  // ---------------------------------------------------------------------
  // Lines

  /** Ruby's `split` on a single-character pattern, before trailing empty
      fields are removed: one more field than separators. */
  function SplitAll(s: string, c: char): (fs: seq<string>)
    ensures |fs| > 0
    ensures forall k | 0 <= k < |fs| :: c !in fs[k]
    ensures fs[0] == KeyOf(s, c)
  {
    if |s| == 0 then [""]
    else
      var rest := SplitAll(s[1..], c);
      if s[0] == c then [""] + rest else [[s[0]] + rest[0]] + rest[1..]
  }

  /** Ruby drops the trailing empty fields of a split. */
  function DropTrailingEmpty(fs: seq<string>): (r: seq<string>)
    ensures |r| <= |fs| && r == fs[..|r|]
    ensures |r| > 0 ==> r[|r| - 1] != ""
    ensures forall i | |r| <= i < |fs| :: fs[i] == ""
  {
    if |fs| == 0 then []
    else if fs[|fs| - 1] == "" then DropTrailingEmpty(fs[..|fs| - 1])
    else fs
  }

  /** `s.split(c)`. */
  function Split(s: string, c: char): seq<string>
  {
    DropTrailingEmpty(SplitAll(s, c))
  }

  /** The text of `s` before its first `c`. */
  function KeyOf(s: string, c: char): (k: string)
    ensures k <= s && c !in k
    ensures |k| < |s| ==> s[|k|] == c
  {
    if |s| == 0 || s[0] == c then "" else [s[0]] + KeyOf(s[1..], c)
  }

  /** Every character of `s` is `c`. */
  predicate OnlyOf(s: string, c: char)
  {
    forall i | 0 <= i < |s| :: s[i] == c
  }

  /** Ruby's `split` gives no fields exactly when the text is separators only. */
  lemma {:induction false} SplitEmptyIff(s: string, c: char)
    ensures |Split(s, c)| == 0 <==> OnlyOf(s, c)
  {
    AllFieldsEmptyIff(s, c);
    var fs := SplitAll(s, c);
    var r := Split(s, c);
    if |r| > 0 {
      assert fs[|r| - 1] == r[|r| - 1] != "";
    }
  }

  lemma {:induction false} AllFieldsEmptyIff(s: string, c: char)
    ensures AllEmpty(SplitAll(s, c)) <==> OnlyOf(s, c)
    decreases |s|
  {
    if |s| > 0 {
      AllFieldsEmptyIff(s[1..], c);
      var rest := SplitAll(s[1..], c);
      var fs := SplitAll(s, c);
      if s[0] == c {
        assert fs == [""] + rest;
        assert AllEmpty(fs) <==> AllEmpty(rest) by {
          assert forall k | 1 <= k < |fs| :: fs[k] == rest[k - 1];
          assert forall k | 0 <= k < |rest| :: rest[k] == fs[k + 1];
        }
        assert OnlyOf(s, c) <==> OnlyOf(s[1..], c) by {
          assert forall i | 1 <= i < |s| :: s[i] == s[1..][i - 1];
        }
      } else {
        assert fs[0] != "";
      }
    }
  }

  /** Every field is empty. */
  predicate AllEmpty(fs: seq<string>)
  {
    forall k | 0 <= k < |fs| :: fs[k] == ""
  }

  /** One parsed line: the key path with its first component dropped, and
      the second `=`-field as the value. */
  datatype Entry = Entry(path: seq<string>, value: Option<string>)

  /** `key, value = line.split(/=/)`, then `key.split(/\./)[1..-1]`. A line
      without a key (empty, or starting with `=`, or only dots) makes Ruby call
      a method on `nil`: `None`. */
  function ParseLine(line: string): (e: Option<Entry>)
    ensures e.None? <==> OnlyOf(KeyOf(line, '='), '.')
    ensures e.Some? ==> forall k | 0 <= k < |e.value.path| :: '.' !in e.value.path[k]
    ensures e.Some? && e.value.value.Some? ==> '=' !in e.value.value.value
    ensures e.Some? && '=' !in line ==> e.value.value.None?
  {
    SplitEmptyIff(line, '=');
    assert |Split(line, '=')| > 0 ==> |Split(Split(line, '=')[0], '.')| == 0 <==> OnlyOf(KeyOf(line, '='), '.') by {
      if |Split(line, '=')| > 0 {
        SplitEmptyIff(Split(line, '=')[0], '.');
      }
    }
    assert '=' !in line ==> SplitAll(line, '=') == [line] by {
      if '=' !in line {
        SplitAllNone(line, '=');
      }
    }
    var fields := Split(line, '=');
    if |fields| == 0 then None
    else
      var parts := Split(fields[0], '.');
      if |parts| == 0 then None
      else Some(Entry(parts[1..], if |fields| > 1 then Some(fields[1]) else None))
  }

  lemma {:induction false} SplitAllAfter(a: string, c: char, b: string)
    requires forall i | 0 <= i < |a| :: a[i] != c
    ensures SplitAll(a + [c] + b, c) == [a] + SplitAll(b, c)
  {
    if |a| > 0 {
      assert (a + [c] + b)[1..] == a[1..] + [c] + b;
      SplitAllAfter(a[1..], c, b);
      assert [a[0]] + a[1..] == a;
    } else {
      assert a + [c] + b == [c] + b;
      assert ([c] + b)[1..] == b;
    }
  }

  lemma {:induction false} SplitAllNone(a: string, c: char)
    requires forall i | 0 <= i < |a| :: a[i] != c
    ensures SplitAll(a, c) == [a]
  {
    if |a| > 0 {
      SplitAllNone(a[1..], c);
      assert [a[0]] + a[1..] == a;
    }
  }

  /** `parts.join(c)`. */
  function JoinWith(parts: seq<string>, c: char): string
    requires |parts| > 0
  {
    if |parts| == 1 then parts[0] else parts[0] + [c] + JoinWith(parts[1..], c)
  }

  predicate Component(s: string)
  {
    s != "" && forall i | 0 <= i < |s| :: s[i] != '.' && s[i] != '='
  }

  lemma {:induction false} SplitJoin(parts: seq<string>)
    requires |parts| > 0 && forall i | 0 <= i < |parts| :: Component(parts[i])
    ensures SplitAll(JoinWith(parts, '.'), '.') == parts
  {
    if |parts| == 1 {
      SplitAllNone(parts[0], '.');
    } else {
      SplitJoin(parts[1..]);
      SplitAllAfter(parts[0], '.', JoinWith(parts[1..], '.'));
    }
  }

  lemma {:induction false} JoinNoEquals(parts: seq<string>)
    requires |parts| > 0 && forall i | 0 <= i < |parts| :: Component(parts[i])
    ensures forall i | 0 <= i < |JoinWith(parts, '.')| :: JoinWith(parts, '.')[i] != '='
  {
    if |parts| > 1 {
      JoinNoEquals(parts[1..]);
    }
  }

  /** A well-formed line `top.k1.….kn=value` parses to the path k1…kn and the
      value. */
  lemma ParseWellFormed(top: string, path: seq<string>, value: string)
    requires Component(top) && forall i | 0 <= i < |path| :: Component(path[i])
    requires value != "" && forall i | 0 <= i < |value| :: value[i] != '='
    ensures ParseLine(JoinWith([top] + path, '.') + "=" + value) == Some(Entry(path, Some(value)))
  {
    var parts := [top] + path;
    var key := JoinWith(parts, '.');
    JoinNoEquals(parts);
    SplitAtEquals(key, value);
    SplitKey(parts);
    assert parts[1..] == path;
  }

  /** `key=value` splits into the key and the value. */
  lemma SplitAtEquals(key: string, value: string)
    requires forall i | 0 <= i < |key| :: key[i] != '='
    requires value != "" && forall i | 0 <= i < |value| :: value[i] != '='
    ensures Split(key + "=" + value, '=') == [key, value]
  {
    var line := key + "=" + value;
    SplitAllAfter(key, '=', value);
    SplitAllNone(value, '=');
    assert line == key + ['='] + value;
    assert SplitAll(line, '=') == [key, value];
  }

  /** A dotted key splits back into its components. */
  lemma SplitKey(parts: seq<string>)
    requires |parts| > 0 && forall i | 0 <= i < |parts| :: Component(parts[i])
    ensures Split(JoinWith(parts, '.'), '.') == parts
  {
    SplitJoin(parts);
    assert parts[|parts| - 1] != "";
  }

  /** The plugin's result: the hash built, and whether every line went in;
      the first line that fails ends the loop. */
  datatype Outcome = Outcome(lldp: map<string, Node>, complete: bool)

  /** Each line of the output in turn, starting from an empty hash. */
  function Collect(h: map<string, Node>, lines: seq<string>): (r: Outcome)
    ensures |lines| == 0 ==> r == Outcome(h, true)
    ensures r.complete ==> forall i | 0 <= i < |lines| :: ParseLine(lines[i]).Some?
    ensures h.Keys <= r.lldp.Keys
    ensures forall k | k in r.lldp && k !in h :: exists i | 0 <= i < |lines| :: Names(lines[i], k)
    decreases |lines|
  {
    if |lines| == 0 then Outcome(h, true)
    else match ParseLine(lines[0])
      case None => Outcome(h, false)
      case Some(e) =>
        match Hashify(h, e.path, e.value)
        case None => Outcome(h, false)
        case Some(h') =>
          var r := Collect(h', lines[1..]);
          CollectStep(h, lines, e, h', r);
          r
  }

  /** What one successful line adds to what the rest of the run promises. */
  lemma CollectStep(h: map<string, Node>, lines: seq<string>, e: Entry, h': map<string, Node>, r: Outcome)
    requires |lines| > 0 && ParseLine(lines[0]) == Some(e) && Hashify(h, e.path, e.value) == Some(h')
    requires r.complete ==> forall i | 0 <= i < |lines[1..]| :: ParseLine(lines[1..][i]).Some?
    requires h'.Keys <= r.lldp.Keys
    requires forall k | k in r.lldp && k !in h' :: exists i | 0 <= i < |lines[1..]| :: Names(lines[1..][i], k)
    ensures r.complete ==> forall i | 0 <= i < |lines| :: ParseLine(lines[i]).Some?
    ensures h.Keys <= r.lldp.Keys
    ensures forall k | k in r.lldp && k !in h :: exists i | 0 <= i < |lines| :: Names(lines[i], k)
  {
    assert forall i | 0 <= i < |lines| - 1 :: lines[1..][i] == lines[i + 1];
    assert forall k | k in h' && k !in h :: Names(lines[0], k);
  }

  /** The line parses to a path whose first key is `k`. */
  predicate Names(line: string, k: string)
  {
    ParseLine(line).Some? && |ParseLine(line).value.path| > 0 && ParseLine(line).value.path[0] == k
  }

  /** Lines are consumed in order: running over `a + b` is running over `a`,
      then over `b` from the hash it left, unless a line of `a` failed. */
  lemma {:induction false} CollectAppend(h: map<string, Node>, a: seq<string>, b: seq<string>)
    ensures var first := Collect(h, a);
            Collect(h, a + b) == if first.complete then Collect(first.lldp, b) else first
    decreases |a|
  {
    if |a| > 0 {
      assert (a + b)[0] == a[0];
      assert (a + b)[1..] == a[1..] + b;
      match ParseLine(a[0])
      case None =>
      case Some(e) =>
        match Hashify(h, e.path, e.value)
        case None =>
        case Some(h') => CollectAppend(h', a[1..], b);
    } else {
      assert a + b == b;
    }
  }

  function Plugin(stdout: string): Outcome
  {
    Collect(map[], Split(stdout, '\n'))
  }

  /** A single well-formed line yields a hash whose path holds the value. */
  lemma OneLine(top: string, path: seq<string>, value: string)
    requires Component(top) && |path| > 0 && forall i | 0 <= i < |path| :: Component(path[i])
    requires value != "" && forall i | 0 <= i < |value| :: value[i] != '='
    ensures var r := Collect(map[], [JoinWith([top] + path, '.') + "=" + value]);
            r.complete && Lookup(r.lldp, path) == Some(Leaf(Some(value)))
  {
    ParseWellFormed(top, path, value);
    InsertFailsIffBlocked(map[], path, Some(value));
    NothingBlocksEmpty(path);
    LookupInserted(map[], path, Some(value));
  }
}

=== FILE: page_gate.dfy ===
/**
  How the workspace pages start: each `oninit` is meant to load its data
  only once the user is known to be logged in. As written, each page calls
  `Auth.requireLogin(Workspace.withWorkspace(cb))`, so `withWorkspace` runs
  first, whatever the login state, and `requireLogin` receives its return
  value, `undefined`, as the continuation.
 */
module PageGate {
  import opened JsValues
  import opened AuthModel
  import opened WorkspaceModel

  /** The state after a page starts: the login state, the workspace store,
      the workspace id the page's loader ran with (if it ran), and how the
      login gate ended. */
  datatype Start = Start(auth: State, workspaces: WorkspaceModel.Store, loadedWith: Option<string>, gate: Gate)

  /** `Auth.requireLogin(Workspace.withWorkspace(cb))`: the argument is
      evaluated first, then the gate is handed something that is not a
      function. `me` is the answer to `/me`, `list` the answer to
      `/workspace`. */
  function StartAsWritten(auth: State, ws: WorkspaceModel.Store, me: Response<()>, list: Response<seq<Workspace>>): (r: Start)
    ensures r.loadedWith == WithWorkspace(ws, list).callback
    ensures r.gate != RanNext
    ensures r.gate == NotAFunction <==> auth.loggedIn || me.Ok?
    ensures r.auth == RequireLogin(auth, NotCallable, me).state
  {
    var w := WithWorkspace(ws, list);
    var c := RequireLogin(auth, NotCallable, me);
    Start(c.state, w.store, w.callback, c.gate)
  }

  /** A logged-out visitor whose session check answers 401 is sent to the
      login page, yet with a remembered workspace the page's loader has
      already run. */
  lemma LoaderRunsWhileRedirected(auth: State, ws: WorkspaceModel.Store, me: Response<()>, list: Response<seq<Workspace>>)
    requires !auth.loggedIn && me.Fail? && me.status == 401
    requires Truthy(ws.stored) && |ws.list| > 0
    ensures StartAsWritten(auth, ws, me, list).gate == Redirected
    ensures StartAsWritten(auth, ws, me, list).loadedWith == ws.stored
  {
  }

  /** A logged-in user always gets a `TypeError` from the gate. */
  lemma LoggedInPageThrows(auth: State, ws: WorkspaceModel.Store, me: Response<()>, list: Response<seq<Workspace>>)
    requires auth.loggedIn
    ensures StartAsWritten(auth, ws, me, list).gate == NotAFunction
  {
  }

  /** The intended start: `Auth.requireLogin(() => Workspace.withWorkspace(cb))`.
      The workspace list is consulted, and the loader run, only behind the gate. */
  function StartGated(auth: State, ws: WorkspaceModel.Store, me: Response<()>, list: Response<seq<Workspace>>): (r: Start)
    ensures r.gate == RanNext <==> auth.loggedIn || me.Ok?
    ensures r.gate != NotAFunction
    ensures r.loadedWith.Some? ==> r.gate == RanNext
    ensures r.gate == RanNext ==> r.loadedWith == WithWorkspace(ws, list).callback
    ensures r.gate != RanNext ==> r.workspaces == ws
    ensures r.auth == RequireLogin(auth, Callable, me).state
  {
    var c := RequireLogin(auth, Callable, me);
    if c.gate == RanNext then
      var w := WithWorkspace(ws, list);
      Start(c.state, w.store, w.callback, RanNext)
    else Start(c.state, ws, None, c.gate)
  }

  /** Once past the gate the intended start loads exactly what the written
      one loads, and leaves the login state as the written one does. */
  lemma AgreesPastTheGate(auth: State, ws: WorkspaceModel.Store, me: Response<()>, list: Response<seq<Workspace>>)
    requires auth.loggedIn || me.Ok?
    ensures StartGated(auth, ws, me, list).loadedWith == StartAsWritten(auth, ws, me, list).loadedWith
    ensures StartGated(auth, ws, me, list).workspaces == StartAsWritten(auth, ws, me, list).workspaces
    ensures StartGated(auth, ws, me, list).auth == StartAsWritten(auth, ws, me, list).auth
  {
  }
}

=== FILE: problem_model.dfy ===
/**
  The problem store: devices with problems grouped by category (failing,
  unlocated, unreported), each group keyed by device id in ascending order,
  and the device currently on display.
 */
module ProblemModel {
  import opened JsValues
  import opened StringOrder
  import opened JsObject

  /** One failed check of a device report. */
  datatype ProblemEntry = ProblemEntry(
    componentType: Option<string>, componentName: Option<string>,
    condition: Option<string>, log: Option<string>)

  datatype ProblemLocation = ProblemLocation(
    datacenterName: string, rackId: string, rackName: string, rackRole: string, rackUnit: int)

  /** A device as the problem listing describes it. */
  datatype ProblemDevice = ProblemDevice(
    problems: Option<seq<ProblemEntry>>,
    reportId: Option<string>,
    location: Option<ProblemLocation>)

  datatype Store = Store(devices: Obj<Obj<ProblemDevice>>, current: Option<ProblemDevice>)

  const Initial: Store := Store([], None)

  /** The body of `/problem`: each category may be missing. */
  datatype Listing = Listing(
    failing: Option<Obj<ProblemDevice>>,
    unlocated: Option<Obj<ProblemDevice>>,
    unreported: Option<Obj<ProblemDevice>>)

  const Failing: string := "failing"
  const Unlocated: string := "unlocated"
  const Unreported: string := "unreported"

  /** The store's object of the three categories, in the order the response
      lists them. */
  function Grouped(failing: Obj<ProblemDevice>, unlocated: Obj<ProblemDevice>, unreported: Obj<ProblemDevice>): (o: Obj<Obj<ProblemDevice>>)
    ensures |o| == 3 && Keys(o) == [Failing, Unlocated, Unreported]
    ensures o[0].1 == failing && o[1].1 == unlocated && o[2].1 == unreported
  {
    assert Failing[0] != Unlocated[0] && Failing[0] != Unreported[0] && Unlocated[2] != Unreported[2];
    [(Failing, failing), (Unlocated, unlocated), (Unreported, unreported)]
  }

  /** `loadDeviceProblems`: the three categories, each key-sorted, replace
      the store's groups; a category missing from the body makes the sort
      throw inside the success handler, which the catch clause only logs. */
  function LoadDeviceProblems(st: Store, res: Response<Listing>): (h: Handled<Store>)
    ensures res.Ok? && res.body.failing.Some? && res.body.unlocated.Some? && res.body.unreported.Some? ==>
              && Keys(h.state.devices) == [Failing, Unlocated, Unreported]
              && h.state.devices[0].1 == SortObject(res.body.failing.value)
              && h.state.devices[1].1 == SortObject(res.body.unlocated.value)
              && h.state.devices[2].1 == SortObject(res.body.unreported.value)
              && h.state.current == st.current && h.effect == NoEffect
    ensures res.Ok? && (res.body.failing.None? || res.body.unlocated.None? || res.body.unreported.None?) ==>
              h == Handled(st, LogError)
    ensures res.Fail? ==> h == Handled(st, LoaderFailure(res.error))
  {
    match res
    case Ok(body) =>
      if body.failing.Some? && body.unlocated.Some? && body.unreported.Some? then
        Handled(st.(devices := Grouped(SortObject(body.failing.value),
                                       SortObject(body.unlocated.value),
                                       SortObject(body.unreported.value))), NoEffect)
      else Handled(st, LogError)
    case Fail(_, error) => Handled(st, LoaderFailure(error))
  }

  /** After a complete load each category holds exactly the listed devices,
      keyed in ascending order. */
  lemma LoadedCategories(st: Store, body: Listing, c: nat)
    requires body.failing.Some? && body.unlocated.Some? && body.unreported.Some?
    requires c < 3
    ensures var devices := LoadDeviceProblems(st, Ok(body)).state.devices;
            var listed := [body.failing.value, body.unlocated.value, body.unreported.value][c];
            StrictlyAscending(Keys(devices[c].1)) && forall id :: Get(devices[c].1, id) == Get(listed, id)
  {
  }

  /** `deviceHasProblem(id)`: some category lists the device. */
  function DeviceHasProblem(devices: Obj<Obj<ProblemDevice>>, id: string): (b: bool)
    ensures b <==> exists i | 0 <= i < |devices| :: Get(devices[i].1, id).Some?
  {
    if |devices| == 0 then false
    else if Get(devices[0].1, id).Some? then true
    else
      var rest: Obj<Obj<ProblemDevice>> := devices[1..];
      var b := DeviceHasProblem(rest, id);
      assert forall i | 1 <= i < |devices| :: devices[i] == rest[i - 1];
      b
  }

  /** After a complete load, a device has a problem exactly when one of the
      three categories of the body lists it. */
  lemma HasProblemAfterLoad(st: Store, body: Listing, id: string)
    requires body.failing.Some? && body.unlocated.Some? && body.unreported.Some?
    ensures DeviceHasProblem(LoadDeviceProblems(st, Ok(body)).state.devices, id) <==>
              Get(body.failing.value, id).Some? || Get(body.unlocated.value, id).Some? || Get(body.unreported.value, id).Some?
  {
    var devices := LoadDeviceProblems(st, Ok(body)).state.devices;
    if Get(body.unreported.value, id).Some? {
      assert Get(devices[2].1, id).Some?;
    }
  }

  /** Before any load nothing has a problem. */
  lemma NothingBeforeLoad(id: string)
    ensures !DeviceHasProblem(Initial.devices, id)
  {
  }
}

=== FILE: problem_view.dfy ===
/**
  The problem pages: the category headings, the choice of the device on
  display from the URL, the merged and sorted table of failed checks and
  failed validation results, the report button and the deep link into the
  rack layout.
 */
module ProblemView {
  import opened JsValues
  import opened StringOrder
  import opened JsObject
  import opened JsArray
  import opened ProblemModel
  import opened ValidationStateModel
  import DeviceView

  /** `categoryTitle`. */
  function CategoryTitle(category: string): (t: string)
    ensures category == Failing <==> t == "Validation Failed"
    ensures category == Unlocated <==> t == "No Location Assigned"
    ensures category == Unreported <==> t == "No Device Report Collected"
    ensures category !in {Failing, Unlocated, Unreported} <==> t == "Other Problems"
  {
    if category == Failing then "Validation Failed"
    else if category == Unlocated then "No Location Assigned"
    else if category == Unreported then "No Device Report Collected"
    else "Other Problems"
  }

  /** The selection list assigns `Problem.current` each time it meets the URL's
      device id, so the match in the latest category wins; with no id, or no
      match, the current device stays as it was. */
  function SelectCurrent(devices: Obj<Obj<ProblemDevice>>, urlId: Option<string>, current: Option<ProblemDevice>): (r: Option<ProblemDevice>)
    ensures !Truthy(urlId) ==> r == current
    ensures Truthy(urlId) && (forall i | 0 <= i < |devices| :: Get(devices[i].1, urlId.value).None?) ==> r == current
    ensures Truthy(urlId) && (exists i | 0 <= i < |devices| :: Get(devices[i].1, urlId.value).Some?) ==>
              exists i | 0 <= i < |devices| ::
                && Get(devices[i].1, urlId.value) == r
                && r.Some?
                && forall j | i < j < |devices| :: Get(devices[j].1, urlId.value).None?
  {
    if !Truthy(urlId) then current
    else SelectIn(devices, urlId.value, current)
  }

  function SelectIn(devices: seq<(string, Obj<ProblemDevice>)>, id: string, current: Option<ProblemDevice>): (r: Option<ProblemDevice>)
    ensures (forall i | 0 <= i < |devices| :: Get(devices[i].1, id).None?) ==> r == current
    ensures (exists i | 0 <= i < |devices| :: Get(devices[i].1, id).Some?) ==>
              exists i | 0 <= i < |devices| ::
                && Get(devices[i].1, id) == r
                && r.Some?
                && forall j | i < j < |devices| :: Get(devices[j].1, id).None?
    decreases |devices|
  {
    if |devices| == 0 then current
    else
      var init := devices[..|devices| - 1];
      var last := devices[|devices| - 1].1;
      if Get(last, id).Some? then Get(last, id)
      else
        var r := SelectIn(init, id, current);
        assert forall i | 0 <= i < |init| :: init[i] == devices[i];
        r
  }

  // ---------------------------------------------------------------------
  // The table of failures

  /** A problem's row: component type, component name, the criterion's
      condition and the log, a missing field showing as an empty cell. */
  function ProblemRow(p: ProblemEntry): (row: seq<string>)
    ensures |row| == 4
    ensures row[0] == CellText(p.componentType) && row[1] == CellText(p.componentName)
    ensures row[2] == CellText(p.condition) && row[3] == CellText(p.log)
  {
    [CellText(p.componentType), CellText(p.componentName), CellText(p.condition), CellText(p.log)]
  }

  function ProblemRows(ps: seq<ProblemEntry>): (rows: seq<seq<string>>)
    ensures |rows| == |ps|
    ensures forall i | 0 <= i < |ps| :: rows[i] == ProblemRow(ps[i])
  {
    if |ps| == 0 then [] else [ProblemRow(ps[0])] + ProblemRows(ps[1..])
  }

  /** A failed validation result in the shape of a problem row: category,
      validation name, upper-cased status, message. */
  function ValidationRow(r: Result, names: Obj<string>): (row: seq<string>)
    ensures |row| == 4 && row[0] == r.category && row[2] == AsciiUpper(r.status)
    ensures row[1] == CellText(Get(names, r.validationId)) && row[3] == CellText(r.message)
  {
    [r.category, CellText(Get(names, r.validationId)), AsciiUpper(r.status), CellText(r.message)]
  }

  /** The problem page and the device page agree on a result: the problem
      page lists it exactly when the device page marks its plan row with a
      warning, and then shows the plan row's category, name, status and
      message cells. */
  lemma ValidationRowMatchesPlan(r: Result, names: Obj<string>)
    ensures var plan := DeviceView.PlanRowOf(r, names);
            && (r in Failed([r]) <==> plan.warning)
            && ValidationRow(r, names) == [plan.cells[0], plan.cells[1], plan.cells[3], plan.cells[4]]
  {
    var plan := DeviceView.PlanRowOf(r, names);
    assert Failed([r]) == if r.status != "pass" then [r] else [];
  }

  /** Results whose status is not exactly "pass", in order. */
  function Failed(results: seq<Result>): (r: seq<Result>)
    ensures forall x | x in r :: x in results && x.status != "pass"
    ensures forall x | x in results && x.status != "pass" :: x in r
    ensures |r| <= |results|
  {
    if |results| == 0 then [] else Keep(results[0]) + Failed(results[1..])
  }

  /** One result as the filter keeps it: itself unless it passed. */
  function Keep(x: Result): (r: seq<Result>)
  {
    if x.status != "pass" then [x] else []
  }

  /** The filter takes results from the front. */
  lemma FailedStep(results: seq<Result>)
    requires |results| > 0
    ensures Failed(results) == Keep(results[0]) + Failed(results[1..])
  {
  }

  /** Every state's results, state by state, each in its own order. */
  function AllResults(states: seq<ValidationState>): (rs: seq<Result>)
    ensures forall x :: x in rs <==> exists i | 0 <= i < |states| :: x in states[i].results
    ensures |rs| == ResultCount(states)
  {
    if |states| == 0 then []
    else
      var rest := AllResults(states[1..]);
      assert forall i | 1 <= i < |states| :: states[i] == states[1..][i - 1];
      states[0].results + rest
  }

  /** The number of results the states hold together. */
  function ResultCount(states: seq<ValidationState>): nat
  {
    if |states| == 0 then 0 else |states[0].results| + ResultCount(states[1..])
  }

  /** The number of results whose status is not exactly "pass". */
  function NonPassCount(rs: seq<Result>): nat
  {
    if |rs| == 0 then 0 else (if rs[0].status == "pass" then 0 else 1) + NonPassCount(rs[1..])
  }

  /** Each result is kept as often as it occurs, unless its status is "pass". */
  lemma FailedCounts(results: seq<Result>)
    ensures forall x :: multiset(Failed(results))[x] == if x.status != "pass" then multiset(results)[x] else 0
    ensures |Failed(results)| == NonPassCount(results)
  {
    forall x
      ensures multiset(Failed(results))[x] == if x.status != "pass" then multiset(results)[x] else 0
    {
      FailedMultiplicity(results, x);
    }
    FailedLength(results);
  }

  lemma {:induction false} FailedMultiplicity(results: seq<Result>, x: Result)
    ensures multiset(Failed(results))[x] == if x.status != "pass" then multiset(results)[x] else 0
  {
    if |results| > 0 {
      var rest := results[1..];
      calc {
        multiset(Failed(results))[x];
        == { FailedStep(results); }
        multiset(Keep(results[0]) + Failed(rest))[x];
        ==
        multiset(Keep(results[0]))[x] + multiset(Failed(rest))[x];
        == { FailedMultiplicity(rest, x); }
        multiset(Keep(results[0]))[x] + (if x.status != "pass" then multiset(rest)[x] else 0);
        == { assert results == [results[0]] + rest; }
        if x.status != "pass" then multiset(results)[x] else 0;
      }
    }
  }

  lemma {:induction false} FailedLength(results: seq<Result>)
    ensures |Failed(results)| == NonPassCount(results)
  {
    if |results| > 0 {
      FailedStep(results);
      FailedLength(results[1..]);
    }
  }

  /** Filtering keeps the order: the failures of a concatenation are the
      failures of each part, in turn. */
  lemma {:induction false} FailedAppend(a: seq<Result>, b: seq<Result>)
    ensures Failed(a + b) == Failed(a) + Failed(b)
    decreases |a|
  {
    if |a| == 0 {
      assert a + b == b;
    } else {
      calc {
        Failed(a + b);
        == { FailedOfAppend(a, b, a + b); }
        Keep(a[0]) + Failed(a[1..] + b);
        == { FailedAppend(a[1..], b); }
        Keep(a[0]) + (Failed(a[1..]) + Failed(b));
        == { Associate(Keep(a[0]), Failed(a[1..]), Failed(b)); }
        (Keep(a[0]) + Failed(a[1..])) + Failed(b);
        == { FailedStep(a); }
        Failed(a) + Failed(b);
      }
    }
  }

  /** The first result of `a + b` is the first of `a`. */
  lemma FailedOfAppend(a: seq<Result>, b: seq<Result>, c: seq<Result>)
    requires |a| > 0 && c == a + b
    ensures Failed(c) == Keep(a[0]) + Failed(a[1..] + b)
  {
    assert c[0] == a[0];
    assert c[1..] == a[1..] + b;
    FailedStep(c);
  }

  lemma Associate<T>(x: seq<T>, y: seq<T>, z: seq<T>)
    ensures x + (y + z) == (x + y) + z
  {
  }

  /** The results of a concatenation of state lists are the results of each
      list, in turn. */
  lemma {:induction false} AllResultsAppend(a: seq<ValidationState>, b: seq<ValidationState>)
    ensures AllResults(a + b) == AllResults(a) + AllResults(b)
    decreases |a|
  {
    if |a| == 0 {
      assert a + b == b;
    } else {
      assert (a + b)[0] == a[0];
      assert (a + b)[1..] == a[1..] + b;
      AllResultsAppend(a[1..], b);
    }
  }

  function ValidationRowsOf(rs: seq<Result>, names: Obj<string>): (rows: seq<seq<string>>)
    ensures |rows| == |rs|
    ensures forall i | 0 <= i < |rs| :: rows[i] == ValidationRow(rs[i], names)
  {
    if |rs| == 0 then [] else [ValidationRow(rs[0], names)] + ValidationRowsOf(rs[1..], names)
  }

  /** The validation rows: one per result of any state whose status is not
      "pass". */
  function ValidationRows(states: seq<ValidationState>, names: Obj<string>): (rows: seq<seq<string>>)
    ensures forall row | row in rows :: exists x | x in AllResults(states) :: x.status != "pass" && row == ValidationRow(x, names)
    ensures forall x | x in AllResults(states) && x.status != "pass" :: ValidationRow(x, names) in rows
    ensures |rows| == NonPassCount(AllResults(states))
  {
    var rs := AllResults(states);
    FailedRows(rs, names);
    ValidationRowsOf(Failed(rs), names)
  }

  /** The rows made from the non-pass results: one per such result. */
  lemma FailedRows(rs: seq<Result>, names: Obj<string>)
    ensures var rows := ValidationRowsOf(Failed(rs), names);
            (forall row | row in rows :: exists x | x in rs :: x.status != "pass" && row == ValidationRow(x, names)) &&
            (forall x | x in rs && x.status != "pass" :: ValidationRow(x, names) in rows) &&
            |rows| == NonPassCount(rs)
  {
    var failed := Failed(rs);
    var rows := ValidationRowsOf(failed, names);
    FailedLength(rs);
    forall row | row in rows
      ensures exists x | x in rs :: x.status != "pass" && row == ValidationRow(x, names)
    {
      var i :| 0 <= i < |rows| && rows[i] == row;
      assert failed[i] in rs;
    }
    forall x | x in rs && x.status != "pass"
      ensures ValidationRow(x, names) in rows
    {
      var i :| 0 <= i < |failed| && failed[i] == x;
      assert rows[i] == ValidationRow(x, names);
    }
  }

  /** The rows of a concatenation of state lists are the rows of each list,
      in turn: every state contributes its own non-pass results in order. */
  lemma ValidationRowsAppend(a: seq<ValidationState>, b: seq<ValidationState>, names: Obj<string>)
    ensures ValidationRows(a + b, names) == ValidationRows(a, names) + ValidationRows(b, names)
  {
    AllResultsAppend(a, b);
    FailedAppend(AllResults(a), AllResults(b));
    ValidationRowsOfAppend(Failed(AllResults(a)), Failed(AllResults(b)), names);
  }

  lemma {:induction false} ValidationRowsOfAppend(a: seq<Result>, b: seq<Result>, names: Obj<string>)
    ensures ValidationRowsOf(a + b, names) == ValidationRowsOf(a, names) + ValidationRowsOf(b, names)
  {
    var l, r := ValidationRowsOf(a, names), ValidationRowsOf(b, names);
    assert |ValidationRowsOf(a + b, names)| == |l + r|;
    forall i | 0 <= i < |a + b|
      ensures ValidationRowsOf(a + b, names)[i] == (l + r)[i]
    {
      if i < |a| {
        assert (a + b)[i] == a[i];
      } else {
        assert (a + b)[i] == b[i - |a|];
      }
    }
  }

  /** Only an exact "pass" is left out: "Pass" is listed, and shows as "PASS". */
  lemma CapitalisedPassListed(r: Result, names: Obj<string>)
    requires r.status == "Pass"
    ensures ValidationRow(r, names) in ValidationRows([ValidationState("", [r])], names)
    ensures ValidationRow(r, names)[2] == "PASS"
  {
    assert r in AllResults([ValidationState("", [r])]);
  }

  /** The failure table's rows: problem rows and validation rows together,
      sorted by their joined text. */
  function MergedRows(ps: seq<ProblemEntry>, states: seq<ValidationState>, names: Obj<string>): (rows: seq<seq<string>>)
    ensures multiset(rows) == multiset(ProblemRows(ps)) + multiset(ValidationRows(states, names))
    ensures forall i, j | 0 <= i < j < |rows| :: !Less(Join(rows[j]), Join(rows[i]))
  {
    DefaultSort(ProblemRows(ps) + ValidationRows(states, names))
  }

  // ---------------------------------------------------------------------
  // The device page

  /** The first block of the page: the failure table, nothing, or the
      "has not sent a report" notice. */
  datatype Table = FailureTable(rows: seq<seq<string>>) | NoTable | NotSentNotice

  datatype Page = Page(table: Table, reportHref: Option<string>, rackHref: Option<string>)

  /** The "Show Device Report" button: only with a report id. */
  function ReportHref(d: ProblemDevice, urlId: string): (href: Option<string>)
    ensures href.Some? <==> Truthy(d.reportId)
    ensures href.Some? ==> href.value == "/device/" + urlId
  {
    if Truthy(d.reportId) then Some("/device/" + urlId) else None
  }

  /** The "Show Device in Rack" link: the rack layout of the device's rack,
      asked to highlight the device. */
  function RackHref(d: ProblemDevice, urlId: string): (href: Option<string>)
    ensures href.Some? <==> d.location.Some?
    ensures href.Some? ==> href.value == "/rack/" + d.location.value.rackId + "?device=" + urlId
  {
    match d.location
    case Some(l) => Some("/rack/" + l.rackId + "?device=" + urlId)
    case None => None
  }

  /** The "Device Location" table's one row: datacenter, rack name, rack role
      and unit; no row (the "not assigned a location" notice) without a
      location. */
  function LocationRow(d: ProblemDevice): (row: Option<seq<string>>)
    ensures row.Some? <==> d.location.Some?
    ensures row.Some? ==> |row.value| == 4
    ensures row.Some? ==> row.value[0] == d.location.value.datacenterName && row.value[1] == d.location.value.rackName
    ensures row.Some? ==> row.value[2] == d.location.value.rackRole && row.value[3] == Show(d.location.value.rackUnit)
  {
    match d.location
    case Some(l) => Some([l.datacenterName, l.rackName, l.rackRole, Show(l.rackUnit)])
    case None => None
  }

  /** The location table appears exactly when the "Show Device in Rack" link
      does, and its unit cell reads back as the rack unit. */
  lemma LocationRowAgrees(d: ProblemDevice, urlId: string)
    ensures LocationRow(d).Some? <==> RackHref(d, urlId).Some?
    ensures LocationRow(d).Some? ==> ParseInt(LocationRow(d).value[3]) == Some(d.location.value.rackUnit)
  {
    if d.location.Some? {
      var unit := d.location.value.rackUnit;
      ParseIntOfShow(unit, "");
      assert Show(unit) + "" == Show(unit);
    }
  }

  /** The page as the code builds it: the problem rows are mapped before the
      `problems` test, so a device without a problem list makes the view throw
      (`None`), and the two alternatives to the table are never reached. */
  function ShowDeviceAsWritten(d: ProblemDevice, urlId: string, states: seq<ValidationState>, names: Obj<string>): (p: Option<Page>)
    ensures p.None? <==> d.problems.None?
    ensures p.Some? ==> p.value.table.FailureTable?
  {
    match d.problems
    case None => None
    case Some(ps) => Some(Page(FailureTable(MergedRows(ps, states, names)), ReportHref(d, urlId), RackHref(d, urlId)))
  }

  /** The page as the ternary intends it: without a problem list, nothing when
      a report exists and the notice otherwise. */
  function ShowDevice(d: ProblemDevice, urlId: string, states: seq<ValidationState>, names: Obj<string>): (p: Page)
    ensures d.problems.Some? ==> p.table.FailureTable?
    ensures d.problems.None? && Truthy(d.reportId) ==> p.table == NoTable
    ensures d.problems.None? && !Truthy(d.reportId) ==> p.table == NotSentNotice
    ensures p.reportHref == ReportHref(d, urlId) && p.rackHref == RackHref(d, urlId)
  {
    var table :=
      match d.problems
      case Some(ps) => FailureTable(MergedRows(ps, states, names))
      case None => if Truthy(d.reportId) then NoTable else NotSentNotice;
    Page(table, ReportHref(d, urlId), RackHref(d, urlId))
  }

  /** The two agree whenever the code does not throw. */
  lemma AsWrittenAgreesWhenDefined(d: ProblemDevice, urlId: string, states: seq<ValidationState>, names: Obj<string>)
    requires ShowDeviceAsWritten(d, urlId, states, names).Some?
    ensures ShowDeviceAsWritten(d, urlId, states, names).value == ShowDevice(d, urlId, states, names)
  {
  }

  /** For a device with neither a problem list nor a report id the notice
      meant for it is never shown: the view throws instead. */
  lemma UnreportedDeviceThrows(urlId: string, states: seq<ValidationState>, names: Obj<string>)
    ensures ShowDeviceAsWritten(ProblemDevice(None, None, None), urlId, states, names).None?
    ensures ShowDevice(ProblemDevice(None, None, None), urlId, states, names).table == NotSentNotice
  {
  }
}

=== FILE: rack_model.dfy ===
/**
  The rack store: the room index, the rack on display, and the
  assignment submit that turns what the user typed into slots into a
  device-id to slot-number payload.
 */
module RackModel {
  import opened JsValues
  import opened JsObject
  import DeviceModel
  import JsArray

  /** One rack unit position. `occupant` is what the backend reports;
      `assignment` is what the user typed into the slot's input, if anything. */
  datatype Slot = Slot(
    name: string,
    vendor: string,
    size: int,
    occupant: Option<DeviceModel.Device>,
    assignment: Option<string>)

  /** A rack with its slots keyed by slot number. */
  datatype Rack = Rack(
    id: string,
    name: string,
    role: string,
    datacenter: string,
    slots: map<nat, Slot>)

  /** Per-status device counts of a rack (`device_progress`); a status with
      no devices is absent in the source and 0 here, both falsy. */
  datatype Progress = Progress(pass: nat, fail: nat, unknown: nat, valid: nat)

  /** A rack as listed in the room index. */
  datatype RackSummary = RackSummary(id: string, name: string, role: string, size: int, progress: Progress)

  /** The body of `GET /rack`: the rack lists keyed by room, when present. */
  datatype RackIndex = RackIndex(racks: Option<Obj<seq<RackSummary>>>)

  datatype Store = Store(
    rackRooms: Obj<seq<RackSummary>>,
    current: Option<Rack>,
    assignSuccess: bool,
    highlightDevice: Option<string>)

  /** The store before anything is loaded. */
  const Initial: Store := Store([], None, false, None)

  predicate Increasing(ks: seq<nat>)
  {
    forall i, j | 0 <= i < j < |ks| :: ks[i] < ks[j]
  }

  /** `m` is the least element of `s`. */
  predicate IsMin(s: set<nat>, m: nat)
  {
    m in s && forall x | x in s :: m <= x
  }

  /** A non-empty set has exactly one least element. */
  lemma MinExists(s: set<nat>)
    requires s != {}
    ensures exists m :: IsMin(s, m)
    ensures forall a, b | IsMin(s, a) && IsMin(s, b) :: a == b
  {
    var y :| y in s;
    MinBelow(s, y);
  }

  /** Descending from any member reaches a least one. */
  lemma MinBelow(s: set<nat>, n: nat)
    requires n in s
    ensures exists m :: IsMin(s, m)
    decreases n
  {
    if exists x | x in s :: x < n {
      var x :| x in s && x < n;
      MinBelow(s, x);
    } else {
      assert IsMin(s, n);
    }
  }

  lemma RemoveShrinks(s: set<nat>, m: nat)
    requires m in s
    ensures |s - {m}| < |s|
  {
    assert s == (s - {m}) + {m};
  }

  /** The least element followed by the rest in ascending order lists the set
      in ascending order. */
  lemma AscendingStep(s: set<nat>, m: nat, rest: seq<nat>)
    requires IsMin(s, m)
    requires Increasing(rest) && forall k :: k in rest <==> k in s - {m}
    ensures Increasing([m] + rest)
    ensures forall k :: k in [m] + rest <==> k in s
  {
    forall i | 0 <= i < |rest|
      ensures m < rest[i]
    {
      assert rest[i] in s - {m};
    }
    IncreasingCons(m, rest);
  }

  lemma IncreasingCons(m: nat, rest: seq<nat>)
    requires Increasing(rest)
    requires forall i | 0 <= i < |rest| :: m < rest[i]
    ensures Increasing([m] + rest)
  {
    var r := [m] + rest;
    forall i, j | 0 <= i < j < |r|
      ensures r[i] < r[j]
    {
      assert r[j] == rest[j - 1];
      if i > 0 {
        assert r[i] == rest[i - 1];
      }
    }
  }

  /** The elements of `s` in ascending order. */
  function AscendingNats(s: set<nat>): (ks: seq<nat>)
    ensures Increasing(ks)
    ensures forall k :: k in ks <==> k in s
    decreases |s|
  {
    if s == {} then []
    else
      MinExists(s);
      var m :| IsMin(s, m);
      RemoveShrinks(s, m);
      var rest := AscendingNats(s - {m});
      AscendingStep(s, m, rest);
      [m] + rest
  }

  /** `Object.keys(rack.slots)`: slot numbers are array-index keys, which
      JavaScript enumerates in ascending numeric order. */
  function SlotOrder(slots: map<nat, Slot>): (ks: seq<nat>)
    ensures Increasing(ks)
    ensures forall k :: k in ks <==> k in slots
  {
    AscendingNats(slots.Keys)
  }

  /** The slot's typed assignment is truthy and names device `d`. */
  predicate AssignsTo(slot: Slot, d: string)
  {
    Truthy(slot.assignment) && slot.assignment.value == d
  }

  /** The `reduce` of `assignDevices` over the keys `ks`, in order: each slot
      whose assignment is truthy sets `payload[assignment] = slot`, so a later
      slot overwrites an earlier one with the same device id. */
  function Reduce(ks: seq<nat>, slots: map<nat, Slot>): map<string, nat>
    requires forall i | 0 <= i < |ks| :: ks[i] in slots
  {
    if |ks| == 0 then map[]
    else
      var acc := Reduce(ks[..|ks| - 1], slots);
      var k := ks[|ks| - 1];
      var slot := slots[k];
      if Truthy(slot.assignment) then acc[slot.assignment.value := k] else acc
  }

  /** Every payload entry comes from a slot carrying that device id. */
  ghost predicate Sound(p: map<string, nat>, slots: map<nat, Slot>)
  {
    forall d | d in p :: p[d] in slots && AssignsTo(slots[p[d]], d)
  }

  /** Every slot among `ks` with a typed device id is covered, by itself or a
      higher-numbered slot with the same id. */
  ghost predicate CompleteOver(p: map<string, nat>, ks: seq<nat>, slots: map<nat, Slot>)
    requires forall i | 0 <= i < |ks| :: ks[i] in slots
  {
    forall i | 0 <= i < |ks| && Truthy(slots[ks[i]].assignment) ::
      slots[ks[i]].assignment.value in p && ks[i] <= p[slots[ks[i]].assignment.value]
  }

  lemma {:induction false} ReduceSpec(ks: seq<nat>, slots: map<nat, Slot>)
    requires forall i | 0 <= i < |ks| :: ks[i] in slots
    requires Increasing(ks)
    ensures Sound(Reduce(ks, slots), slots)
    ensures CompleteOver(Reduce(ks, slots), ks, slots)
    ensures forall d | d in Reduce(ks, slots) :: Reduce(ks, slots)[d] in ks
  {
    if |ks| > 0 {
      var front := ks[..|ks| - 1];
      ReduceSpec(front, slots);
      var acc := Reduce(front, slots);
      var k := ks[|ks| - 1];
      var p := Reduce(ks, slots);
      forall i | 0 <= i < |ks| && Truthy(slots[ks[i]].assignment)
        ensures slots[ks[i]].assignment.value in p && ks[i] <= p[slots[ks[i]].assignment.value]
      {
        if i < |ks| - 1 {
          assert ks[i] == front[i];
          assert ks[i] < k;
        }
      }
      forall d | d in p
        ensures p[d] in ks
      {
        if d in acc && p[d] == acc[d] {
          var j :| 0 <= j < |front| && front[j] == acc[d];
          assert ks[j] == front[j];
        }
      }
    }
  }

  /** The payload `assignDevices` posts: every device id typed into some slot,
      mapped to the highest-numbered slot it was typed into. Occupants are
      never read, so an occupied slot the user did not type into is absent. */
  function Payload(slots: map<nat, Slot>): (p: map<string, nat>)
    ensures forall d | d in p :: d != "" && p[d] in slots && AssignsTo(slots[p[d]], d)
    ensures forall k, d | k in slots && AssignsTo(slots[k], d) :: d in p && k <= p[d]
  {
    var ks := SlotOrder(slots);
    ReduceSpec(ks, slots);
    ReduceComplete(ks, slots);
    Reduce(ks, slots)
  }

  /** The body `assignDevices` actually posts: `Object.keys` yields slot
      numbers as decimal strings, so each device id maps to the text of its
      slot, which reads back as that slot number. */
  function PostedPayload(slots: map<nat, Slot>): (body: map<string, string>)
    ensures body.Keys == Payload(slots).Keys
    ensures forall d | d in body :: JsArray.ParseInt(body[d]) == Some(Payload(slots)[d] as int)
    ensures forall d | d in body :: body[d] != "" && body[d][0] != '-'
  {
    var p := Payload(slots);
    SlotTextsParse(p);
    map d | d in p :: JsArray.Show(p[d])
  }

  /** Each slot number's decimal text parses back to it. */
  lemma SlotTextsParse(p: map<string, nat>)
    ensures forall d | d in p :: JsArray.ParseInt(JsArray.Show(p[d])) == Some(p[d] as int)
    ensures forall d | d in p :: JsArray.Show(p[d]) != "" && JsArray.Show(p[d])[0] != '-'
  {
    forall d | d in p
      ensures JsArray.ParseInt(JsArray.Show(p[d])) == Some(p[d] as int)
    {
      JsArray.ParseIntOfShow(p[d], "");
      assert JsArray.Show(p[d]) + "" == JsArray.Show(p[d]);
    }
  }

  /** Every slot carrying a device id is covered when `ks` lists all slots. */
  lemma ReduceComplete(ks: seq<nat>, slots: map<nat, Slot>)
    requires forall k :: k in ks <==> k in slots
    requires CompleteOver(Reduce(ks, slots), ks, slots)
    ensures forall k, d | k in slots && AssignsTo(slots[k], d) :: d in Reduce(ks, slots) && k <= Reduce(ks, slots)[d]
  {
    forall k, d | k in slots && AssignsTo(slots[k], d)
      ensures d in Reduce(ks, slots) && k <= Reduce(ks, slots)[d]
    {
      ReduceCovers(ks, slots, k, d);
    }
  }

  /** A slot among `ks` carrying `d` is covered by the reduce over `ks`. */
  lemma ReduceCovers(ks: seq<nat>, slots: map<nat, Slot>, k: nat, d: string)
    requires forall i | 0 <= i < |ks| :: ks[i] in slots
    requires CompleteOver(Reduce(ks, slots), ks, slots)
    requires k in ks && k in slots && AssignsTo(slots[k], d)
    ensures d in Reduce(ks, slots) && k <= Reduce(ks, slots)[d]
  {
    var i :| 0 <= i < |ks| && ks[i] == k;
    assert Truthy(slots[ks[i]].assignment);
  }

  /** Only the typed assignments matter: two racks whose slots carry the same
      assignments produce the same payload, whatever their occupants. */
  lemma PayloadReadsOnlyAssignments(a: map<nat, Slot>, b: map<nat, Slot>)
    requires a.Keys == b.Keys
    requires forall k | k in a :: a[k].assignment == b[k].assignment
    ensures Payload(a) == Payload(b)
  {
    var pa, pb := Payload(a), Payload(b);
    forall d
      ensures (d in pa <==> d in pb) && (d in pa ==> pa[d] == pb[d])
    {
      PayloadCovers(a, b, d);
      PayloadCovers(b, a, d);
    }
  }

  lemma PayloadCovers(a: map<nat, Slot>, b: map<nat, Slot>, d: string)
    requires a.Keys == b.Keys
    requires forall k | k in a :: a[k].assignment == b[k].assignment
    ensures d in Payload(a) ==> d in Payload(b) && Payload(a)[d] <= Payload(b)[d]
  {
    if d in Payload(a) {
      var k := PayloadSlot(a, d);
      assert AssignsTo(b[k], d);
      PayloadCoversSlot(b, k, d);
    }
  }

  /** The slot the payload maps `d` to carries `d`. */
  function PayloadSlot(slots: map<nat, Slot>, d: string): (k: nat)
    requires d in Payload(slots)
    ensures k in slots && AssignsTo(slots[k], d) && k == Payload(slots)[d]
  {
    Payload(slots)[d]
  }

  lemma PayloadCoversSlot(slots: map<nat, Slot>, k: nat, d: string)
    requires k in slots && AssignsTo(slots[k], d)
    ensures d in Payload(slots) && k <= Payload(slots)[d]
  {
  }

  /** Of two slots carrying the same device id, the higher-numbered one wins. */
  lemma LaterSlotWins(slots: map<nat, Slot>, lo: nat, hi: nat, d: string)
    requires lo in slots && hi in slots && lo < hi
    requires AssignsTo(slots[lo], d) && AssignsTo(slots[hi], d)
    ensures Payload(slots)[d] != lo
  {
  }

  /** `loadRooms`: on success the index holds exactly the response's
      room/rack-list pairs, rooms in ascending order; a body without `racks`
      makes `Object.keys` throw, which the loader's catch logs; on failure
      nothing changes. */
  function LoadRooms(st: Store, res: Response<RackIndex>): (h: Handled<Store>)
    ensures h.state.(rackRooms := st.rackRooms) == st
    ensures res.Ok? && res.body.racks.Some? ==> StringOrder.StrictlyAscending(Keys(h.state.rackRooms))
    ensures res.Ok? && res.body.racks.Some? ==> forall room :: Get(h.state.rackRooms, room) == Get(res.body.racks.value, room)
    ensures res.Ok? && res.body.racks.Some? ==> h.effect == NoEffect
    ensures res.Ok? && res.body.racks.None? ==> h == Handled(st, LogError)
    ensures res.Fail? ==> h == Handled(st, LoaderFailure(res.error))
  {
    match res
    case Ok(body) =>
      if body.racks.Some? then Handled(st.(rackRooms := SortObject(body.racks.value)), NoEffect)
      else Handled(st, LogError)
    case Fail(_, error) => Handled(st, LoaderFailure(error))
  }

  /** `load`: the rack replaces the current one wholesale; a failure keeps it. */
  function Load(st: Store, res: Response<Rack>): (h: Handled<Store>)
    ensures h.state.(current := st.current) == st
    ensures res.Ok? ==> h == Handled(st.(current := Some(res.body)), NoEffect)
    ensures res.Fail? ==> h == Handled(st, LoaderFailure(res.error))
  {
    match res
    case Ok(rack) => Handled(st.(current := Some(rack)), NoEffect)
    case Fail(_, error) => Handled(st, LoaderFailure(error))
  }

  /** The outcome of the layout POST: the new state, the effect, and the rack
      id reloaded afterwards, if any. */
  datatype Submitted = Submitted(state: Store, effect: Effect, reload: Option<string>)

  /** The continuation of `assignDevices`: success raises `assignSuccess` and
      reloads the same rack; failure is only logged. */
  function AssignDone(st: Store, rack: Rack, res: Response<()>): (r: Submitted)
    ensures res.Ok? ==> r.state == st.(assignSuccess := true) && r.reload == Some(rack.id) && r.effect == NoEffect
    ensures res.Fail? ==> r.state == st && r.reload == None && r.effect == LogError
  {
    match res
    case Ok(_) => Submitted(st.(assignSuccess := true), NoEffect, Some(rack.id))
    case Fail(_, _) => Submitted(st, LogError, None)
  }
}

=== FILE: rack_page.dfy ===
/**
  The rack page's two requests as its view issues them. Both store calls
  take one parameter, but the view passes the workspace id first; JavaScript
  binds the first argument and drops the rest.
 */
module RackPage {
  import opened JsValues
  import opened RackModel
  import Route

  /** An argument handed to a store call. */
  datatype Arg = Text(s: string) | RackArg(rack: Rack)

  /** The value bound to a function's first parameter (`undefined` when no
      argument is passed). */
  function First(args: seq<Arg>): (r: Option<Arg>)
    ensures r.Some? <==> |args| > 0
    ensures r.Some? ==> r.value == args[0]
  {
    if |args| == 0 then None else Some(args[0])
  }

  const RackPrefix: string := "/rack/"

  /** `load(id)`: the rack requested. */
  function LoadUrl(id: string): (url: string)
    ensures |url| == |RackPrefix| + |id| && url[..|RackPrefix|] == RackPrefix && url[|RackPrefix|..] == id
  {
    RackPrefix + id
  }

  /** Distinct ids give distinct requests. */
  lemma LoadUrlInjective(a: string, b: string)
    requires LoadUrl(a) == LoadUrl(b)
    ensures a == b
  {
    assert a == LoadUrl(a)[|RackPrefix|..];
  }

  /** The page's `oninit` as written: `Rack.load(workspaceId, attrs.id)`
      binds the workspace id to `id`. */
  function OnInitLoadAsWritten(workspaceId: string, rackId: string): (url: string)
    ensures |url| >= |RackPrefix| && url[..|RackPrefix|] == RackPrefix && url[|RackPrefix|..] == workspaceId
  {
    LoadUrl(workspaceId)
  }

  /** Unless the two ids coincide, the page asks for the wrong rack, and which
      rack it asks for does not depend on the route at all. */
  lemma LoadAsWrittenMissesRack(workspaceId: string, rackId: string, otherRack: string)
    requires workspaceId != rackId
    ensures OnInitLoadAsWritten(workspaceId, rackId) != LoadUrl(rackId)
    ensures OnInitLoadAsWritten(workspaceId, rackId) == OnInitLoadAsWritten(workspaceId, otherRack)
  {
    var asWritten := OnInitLoadAsWritten(workspaceId, rackId);
    assert asWritten == LoadUrl(workspaceId) by {
      assert asWritten == asWritten[..|RackPrefix|] + asWritten[|RackPrefix|..];
    }
    if asWritten == LoadUrl(rackId) {
      LoadUrlInjective(workspaceId, rackId);
    }
    var other := OnInitLoadAsWritten(workspaceId, otherRack);
    assert other == other[..|RackPrefix|] + other[|RackPrefix|..];
  }

  /** The intended `oninit` request: `Rack.load(attrs.id)`. */
  function OnInitLoad(workspaceId: string, rackId: string): (url: string)
    ensures |url| >= |RackPrefix| && url[..|RackPrefix|] == RackPrefix && url[|RackPrefix|..] == rackId
  {
    LoadUrl(rackId)
  }

  /** The rest of the page's `oninit`: `Rack.highlightDevice = attrs.device`.
      Only the highlighted device changes. */
  function OnInitHighlight(st: Store, attrs: Route.RackAttrs): (r: Store)
    ensures r.highlightDevice == attrs.device
    ensures r.(highlightDevice := st.highlightDevice) == st
  {
    st.(highlightDevice := attrs.device)
  }

  /** The layout POST: its URL and body. */
  datatype Post = Post(url: string, body: map<string, nat>)

  const LayoutSuffix: string := "/layout"

  /** `assignDevices(rack)` applied to whatever arguments it is given: only
      a rack object has `slots`; on anything else `Object.keys(undefined)`
      throws before any request is made (`None`). */
  function AssignDevicesCall(args: seq<Arg>): (r: Option<Post>)
    ensures r.Some? <==> |args| > 0 && args[0].RackArg?
    ensures r.Some? ==> r.value == Post(RackPrefix + args[0].rack.id + LayoutSuffix, Payload(args[0].rack.slots))
  {
    match First(args)
    case Some(RackArg(rack)) => Some(Post(RackPrefix + rack.id + LayoutSuffix, Payload(rack.slots)))
    case _ => None
  }

  /** The form's submit handler as written:
      `Rack.assignDevices(workspaceId, Rack.current)`. No submit ever posts
      anything, whatever the user typed. */
  function SubmitAsWritten(workspaceId: string, current: Option<Rack>): (r: Option<Post>)
    ensures r.None?
  {
    AssignDevicesCall([Text(workspaceId)] + (if current.Some? then [RackArg(current.value)] else []))
  }

  /** The intended handler: `Rack.assignDevices(Rack.current)`. With no rack
      loaded (`Rack.current` is `{}`) it still throws. */
  function Submit(current: Option<Rack>): (r: Option<Post>)
    ensures r.Some? <==> current.Some?
    ensures r.Some? ==> r.value.url == RackPrefix + current.value.id + LayoutSuffix
  {
    AssignDevicesCall(if current.Some? then [RackArg(current.value)] else [])
  }

  /** Every id typed into a slot of the loaded rack reaches the posted body,
      paired with a slot that holds it. */
  lemma SubmitCarriesTypedIds(rack: Rack, k: nat, d: string)
    requires k in rack.slots && AssignsTo(rack.slots[k], d)
    ensures var post := Submit(Some(rack));
            post.Some? && d in post.value.body && k <= post.value.body[d] &&
            post.value.body[d] in rack.slots && AssignsTo(rack.slots[post.value.body[d]], d)
  {
  }
}

=== FILE: rack_progress.dfy ===
/**
  The rack-progress graph of the status page: the group each rack falls in,
  its score, the order the groups are drawn in, and the node list built from
  the room index.
 */
module RackProgress {
  import opened JsValues
  import opened JsObject
  import Sorting
  import opened RackModel

  const FailingLabel: string := "Failing"
  const NotStartedLabel: string := "Not Started"
  const ValidatedLabel: string := "Validated"
  const InProgressLabel: string := "In Progress"

  /** The status group of a rack. */
  function NodeParent(p: Progress): (g: string)
    ensures g == FailingLabel <==> p.fail > 0
    ensures g == NotStartedLabel <==> p.fail == 0 && p.pass == 0 && p.valid == 0
    ensures g == ValidatedLabel <==> p.fail == 0 && p.valid > 0 && p.pass == 0 && p.unknown == 0
    ensures g == InProgressLabel <==> p.fail == 0 && (p.pass > 0 || (p.valid > 0 && p.unknown > 0))
    ensures g in {FailingLabel, NotStartedLabel, ValidatedLabel, InProgressLabel}
  {
    if p.fail > 0 then FailingLabel
    else if p.pass == 0 && p.valid == 0 then NotStartedLabel
    else if p.valid > 0 && p.pass == 0 && p.unknown == 0 then ValidatedLabel
    else InProgressLabel
  }

  function Total(p: Progress): nat
  {
    p.pass + p.unknown + p.valid
  }

  /** Validated devices count 2 points, passing 1, unknown 0. */
  function Points(p: Progress): nat
  {
    2 * p.valid + p.pass
  }

  /** The score of a rack in [-1, 100], computed exactly. */
  function NodeValue(p: Progress): (v: int)
    ensures v == -1 <==> p.fail > 0
    ensures p.fail == 0 ==> 0 <= v <= 100
    ensures p.fail == 0 && Total(p) == 0 ==> v == 0
    ensures p.fail == 0 && Total(p) > 0 ==> (v == 100 <==> p.pass == 0 && p.unknown == 0)
    ensures p.fail == 0 && Total(p) > 0 && p.pass == Total(p) ==> v == 50
    ensures p.fail == 0 && Total(p) > 0 ==> (v == 0 <==> Points(p) * 50 < Total(p))
  {
    if p.fail > 0 then -1
    else if Total(p) == 0 then 0
    else Score(Points(p), Total(p))
  }

  /** `points / 2 / total` as a whole percentage, rounded down. */
  function Score(points: nat, total: nat): (v: nat)
    requires 0 < total && points <= 2 * total
    ensures v <= 100
    ensures v == 100 <==> points == 2 * total
    ensures points == total ==> v == 50
    ensures v == 0 <==> points * 50 < total
  {
    ScoreFacts(points, total);
    (100 * points) / (2 * total)
  }

  lemma ScoreFacts(points: nat, total: nat)
    requires 0 < total && points <= 2 * total
    ensures 0 <= (100 * points) / (2 * total) <= 100
    ensures (100 * points) / (2 * total) == 100 <==> points == 2 * total
    ensures points == total ==> (100 * points) / (2 * total) == 50
    ensures (100 * points) / (2 * total) == 0 <==> points * 50 < total
  {
    ScoreAtMost100(points, 2 * total);
    ScoreFull(points, 2 * total);
    if points == total {
      ScoreHalf(total);
    }
    ScoreZero(points, 2 * total);
  }

  lemma ScoreAtMost100(points: nat, d: nat)
    requires 0 < d && points <= d
    ensures (100 * points) / d <= 100
  {
    MulMono(points, d, 100);
    DivAtMost(100 * points, 100, d);
  }

  lemma ScoreFull(points: nat, d: nat)
    requires 0 < d && points <= d
    ensures (100 * points) / d == 100 <==> points == d
  {
    if points < d {
      MulMono(points + 1, d, 100);
      DivBelow(100 * points, 100, d);
    } else {
      DivExact(100, d);
    }
  }

  lemma ScoreHalf(total: nat)
    requires 0 < total
    ensures (100 * total) / (2 * total) == 50
  {
    assert 100 * total == 50 * (2 * total);
    DivExact(50, 2 * total);
  }

  lemma ScoreZero(points: nat, d: nat)
    requires 0 < d
    ensures (100 * points) / d == 0 <==> 100 * points < d
  {
    if 100 * points < d {
      DivBelow(100 * points, 1, d);
    } else {
      DivAtLeast(100 * points, 1, d);
    }
  }

  lemma MulMono(a: nat, b: nat, c: nat)
    requires a <= b
    ensures a * c <= b * c
  {
  }

  lemma DivExact(k: nat, d: nat)
    requires d > 0
    ensures (k * d) / d == k
  {
    var q := (k * d) / d;
    var r := (k * d) % d;
    assert k * d == q * d + r;
    if q < k {
      MulMono(q + 1, k, d);
    } else if q > k {
      MulMono(k + 1, q, d);
    }
  }

  lemma DivAtMost(x: nat, k: nat, d: nat)
    requires d > 0 && x <= k * d
    ensures x / d <= k
  {
    var q := x / d;
    assert q * d <= x;
    if q > k {
      MulMono(k + 1, q, d);
    }
  }

  lemma DivBelow(x: nat, k: nat, d: nat)
    requires d > 0 && x < k * d
    ensures x / d < k
  {
    var q := x / d;
    assert q * d <= x;
    if q >= k {
      MulMono(k, q, d);
    }
  }

  lemma DivAtLeast(x: nat, k: nat, d: nat)
    requires d > 0 && k * d <= x
    ensures k <= x / d
  {
    var q := x / d;
    assert x < q * d + d;
    if q < k {
      MulMono(q + 1, k, d);
    }
  }

  /** The order of the status groups. */
  function StatusRank(group: string): (r: Option<nat>)
    ensures r.Some? <==> group in {ValidatedLabel, FailingLabel, InProgressLabel, NotStartedLabel}
  {
    if group == ValidatedLabel then Some(1)
    else if group == FailingLabel then Some(2)
    else if group == InProgressLabel then Some(3)
    else if group == NotStartedLabel then Some(4)
    else None
  }

  /** The order of the role groups; roles outside the table have no rank. */
  function RoleRank(group: string): (r: Option<nat>)
    ensures r.Some? <==> group in {"TRITON", "MANTA", "MANTA_TALL", "CERES"}
  {
    if group == "TRITON" then Some(1)
    else if group == "MANTA" then Some(2)
    else if group == "MANTA_TALL" then Some(3)
    else if group == "CERES" then Some(4)
    else None
  }

  datatype Grouping = ByStatus | ByRole

  /** `attrs.group` undefined or "status" groups by status; anything else by role. */
  function ChooseGrouping(group: Option<string>): (g: Grouping)
    ensures g == ByStatus <==> group.None? || group == Some("status")
  {
    if group.None? || group == Some("status") then ByStatus else ByRole
  }

  function Rank(g: Grouping, parent: string): Option<nat>
  {
    match g
    case ByStatus => StatusRank(parent)
    case ByRole => RoleRank(parent)
  }

  /** One node of the graph. */
  datatype Node = Node(room: string, name: string, role: string, size: int, parent: string, value: int, id: string)

  function NodeOf(g: Grouping, room: string, rack: RackSummary): (n: Node)
    ensures n.room == room && n.name == rack.name && n.role == rack.role && n.size == rack.size
    ensures n.id == rack.id && n.value == NodeValue(rack.progress)
    ensures g == ByStatus ==> n.parent == NodeParent(rack.progress)
    ensures g == ByRole ==> n.parent == rack.role
  {
    Node(room, rack.name, rack.role, rack.size,
         match g case ByStatus => NodeParent(rack.progress) case ByRole => rack.role,
         NodeValue(rack.progress), rack.id)
  }

  function NodesOfRoom(g: Grouping, room: string, racks: seq<RackSummary>): (ns: seq<Node>)
    ensures |ns| == |racks|
    ensures forall i | 0 <= i < |racks| :: ns[i] == NodeOf(g, room, racks[i])
  {
    if |racks| == 0 then [] else [NodeOf(g, room, racks[0])] + NodesOfRoom(g, room, racks[1..])
  }

  function RackCount(rooms: seq<(string, seq<RackSummary>)>): nat
  {
    if |rooms| == 0 then 0 else |rooms[0].1| + RackCount(rooms[1..])
  }

  /** The node list: every rack of every room, rooms in key order and racks
      in listed order. */
  function Nodes(g: Grouping, rooms: seq<(string, seq<RackSummary>)>): (ns: seq<Node>)
    ensures |ns| == RackCount(rooms)
    ensures forall n | n in ns :: exists i | 0 <= i < |rooms| ::
              exists rack | rack in rooms[i].1 :: n == NodeOf(g, rooms[i].0, rack)
  {
    if |rooms| == 0 then []
    else
      var head := NodesOfRoom(g, rooms[0].0, rooms[0].1);
      var tail := Nodes(g, rooms[1..]);
      forall n | n in tail
        ensures exists i | 0 <= i < |rooms| :: exists rack | rack in rooms[i].1 :: n == NodeOf(g, rooms[i].0, rack)
      {
        var i, rack :| 0 <= i < |rooms[1..]| && rack in rooms[1..][i].1 && n == NodeOf(g, rooms[1..][i].0, rack);
        assert rooms[1..][i] == rooms[i + 1];
      }
      forall n | n in head
        ensures exists rack | rack in rooms[0].1 :: n == NodeOf(g, rooms[0].0, rack)
      {
        var k :| 0 <= k < |head| && head[k] == n;
        assert rooms[0].1[k] in rooms[0].1;
      }
      head + tail
  }

  /** Every rack of every room has its node. */
  lemma {:induction false} EveryRackHasANode(g: Grouping, rooms: seq<(string, seq<RackSummary>)>, i: nat, rack: RackSummary)
    requires i < |rooms| && rack in rooms[i].1
    ensures NodeOf(g, rooms[i].0, rack) in Nodes(g, rooms)
  {
    var head := NodesOfRoom(g, rooms[0].0, rooms[0].1);
    if i == 0 {
      var k :| 0 <= k < |rooms[0].1| && rooms[0].1[k] == rack;
      assert head[k] == NodeOf(g, rooms[i].0, rack);
    } else {
      assert rooms[1..][i - 1] == rooms[i];
      EveryRackHasANode(g, rooms[1..], i - 1, rack);
    }
  }

  /** The graph's comparator: equal ranks (present or both absent) tie;
      otherwise 1 if the first rank is greater and -1 in every other case,
      including either rank being absent. */
  function RankCompare(a: Option<nat>, b: Option<nat>): (r: int)
    ensures r == 0 <==> a == b
    ensures r == 1 <==> a != b && a.Some? && b.Some? && a.value > b.value
    ensures r == -1 <==> a != b && !(a.Some? && b.Some? && a.value > b.value)
  {
    if a == b then 0
    else if a.Some? && b.Some? && a.value > b.value then 1
    else -1
  }

  /** With an unranked group present the comparator is not a consistent
      order: an unranked group is "before" any ranked one both ways round. */
  lemma UnrankedIsInconsistent(n: nat)
    ensures RankCompare(None, Some(n)) < 0 && RankCompare(Some(n), None) < 0
  {
  }

  function NodeCompare(g: Grouping): (Node, Node) -> int
  {
    (a: Node, b: Node) => RankCompare(Rank(g, a.parent), Rank(g, b.parent))
  }

  predicate AllRanked(g: Grouping, ns: seq<Node>)
  {
    forall i | 0 <= i < |ns| :: Rank(g, ns[i].parent).Some?
  }

  lemma NodeCompareConsistent(g: Grouping, ns: seq<Node>)
    requires AllRanked(g, ns)
    ensures Sorting.ConsistentOn(NodeCompare(g), ns)
  {
    forall a | a in ns
      ensures Rank(g, a.parent).Some?
    {
      var i :| 0 <= i < |ns| && ns[i] == a;
    }
  }

  /** `sortNodes`: a stable sort of the nodes by group rank. */
  function SortNodes(g: Grouping, ns: seq<Node>): (r: seq<Node>)
    ensures multiset(r) == multiset(ns)
    ensures AllRanked(g, ns) ==> AllRanked(g, r) && forall i, j | 0 <= i < j < |r| ::
              Rank(g, r[i].parent).value <= Rank(g, r[j].parent).value
  {
    var r := Sorting.Sort(ns, NodeCompare(g));
    if AllRanked(g, ns) then
      NodeCompareConsistent(g, ns);
      Sorting.SortSorted(ns, NodeCompare(g));
      RankedAfterSort(g, ns, r);
      r
    else r
  }

  lemma RankedAfterSort(g: Grouping, ns: seq<Node>, r: seq<Node>)
    requires AllRanked(g, ns) && multiset(r) == multiset(ns)
    ensures AllRanked(g, r)
  {
    forall i | 0 <= i < |r|
      ensures Rank(g, r[i].parent).Some?
    {
      assert r[i] in multiset(ns);
      var k :| 0 <= k < |ns| && ns[k] == r[i];
    }
  }

  /** Grouping by status always yields ranked groups, so the status graph is
      ordered Validated, Failing, In Progress, Not Started. */
  lemma StatusNodesAreRanked(rooms: seq<(string, seq<RackSummary>)>)
    ensures AllRanked(ByStatus, Nodes(ByStatus, rooms))
  {
    var ns := Nodes(ByStatus, rooms);
    forall i | 0 <= i < |ns|
      ensures StatusRank(ns[i].parent).Some?
    {
      assert ns[i] in ns;
      var k, rack :| 0 <= k < |rooms| && rack in rooms[k].1 && ns[i] == NodeOf(ByStatus, rooms[k].0, rack);
    }
  }

  /** The graph's data for the room index of the store. */
  function Graph(group: Option<string>, rooms: Obj<seq<RackSummary>>): (ns: seq<Node>)
    ensures multiset(ns) == multiset(Nodes(ChooseGrouping(group), rooms))
    ensures ChooseGrouping(group) == ByStatus ==> AllRanked(ByStatus, ns) && forall i, j | 0 <= i < j < |ns| ::
              StatusRank(ns[i].parent).value <= StatusRank(ns[j].parent).value
  {
    var g := ChooseGrouping(group);
    var ns := Nodes(g, rooms);
    StatusNodesAreRanked(rooms);
    assert g == ByStatus ==> AllRanked(g, ns);
    SortNodes(g, ns)
  }
}

=== FILE: rack_view.dfy ===
/**
  The rack layout page: what each slot's input shows, how typing changes a
  slot, which slot is highlighted, the status cell, the per-row actions,
  the order rows are rendered in, and the relay badge.
 */
module RackView {
  import opened JsValues
  import DeviceModel
  import opened Health
  import DeviceStatus
  import opened Relay
  import opened RackModel
  import JsArray
  import ProblemModel
  import ProblemView
  import Route
  import RackPage

  /** `value` of a slot's input: `slot.assignment || (slot.occupant || {}).id || ""`. */
  function InputValue(slot: Slot): (v: string)
    ensures Truthy(slot.assignment) ==> v == slot.assignment.value
    ensures !Truthy(slot.assignment) && slot.occupant.Some? ==> v == slot.occupant.value.id
    ensures !Truthy(slot.assignment) && slot.occupant.None? ==> v == ""
  {
    if Truthy(slot.assignment) then slot.assignment.value
    else if slot.occupant.Some? && slot.occupant.value.id != "" then slot.occupant.value.id
    else ""
  }

  const Unassigned: string := "Unassigned"

  /** `placeholder` of a slot's input. */
  function Placeholder(slot: Slot): (p: string)
    ensures p == Unassigned <==> slot.occupant.None?
    ensures slot.occupant.Some? ==> p == ""
  {
    if slot.occupant.Some? then "" else Unassigned
  }

  /** `(slot.occupant || {}).id`: absent for an empty slot. */
  function OccupantId(slot: Slot): (id: Option<string>)
    ensures id.Some? <==> slot.occupant.Some?
  {
    if slot.occupant.Some? then Some(slot.occupant.value.id) else None
  }

  /** The `row-highlight` class of a slot's input:
      `Rack.highlightDevice && Rack.highlightDevice === (slot.occupant || {}).id`. */
  function Highlighted(highlightDevice: Option<string>, slot: Slot): (b: bool)
    ensures b ==> slot.occupant.Some?
    ensures b <==> highlightDevice.Some? && highlightDevice.value != "" &&
                   slot.occupant.Some? && slot.occupant.value.id == highlightDevice.value
  {
    Truthy(highlightDevice) && OccupantId(slot) == highlightDevice
  }

  /** Following a problem page's "Show Device in Rack" link opens the linked
      rack and highlights exactly the slots the linked device occupies; a
      link with an empty device id highlights nothing. */
  lemma DeepLinkHighlights(d: ProblemModel.ProblemDevice, urlId: string, st: RackModel.Store, slot: Slot)
    requires d.location.Some? && Route.PlainSegment(d.location.value.rackId) && Route.PlainValue(urlId)
    ensures ProblemView.RackHref(d, urlId).Some?
    ensures var attrs := Route.MatchRack(ProblemView.RackHref(d, urlId).value);
            attrs.Some? && attrs.value.id == d.location.value.rackId &&
            (Highlighted(RackPage.OnInitHighlight(st, attrs.value).highlightDevice, slot) <==>
               urlId != "" && slot.occupant.Some? && slot.occupant.value.id == urlId)
  {
    Route.MatchRackLink(d.location.value.rackId, urlId);
  }

  /** The `oninput` handler of slot `k`: records the typed text as that slot's
      assignment and touches nothing else. */
  function TypeInto(rack: Rack, k: nat, text: string): (r: Rack)
    requires k in rack.slots
    ensures r.slots.Keys == rack.slots.Keys
    ensures r.slots[k] == rack.slots[k].(assignment := Some(text))
    ensures forall j | j in rack.slots && j != k :: r.slots[j] == rack.slots[j]
    ensures r.(slots := rack.slots) == rack
  {
    rack.(slots := rack.slots[k := rack.slots[k].(assignment := Some(text))])
  }

  /** The last keystroke wins. */
  lemma LastKeystrokeWins(rack: Rack, k: nat, first: string, second: string)
    requires k in rack.slots
    ensures TypeInto(TypeInto(rack, k, first), k, second) == TypeInto(rack, k, second)
  {
  }

  /** The input shows what was typed; clearing it falls back to the occupant. */
  lemma InputShowsTyping(rack: Rack, k: nat, text: string)
    requires k in rack.slots
    ensures text != "" ==> InputValue(TypeInto(rack, k, text).slots[k]) == text
    ensures text == "" ==> InputValue(TypeInto(rack, k, text).slots[k]) == InputValue(rack.slots[k].(assignment := None))
  {
  }

  /** Typing a device id into a slot puts that id in the submitted payload, at
      that slot or a higher-numbered one carrying the same id. */
  lemma TypedIdIsSubmitted(rack: Rack, k: nat, text: string)
    requires k in rack.slots && text != ""
    ensures text in Payload(TypeInto(rack, k, text).slots)
    ensures k <= Payload(TypeInto(rack, k, text).slots)[text]
  {
    var slots := TypeInto(rack, k, text).slots;
    assert AssignsTo(slots[k], text);
    RackModel.PayloadCoversSlot(slots, k, text);
  }

  /** What the input shows is not what is submitted: a rack nobody typed into
      shows every occupant's id yet submits an empty payload. */
  lemma UntouchedRackSubmitsNothing(rack: Rack)
    requires forall k | k in rack.slots :: rack.slots[k].assignment.None?
    ensures Payload(rack.slots) == map[]
  {
  }

  /** The status cell: nothing for an empty slot; otherwise the four-way
      health icon and the reporting icon when the occupant is active. */
  function StatusIndicator(occupant: Option<DeviceModel.Device>, now: int): (v: DeviceStatus.StatusView)
    ensures occupant.None? <==> v.Empty?
    ensures occupant.Some? ==> v.health == Classify(occupant.value)
    ensures occupant.Some? ==> (v.reporting <==> DeviceModel.IsActive(occupant.value.lastSeen, now))
  {
    match occupant
    case None => DeviceStatus.Empty
    case Some(d) => DeviceStatus.Icons(Classify(d), DeviceModel.IsActive(d.lastSeen, now))
  }

  /** The rack's status cell and the `DeviceStatus` component differ only in
      how they show a validated passing device. */
  lemma StatusIndicatorVersusComponent(occupant: Option<DeviceModel.Device>, now: int)
    ensures StatusIndicator(occupant, now).Empty? <==> DeviceStatus.View(occupant, now).Empty?
    ensures StatusIndicator(occupant, now) != DeviceStatus.View(occupant, now) <==>
              occupant.Some? && Classify(occupant.value) == ValidatedIcon
  {
    if occupant.Some? {
      DeviceStatus.AgreesWithClassify(occupant.value);
    }
  }

  /** The "Report" cell: `healthButton[occupant.health]`, which has entries for
      PASS, UNKNOWN and FAIL only. */
  datatype ReportCell = DeviceReportLink(href: string) | NoReportText | ProblemLink(href: string)

  function ReportButton(slot: Slot): (c: Option<ReportCell>)
    ensures c.Some? ==> slot.occupant.Some?
    ensures slot.occupant.Some? && slot.occupant.value.health == Some(PassHealth) ==>
              c == Some(DeviceReportLink("/device/" + slot.occupant.value.id))
    ensures slot.occupant.Some? && slot.occupant.value.health == Some(FailHealth) ==>
              c == Some(ProblemLink("/problem/" + slot.occupant.value.id))
    ensures slot.occupant.Some? && slot.occupant.value.health == Some("UNKNOWN") ==> c == Some(NoReportText)
    ensures c.None? <==>
              (slot.occupant.None? || slot.occupant.value.health !in {Some(PassHealth), Some(FailHealth), Some("UNKNOWN")})
  {
    match slot.occupant
    case None => None
    case Some(d) =>
      if d.health == Some(PassHealth) then Some(DeviceReportLink("/device/" + d.id))
      else if d.health == Some("UNKNOWN") then Some(NoReportText)
      else if d.health == Some(FailHealth) then Some(ProblemLink("/problem/" + d.id))
      else None
  }

  /** What the flag button sends to `/feedback`. */
  datatype Notice = Notice(subject: string, message: string)

  const FlagSubject: string := "[NOTICE] User Flagged Device"
  const FlagLead: string := "Device "

  /** The notice's text after the device id. */
  function FlagTail(slotId: nat): string
  {
    " in slot " + JsArray.ShowNat(slotId) + " was flagged by the user."
  }

  /** The notice's text for device `id` in slot `slotId`. */
  function FlagMessage(id: string, slotId: nat): (m: string)
    ensures |m| == |FlagLead| + |id| + |FlagTail(slotId)|
    ensures m[|FlagLead|..|FlagLead| + |id|] == id
  {
    var m := FlagLead + id + FlagTail(slotId);
    assert m[|FlagLead|..|FlagLead| + |id|] == id;
    m
  }

  /** The "Actions" cell: only an occupied slot gets the flag button, and
      clicking it sends a notice naming the occupant and the slot number. */
  function FlagAction(slot: Slot, slotId: nat): (n: Option<Notice>)
    ensures n.Some? <==> slot.occupant.Some?
    ensures n.Some? ==> n.value.subject == FlagSubject
    ensures n.Some? ==> n.value.message == FlagMessage(slot.occupant.value.id, slotId)
  {
    match slot.occupant
    case None => None
    case Some(d) => Some(Notice(FlagSubject, FlagMessage(d.id, slotId)))
  }

  /** The notice identifies the device: two slots with the same number but
      different occupants send different messages. */
  lemma FlagIdentifiesDevice(a: Slot, b: Slot, slotId: nat)
    requires a.occupant.Some? && b.occupant.Some?
    requires FlagAction(a, slotId) == FlagAction(b, slotId)
    ensures a.occupant.value.id == b.occupant.value.id
  {
    var x := a.occupant.value.id;
    var y := b.occupant.value.id;
    assert FlagMessage(x, slotId) == FlagMessage(y, slotId);
    assert |x| == |y|;
  }

  function Reverse(s: seq<nat>): (r: seq<nat>)
    ensures |r| == |s|
    ensures forall i | 0 <= i < |s| :: r[i] == s[|s| - 1 - i]
  {
    if |s| == 0 then [] else Reverse(s[1..]) + [s[0]]
  }

  lemma ReverseMembers(s: seq<nat>)
    ensures forall k :: k in Reverse(s) <==> k in s
  {
    var r := Reverse(s);
    forall k | k in s
      ensures k in r
    {
      var i :| 0 <= i < |s| && s[i] == k;
      assert r[|s| - 1 - i] == k;
    }
  }

  /** `Object.keys(slots).reverse()`: rows from the highest slot number down. */
  function RowOrder(slots: map<nat, Slot>): (ks: seq<nat>)
    ensures forall i, j | 0 <= i < j < |ks| :: ks[i] > ks[j]
    ensures forall k :: k in ks <==> k in slots
  {
    ReverseMembers(SlotOrder(slots));
    Reverse(SlotOrder(slots))
  }

  /** The relay badge: relay `r` claims the rack on display. */
  predicate InRack(r: Relay, current: Option<Rack>)
  {
    r.location.Some? && current.Some? && r.location.value.rackId == current.value.id
  }

  /** `Relay.activeList.find(...)`: the first active relay in the rack. */
  function ActiveRelay(activeList: seq<Relay>, current: Option<Rack>): (r: Option<Relay>)
    ensures r.None? <==> forall i | 0 <= i < |activeList| :: !InRack(activeList[i], current)
    ensures r.Some? ==> exists i | 0 <= i < |activeList| ::
              activeList[i] == r.value && InRack(r.value, current) &&
              forall j | 0 <= j < i :: !InRack(activeList[j], current)
  {
    if |activeList| == 0 then None
    else if InRack(activeList[0], current) then Some(activeList[0])
    else
      var r := ActiveRelay(activeList[1..], current);
      if r.Some? then
        var i :| 0 <= i < |activeList[1..]| && activeList[1..][i] == r.value && InRack(r.value, current) &&
                 forall j | 0 <= j < i :: !InRack(activeList[1..][j], current);
        assert activeList[i + 1] == r.value;
        assert forall j | 1 <= j < i + 1 :: activeList[j] == activeList[1..][j - 1];
        r
      else r
  }
}

=== FILE: relay.dfy ===
/**
  Relays and the natural ordering of their aliases: an alias is compared
  first by its letters alone, then by the integer its digits spell, so that
  "PRD2" comes before "PRD10".
 */
module Relay {
  import opened JsValues
  import opened StringOrder
  import Sorting

  /** The rack a relay reports being installed in. */
  datatype RelayLocation = RelayLocation(rackId: string, rackName: string, roomName: string, role: string)

  /** A device connected to a relay. */
  datatype RelayDevice = RelayDevice(id: string, lastSeen: Option<int>)

  datatype Relay = Relay(
    id: string,
    alias: Option<string>,
    location: Option<RelayLocation>,
    devices: seq<RelayDevice>)

  datatype Store = Store(list: seq<Relay>, activeList: seq<Relay>)

  predicate IsLetter(c: char) { 'a' <= c <= 'z' || 'A' <= c <= 'Z' }

  predicate IsDigit(c: char) { '0' <= c <= '9' }

  /** `s.replace(/[^a-zA-Z]/g, "")`: the letters of `s`, in order. */
  function Letters(s: string): (r: string)
    ensures forall c | c in r :: IsLetter(c)
    ensures forall i | 0 <= i < |s| && IsLetter(s[i]) :: s[i] in r
    ensures |r| <= |s|
  {
    if |s| == 0 then ""
    else
      var rest := Letters(s[1..]);
      assert forall i | 1 <= i < |s| && IsLetter(s[i]) :: s[1..][i - 1] == s[i];
      if IsLetter(s[0]) then [s[0]] + rest else rest
  }

  /** `s.replace(/[^0-9]/g, "")`: the decimal digits of `s`, in order. */
  function Digits(s: string): (r: string)
    ensures forall c | c in r :: IsDigit(c)
    ensures forall i | 0 <= i < |s| && IsDigit(s[i]) :: s[i] in r
  {
    if |s| == 0 then ""
    else
      var rest := Digits(s[1..]);
      assert forall i | 1 <= i < |s| && IsDigit(s[i]) :: s[1..][i - 1] == s[i];
      if IsDigit(s[0]) then [s[0]] + rest else rest
  }

  function DigitValue(c: char): (v: nat)
    ensures v < 10
  {
    if c == '1' then 1 else if c == '2' then 2 else if c == '3' then 3
    else if c == '4' then 4 else if c == '5' then 5 else if c == '6' then 6
    else if c == '7' then 7 else if c == '8' then 8 else if c == '9' then 9
    else 0
  }

  /** The value of a string of decimal digits, most significant first. */
  function DecimalValue(ds: string): nat
    requires forall c | c in ds :: IsDigit(c)
  {
    if |ds| == 0 then 0
    else
      assert forall c | c in ds[..|ds| - 1] :: c in ds;
      10 * DecimalValue(ds[..|ds| - 1]) + DigitValue(ds[|ds| - 1])
  }

  /** `parseInt` of the digit string: NaN (here `None`) when there are no digits. */
  function Number(alias: string): (n: Option<nat>)
    ensures n.None? <==> Digits(alias) == ""
  {
    var ds := Digits(alias);
    if ds == "" then None else Some(DecimalValue(ds))
  }

  predicate HasDigits(alias: string)
  {
    Digits(alias) != ""
  }

  /** `byAlias`. Equal letter parts fall through to the numbers, where any NaN
      makes both `===` and `>` false and so yields -1. */
  function ByAlias(a: string, b: string): (r: int)
    ensures r == -1 || r == 0 || r == 1
    ensures Letters(a) != Letters(b) ==> (r == 1 <==> Less(Letters(b), Letters(a)))
    ensures r == 0 ==> Letters(a) == Letters(b) && Number(a) == Number(b) && HasDigits(a)
    ensures Letters(a) == Letters(b) && Number(a).Some? && Number(b).Some? ==>
      (r == 1 <==> Number(a).value > Number(b).value) &&
      (r == 0 <==> Number(a).value == Number(b).value) &&
      (r == -1 <==> Number(a).value < Number(b).value)
    ensures Letters(a) == Letters(b) && (Number(a).None? || Number(b).None?) ==> r == -1
  {
    var la := Letters(a);
    var lb := Letters(b);
    if la == lb then
      var na := Number(a);
      var nb := Number(b);
      if na.Some? && nb.Some? && na.value == nb.value then 0
      else if na.Some? && nb.Some? && na.value > nb.value then 1
      else -1
    else if Less(lb, la) then 1
    else -1
  }

  /** For aliases that carry digits, 0 means equal letters and equal numbers. */
  lemma ZeroIff(a: string, b: string)
    requires HasDigits(a) && HasDigits(b)
    ensures ByAlias(a, b) == 0 <==> Letters(a) == Letters(b) && Number(a) == Number(b)
  {
  }

  /** With digits on both sides the comparator is antisymmetric. */
  lemma Antisymmetric(a: string, b: string)
    requires HasDigits(a) && HasDigits(b)
    ensures ByAlias(a, b) == -ByAlias(b, a)
  {
    if Letters(a) != Letters(b) {
      LettersBranchAntisymmetric(a, b);
    }
  }

  /** Different letter parts decide the order, antisymmetrically. */
  lemma LettersBranchAntisymmetric(a: string, b: string)
    requires Letters(a) != Letters(b)
    ensures ByAlias(a, b) == -ByAlias(b, a)
  {
    LessTrichotomy(Letters(a), Letters(b));
    LessAsymmetric(Letters(a), Letters(b));
  }

  /** The NaN case: equal letters and no digits on one side give -1 both
      ways, so the comparator is not antisymmetric there and even an alias
      without digits compares below itself. */
  lemma NoDigitsBothWays(a: string, b: string)
    requires Letters(a) == Letters(b)
    requires !HasDigits(a) || !HasDigits(b)
    ensures ByAlias(a, b) == -1 && ByAlias(b, a) == -1
  {
  }

  lemma NoDigitsBelowItself(a: string)
    requires !HasDigits(a)
    ensures ByAlias(a, a) == -1
  {
  }

  /** The example of the source's comment. */
  lemma Prd2BeforePrd10()
    ensures ByAlias("PRD2", "PRD10") == -1
    ensures ByAlias("PRD10", "PRD2") == 1
  {
    Prd2Parts();
    Prd10Parts();
  }

  lemma Prd2Parts()
    ensures Letters("PRD2") == "PRD" && Number("PRD2") == Some(2)
  {
    assert "PRD2"[1..] == "RD2" && "RD2"[1..] == "D2" && "D2"[1..] == "2" && "2"[1..] == "";
    assert Letters("2") == "" && Digits("2") == "2";
    assert Digits("PRD2") == "2";
    assert "2"[..0] == "";
    assert DecimalValue("2") == 2;
  }

  lemma Prd10Parts()
    ensures Letters("PRD10") == "PRD" && Number("PRD10") == Some(10)
  {
    Prd10Letters();
    Prd10Digits();
    TenValue();
  }

  lemma Prd10Letters()
    ensures Letters("PRD10") == "PRD"
  {
    TenParts();
    assert "PRD10"[1..] == "RD10" && "RD10"[1..] == "D10" && "D10"[1..] == "10";
  }

  lemma Prd10Digits()
    ensures Digits("PRD10") == "10"
  {
    TenParts();
    assert "PRD10"[1..] == "RD10" && "RD10"[1..] == "D10" && "D10"[1..] == "10";
  }

  lemma TenParts()
    ensures Letters("10") == "" && Digits("10") == "10"
  {
    assert "10"[1..] == "0" && "0"[1..] == "";
    assert Letters("0") == "" && Digits("0") == "0";
  }

  lemma TenValue()
    ensures DecimalValue("10") == 10
  {
    assert "10"[..1] == "1" && "1"[..0] == "";
    assert DecimalValue("1") == 1;
  }

  /** "Not after" under `byAlias` is transitive for aliases with digits. */
  lemma Transitive(a: string, b: string, c: string)
    requires HasDigits(a) && HasDigits(b) && HasDigits(c)
    requires ByAlias(a, b) <= 0 && ByAlias(b, c) <= 0
    ensures ByAlias(a, c) <= 0
  {
    var la, lb, lc := Letters(a), Letters(b), Letters(c);
    LessTrichotomy(la, lb);
    LessTrichotomy(lb, lc);
    LessTrichotomy(la, lc);
    LessAsymmetric(la, lb);
    LessAsymmetric(lb, lc);
    LessAsymmetric(la, lc);
    if la != lb && lb != lc && la != lc {
      LessTransitive(la, lb, lc);
    }
  }

  /** The alias the comparator reads; a relay without one makes it throw. */
  function AliasOf(r: Relay): string
  {
    if r.alias.Some? then r.alias.value else ""
  }

  function RelayCompare(a: Relay, b: Relay): int
  {
    ByAlias(AliasOf(a), AliasOf(b))
  }

  predicate AllAliased(rs: seq<Relay>)
  {
    forall i | 0 <= i < |rs| :: rs[i].alias.Some?
  }

  predicate AllNumbered(rs: seq<Relay>)
  {
    forall i | 0 <= i < |rs| :: rs[i].alias.Some? && HasDigits(rs[i].alias.value)
  }

  lemma RelayCompareConsistent(rs: seq<Relay>)
    requires AllNumbered(rs)
    ensures Sorting.ConsistentOn(RelayCompare, rs)
  {
    forall a, b | a in rs && b in rs
      ensures RelayCompare(a, b) > 0 <==> RelayCompare(b, a) < 0
    {
      Antisymmetric(AliasOf(a), AliasOf(b));
    }
    forall a, b, c | a in rs && b in rs && c in rs && RelayCompare(a, b) <= 0 && RelayCompare(b, c) <= 0
      ensures RelayCompare(a, c) <= 0
    {
      Transitive(AliasOf(a), AliasOf(b), AliasOf(c));
    }
  }

  /** `rs.sort(byAlias)`: `None` when the comparator throws, which happens as
      soon as two relays are sorted and one of them has no alias. */
  function SortByAlias(rs: seq<Relay>): (r: Option<seq<Relay>>)
    ensures r.None? <==> |rs| >= 2 && !AllAliased(rs)
    ensures r.Some? ==> multiset(r.value) == multiset(rs)
    ensures r.Some? && AllNumbered(rs) ==>
              forall i, j | 0 <= i < j < |r.value| ::
                ByAlias(AliasOf(r.value[i]), AliasOf(r.value[j])) <= 0
  {
    if |rs| >= 2 && !AllAliased(rs) then None
    else
      SortedByAlias(rs);
      Some(Sorting.Sort(rs, RelayCompare))
  }

  lemma SortedByAlias(rs: seq<Relay>)
    ensures AllNumbered(rs) ==>
              forall i, j | 0 <= i < j < |Sorting.Sort(rs, RelayCompare)| ::
                RelayCompare(Sorting.Sort(rs, RelayCompare)[i], Sorting.Sort(rs, RelayCompare)[j]) <= 0
  {
    if AllNumbered(rs) {
      RelayCompareConsistent(rs);
      Sorting.SortSorted(rs, RelayCompare);
    }
  }

  /** The catch clause of both relay loaders: a thrown comparator error has no
      `error` field, so it is only logged. */
  function Reload(list: seq<Relay>, res: Response<seq<Relay>>): (r: (seq<Relay>, Effect))
    ensures res.Ok? && SortByAlias(res.body).Some? ==> r == (SortByAlias(res.body).value, NoEffect)
    ensures res.Ok? && SortByAlias(res.body).None? ==> r == (list, LogError)
    ensures res.Fail? ==> r == (list, LoaderFailure(res.error))
  {
    match res
    case Ok(rs) =>
      var sorted := SortByAlias(rs);
      if sorted.Some? then (sorted.value, NoEffect) else (list, LogError)
    case Fail(_, error) => (list, LoaderFailure(error))
  }

  /** `loadRelays`: the relay list is the response sorted by alias. */
  function LoadRelays(st: Store, res: Response<seq<Relay>>): (h: Handled<Store>)
    ensures h.state.activeList == st.activeList
    ensures res.Ok? && (|res.body| < 2 || AllAliased(res.body)) ==>
              multiset(h.state.list) == multiset(res.body) && h.effect == NoEffect
    ensures res.Ok? && AllNumbered(res.body) ==>
              forall i, j | 0 <= i < j < |h.state.list| ::
                ByAlias(AliasOf(h.state.list[i]), AliasOf(h.state.list[j])) <= 0
    ensures res.Ok? && |res.body| >= 2 && !AllAliased(res.body) ==> h == Handled(st, LogError)
    ensures res.Fail? ==> h == Handled(st, LoaderFailure(res.error))
  {
    var (list, effect) := Reload(st.list, res);
    Handled(st.(list := list), effect)
  }

  /** `loadActiveRelays`: the same rule for the active relay list. */
  function LoadActiveRelays(st: Store, res: Response<seq<Relay>>): (h: Handled<Store>)
    ensures h.state.list == st.list
    ensures res.Ok? && (|res.body| < 2 || AllAliased(res.body)) ==>
              multiset(h.state.activeList) == multiset(res.body) && h.effect == NoEffect
    ensures res.Ok? && AllNumbered(res.body) ==>
              forall i, j | 0 <= i < j < |h.state.activeList| ::
                ByAlias(AliasOf(h.state.activeList[i]), AliasOf(h.state.activeList[j])) <= 0
    ensures res.Ok? && |res.body| >= 2 && !AllAliased(res.body) ==> h == Handled(st, LogError)
    ensures res.Fail? ==> h == Handled(st, LoaderFailure(res.error))
  {
    var (list, effect) := Reload(st.activeList, res);
    Handled(st.(activeList := list), effect)
  }
}

=== FILE: remediation_filter.dfy ===
/**
  The redundant-result filter that runs before the reducer: a line is copied
  to the output only the first time its (device, component, status) triple
  is seen.
 */
module RemediationFilter {

  /** One input line and the fields the filter reads from it. The status is
      held as the property-key text it becomes in `deviceMap`, so a numeric
      `0` and a string `"0"` are the same key. */
  datatype Line = Line(text: string, deviceId: string, component: string, status: string)

  type Triple = (string, string, string)

  function TripleOf(l: Line): Triple
  {
    (l.deviceId, l.component, l.status)
  }

  /** No earlier line carries the triple of line `i`. */
  predicate FirstOfTriple(lines: seq<Line>, i: int)
    requires 0 <= i < |lines|
  {
    forall j | 0 <= j < i :: TripleOf(lines[j]) != TripleOf(lines[i])
  }

  /** The triples of a sequence of lines. */
  function Triples(lines: seq<Line>): (ts: set<Triple>)
    ensures forall i | 0 <= i < |lines| :: TripleOf(lines[i]) in ts
    ensures forall t | t in ts :: exists i | 0 <= i < |lines| :: TripleOf(lines[i]) == t
  {
    set i | 0 <= i < |lines| :: TripleOf(lines[i])
  }

  lemma TriplesAppend(ls: seq<Line>, l: Line)
    ensures Triples(ls + [l]) == Triples(ls) + {TripleOf(l)}
  {
    var ext := ls + [l];
    assert ext[|ls|] == l;
    forall x | x in Triples(ls)
      ensures x in Triples(ext)
    {
      var i :| 0 <= i < |ls| && TripleOf(ls[i]) == x;
      assert ext[i] == ls[i];
    }
  }

  /** What holds after reading the first `i` lines: `out` holds, in order,
      exactly the lines among them that are first of their triple, and
      `picked` gives their positions. */
  ghost predicate Scanned(lines: seq<Line>, i: int, out: seq<Line>, picked: seq<nat>)
    requires 0 <= i <= |lines|
  {
    && |out| == |picked|
    && (forall t | 0 <= t < |picked| :: picked[t] < i && out[t] == lines[picked[t]])
    && (forall t, u | 0 <= t < u < |picked| :: picked[t] < picked[u])
    && (forall j | 0 <= j < i :: j in picked <==> FirstOfTriple(lines, j))
    && (forall t, u | 0 <= t < u < |out| :: TripleOf(out[t]) != TripleOf(out[u]))
  }

  /** Writing line `i`, the first of its triple. */
  lemma ScanPick(lines: seq<Line>, i: int, out: seq<Line>, picked: seq<nat>)
    requires 0 <= i < |lines| && Scanned(lines, i, out, picked)
    requires Triples(out) == Triples(lines[..i])
    requires FirstOfTriple(lines, i)
    ensures Scanned(lines, i + 1, out + [lines[i]], picked + [i])
  {
    var out', picked' := out + [lines[i]], picked + [i];
    forall t, u | 0 <= t < u < |out'|
      ensures TripleOf(out'[t]) != TripleOf(out'[u])
    {
      if u == |out| {
        assert out'[t] == lines[picked[t]];
      }
    }
    forall j | 0 <= j < i + 1
      ensures j in picked' <==> FirstOfTriple(lines, j)
    {
      if j < i {
        assert j in picked' <==> j in picked;
      }
    }
  }

  /** Skipping line `i`, whose triple was seen. */
  lemma ScanSkip(lines: seq<Line>, i: int, out: seq<Line>, picked: seq<nat>)
    requires 0 <= i < |lines| && Scanned(lines, i, out, picked)
    requires !FirstOfTriple(lines, i)
    ensures Scanned(lines, i + 1, out, picked)
  {
  }

  /** Reads every line in order. `out` is what is written, and `picked` gives
      the input position each written line came from. */
  method Filter(lines: seq<Line>) returns (out: seq<Line>, picked: seq<nat>)
    ensures |out| == |picked|
    ensures forall t | 0 <= t < |picked| :: picked[t] < |lines| && out[t] == lines[picked[t]]
    ensures forall t, u | 0 <= t < u < |picked| :: picked[t] < picked[u]
    ensures forall i | 0 <= i < |lines| :: i in picked <==> FirstOfTriple(lines, i)
    ensures forall t, u | 0 <= t < u < |out| :: TripleOf(out[t]) != TripleOf(out[u])
    ensures Triples(out) == Triples(lines)
  {
    var seen: set<Triple> := {};
    out, picked := [], [];
    for i := 0 to |lines|
      invariant seen == Triples(lines[..i])
      invariant seen == Triples(out)
      invariant Scanned(lines, i, out, picked)
    {
      var t := TripleOf(lines[i]);
      assert t !in seen <==> FirstOfTriple(lines, i) by {
        if t in seen {
          var j :| 0 <= j < i && TripleOf(lines[..i][j]) == t;
          assert TripleOf(lines[j]) == t;
        }
      }
      if t !in seen {
        ScanPick(lines, i, out, picked);
        seen := seen + {t};
        TriplesAppend(out, lines[i]);
        out := out + [lines[i]];
        picked := picked + [i];
      } else {
        ScanSkip(lines, i, out, picked);
      }
      assert lines[..i + 1] == lines[..i] + [lines[i]];
      TriplesAppend(lines[..i], lines[i]);
    }
    assert lines[..|lines|] == lines;
  }
}

=== FILE: remediation_reduce.dfy ===
/**
  The time-to-earliest-remediation reducer: a stream of validation records is
  folded into a map from (device, component) to the earliest failure and the
  earliest pass that follows some failure read before it.
 */
module RemediationReduce {
  import opened JsValues

  /** One input line: the device, the component name, the numeric status
      (0 fail, 1 pass) and the creation time in milliseconds. */
  datatype Record = Record(deviceId: string, component: string, status: int, created: int)

  type Key = (string, string)

  function KeyOf(r: Record): Key
  {
    (r.deviceId, r.component)
  }

  /** `deviceMap[device][component]`. */
  datatype Entry = Entry(firstFail: Record, firstPass: Option<Record>)

  type DeviceMap = map<Key, Entry>

  /** The line handler applied to one record. */
  function Step(m: DeviceMap, r: Record): (m': DeviceMap)
    ensures forall k | k != KeyOf(r) :: (k in m' <==> k in m) && (k in m ==> m'[k] == m[k])
    ensures r.status != 0 && r.status != 1 ==> m' == m
    ensures r.status == 0 && KeyOf(r) !in m ==> KeyOf(r) in m' && m'[KeyOf(r)] == Entry(r, None)
    ensures r.status == 1 && KeyOf(r) !in m ==> m' == m
    ensures KeyOf(r) in m ==> KeyOf(r) in m'
    ensures KeyOf(r) in m' <==> KeyOf(r) in m || r.status == 0
  {
    var k := KeyOf(r);
    if r.status == 0 then
      if k !in m then m[k := Entry(r, None)]
      else if m[k].firstFail.created > r.created then m[k := m[k].(firstFail := r)]
      else m
    else if r.status == 1 && k in m && m[k].firstFail.created < r.created then
      match m[k].firstPass
      case None => m[k := m[k].(firstPass := Some(r))]
      case Some(p) => if p.created > r.created then m[k := m[k].(firstPass := Some(r))] else m
    else m
  }

  /** The map after reading every record in order. */
  function Reduce(rs: seq<Record>): DeviceMap
  {
    if |rs| == 0 then map[] else Step(Reduce(rs[..|rs| - 1]), rs[|rs| - 1])
  }

  // ---------------------------------------------------------------------
  // The reference: which records the entry should hold

  datatype Kind = FailKind | PassKind

  /** Record `j` is a failure for `k`, or a pass for `k` read after some failure
      for `k` created strictly before it. */
  predicate Candidate(rs: seq<Record>, k: Key, kind: Kind, j: int)
    requires 0 <= j < |rs|
  {
    match kind
    case FailKind => FailAt(rs, k, j)
    case PassKind =>
      KeyOf(rs[j]) == k && rs[j].status == 1 &&
      exists i | 0 <= i < j :: FailAt(rs, k, i) && rs[i].created < rs[j].created
  }

  predicate FailAt(rs: seq<Record>, k: Key, i: int)
    requires 0 <= i < |rs|
  {
    KeyOf(rs[i]) == k && rs[i].status == 0
  }

  predicate HasCandidate(rs: seq<Record>, k: Key, kind: Kind)
  {
    exists j | 0 <= j < |rs| :: Candidate(rs, k, kind, j)
  }

  /** Record `j` is the candidate created earliest, the first read among ties. */
  predicate EarliestAt(rs: seq<Record>, k: Key, kind: Kind, j: int)
  {
    0 <= j < |rs| && Candidate(rs, k, kind, j) &&
    forall i | 0 <= i < |rs| && Candidate(rs, k, kind, i) ::
      rs[j].created < rs[i].created || (rs[j].created == rs[i].created && j <= i)
  }

  /** The entry the reference expects for `k`, given that `k` has a failure. */
  predicate Holds(rs: seq<Record>, k: Key, e: Entry)
  {
    (exists j | 0 <= j < |rs| :: EarliestAt(rs, k, FailKind, j) && e.firstFail == rs[j]) &&
    (e.firstPass.None? <==> !HasCandidate(rs, k, PassKind)) &&
    (e.firstPass.Some? ==> exists j | 0 <= j < |rs| :: EarliestAt(rs, k, PassKind, j) && e.firstPass.value == rs[j])
  }

  lemma CandidatePrefix(rs: seq<Record>, n: nat, k: Key, kind: Kind, j: int)
    requires n <= |rs| && 0 <= j < n
    ensures Candidate(rs[..n], k, kind, j) <==> Candidate(rs, k, kind, j)
  {
    var p := rs[..n];
    if kind == PassKind {
      if Candidate(rs, k, kind, j) {
        var i :| 0 <= i < j && FailAt(rs, k, i) && rs[i].created < rs[j].created;
        assert FailAt(p, k, i);
      }
      if Candidate(p, k, kind, j) {
        var i :| 0 <= i < j && FailAt(p, k, i) && p[i].created < p[j].created;
        assert FailAt(rs, k, i);
      }
    }
  }

  /** A record that is not a candidate leaves earliest-ness as it was before it. */
  lemma EarliestWithoutLast(rs: seq<Record>, k: Key, kind: Kind, j: int)
    requires |rs| > 0 && !Candidate(rs, k, kind, |rs| - 1)
    ensures EarliestAt(rs, k, kind, j) <==> EarliestAt(rs[..|rs| - 1], k, kind, j)
    ensures HasCandidate(rs, k, kind) <==> HasCandidate(rs[..|rs| - 1], k, kind)
  {
    CandidatesWithoutLast(rs, k, kind);
    if 0 <= j < |rs| - 1 {
      CandidatePrefix(rs, |rs| - 1, k, kind, j);
    }
    HasCandidateWithoutLast(rs, k, kind);
  }

  /** Before the last record, the candidates of a list and of its prefix agree. */
  lemma CandidatesWithoutLast(rs: seq<Record>, k: Key, kind: Kind)
    requires |rs| > 0
    ensures forall i | 0 <= i < |rs| - 1 :: Candidate(rs[..|rs| - 1], k, kind, i) <==> Candidate(rs, k, kind, i)
  {
    var n := |rs| - 1;
    forall i | 0 <= i < n
      ensures Candidate(rs[..n], k, kind, i) <==> Candidate(rs, k, kind, i)
    {
      CandidatePrefix(rs, n, k, kind, i);
    }
  }

  lemma HasCandidateWithoutLast(rs: seq<Record>, k: Key, kind: Kind)
    requires |rs| > 0 && !Candidate(rs, k, kind, |rs| - 1)
    ensures HasCandidate(rs, k, kind) <==> HasCandidate(rs[..|rs| - 1], k, kind)
  {
    var n := |rs| - 1;
    if HasCandidate(rs, k, kind) {
      var i :| 0 <= i < |rs| && Candidate(rs, k, kind, i);
      CandidatePrefix(rs, n, k, kind, i);
      assert Candidate(rs[..n], k, kind, i);
    }
    if HasCandidate(rs[..n], k, kind) {
      var i :| 0 <= i < n && Candidate(rs[..n], k, kind, i);
      CandidatePrefix(rs, n, k, kind, i);
      assert Candidate(rs, k, kind, i);
    }
  }

  /** A new candidate created strictly before the old earliest one is the new earliest. */
  lemma EarliestIsLast(rs: seq<Record>, k: Key, kind: Kind, j: int)
    requires |rs| > 0 && Candidate(rs, k, kind, |rs| - 1)
    requires EarliestAt(rs[..|rs| - 1], k, kind, j) || !HasCandidate(rs[..|rs| - 1], k, kind)
    requires EarliestAt(rs[..|rs| - 1], k, kind, j) ==> rs[|rs| - 1].created < rs[j].created
    ensures EarliestAt(rs, k, kind, |rs| - 1)
  {
    var n := |rs| - 1;
    forall i | 0 <= i < n && Candidate(rs, k, kind, i)
      ensures rs[n].created < rs[i].created
    {
      CandidatePrefix(rs, n, k, kind, i);
    }
  }

  /** A new candidate created no earlier than the earliest one leaves it earliest. */
  lemma EarliestStays(rs: seq<Record>, k: Key, kind: Kind, j: int)
    requires |rs| > 0 && Candidate(rs, k, kind, |rs| - 1)
    requires EarliestAt(rs[..|rs| - 1], k, kind, j)
    requires rs[j].created <= rs[|rs| - 1].created
    ensures EarliestAt(rs, k, kind, j)
  {
    var n := |rs| - 1;
    CandidatePrefix(rs, n, k, kind, j);
    forall i | 0 <= i < n && Candidate(rs, k, kind, i)
      ensures Candidate(rs[..n], k, kind, i)
    {
      CandidatePrefix(rs, n, k, kind, i);
    }
  }

  /** The last record qualifies as a pass exactly when the earliest failure
      before it was created before it. */
  lemma PassQualifies(rs: seq<Record>, k: Key, j: int)
    requires |rs| > 0 && KeyOf(rs[|rs| - 1]) == k && rs[|rs| - 1].status == 1
    requires EarliestAt(rs[..|rs| - 1], k, FailKind, j) || !HasCandidate(rs[..|rs| - 1], k, FailKind)
    ensures Candidate(rs, k, PassKind, |rs| - 1) <==>
      EarliestAt(rs[..|rs| - 1], k, FailKind, j) && rs[j].created < rs[|rs| - 1].created
  {
    var n := |rs| - 1;
    if Candidate(rs, k, PassKind, n) {
      var i :| 0 <= i < n && FailAt(rs, k, i) && rs[i].created < rs[n].created;
      CandidatePrefix(rs, n, k, FailKind, i);
      assert Candidate(rs[..n], k, FailKind, i);
    }
    if EarliestAt(rs[..n], k, FailKind, j) && rs[j].created < rs[n].created {
      CandidatePrefix(rs, n, k, FailKind, j);
      assert FailAt(rs, k, j);
    }
  }

  /** The reducer's entry for each key is exactly the reference's: present iff
      the key has a failure, holding the earliest failure and the earliest
      qualifying pass. */
  lemma {:induction false} ReduceMeetsReference(rs: seq<Record>, k: Key)
    ensures k in Reduce(rs) <==> HasCandidate(rs, k, FailKind)
    ensures k in Reduce(rs) ==> Holds(rs, k, Reduce(rs)[k])
    decreases |rs|
  {
    if |rs| > 0 {
      var n := |rs| - 1;
      var p := rs[..n];
      var r := rs[n];
      ReduceMeetsReference(p, k);
      var m := Reduce(p);
      assert Reduce(rs) == Step(m, r);
      if KeyOf(r) != k || (r.status != 0 && r.status != 1) {
        EarliestWithoutLast(rs, k, FailKind, 0);
        if k in m {
          HoldsWithoutLast(rs, k, m[k]);
        }
      } else if r.status == 0 {
        ReduceFail(rs, k);
      } else {
        ReducePass(rs, k);
      }
    }
  }

  lemma ReduceFail(rs: seq<Record>, k: Key)
    requires |rs| > 0 && KeyOf(rs[|rs| - 1]) == k && rs[|rs| - 1].status == 0
    requires var p := rs[..|rs| - 1];
      (k in Reduce(p) <==> HasCandidate(p, k, FailKind)) &&
      (k in Reduce(p) ==> Holds(p, k, Reduce(p)[k]))
    ensures k in Reduce(rs) && Holds(rs, k, Reduce(rs)[k])
  {
    var n := |rs| - 1;
    var m := Reduce(rs[..n]);
    assert Reduce(rs) == Step(m, rs[n]);
    if k !in m {
      ReduceFailNew(rs, k);
    } else {
      ReduceFailKnown(rs, k, m[k], Reduce(rs)[k]);
    }
  }

  /** The first failure read for a key opens its entry, with no pass. */
  lemma ReduceFailNew(rs: seq<Record>, k: Key)
    requires |rs| > 0 && KeyOf(rs[|rs| - 1]) == k && rs[|rs| - 1].status == 0
    requires !HasCandidate(rs[..|rs| - 1], k, FailKind)
    ensures Holds(rs, k, Entry(rs[|rs| - 1], None))
  {
    var n := |rs| - 1;
    assert Candidate(rs, k, FailKind, n);
    EarliestIsLast(rs, k, FailKind, 0);
    PassNeedsFail(rs[..n], k);
    EarliestWithoutLast(rs, k, PassKind, 0);
  }

  /** A later failure for a known key replaces the failure only when it was
      created strictly earlier, and leaves the pass alone. */
  lemma ReduceFailKnown(rs: seq<Record>, k: Key, e: Entry, e': Entry)
    requires |rs| > 0 && KeyOf(rs[|rs| - 1]) == k && rs[|rs| - 1].status == 0
    requires Holds(rs[..|rs| - 1], k, e)
    requires e' == if e.firstFail.created > rs[|rs| - 1].created then e.(firstFail := rs[|rs| - 1]) else e
    ensures Holds(rs, k, e')
  {
    var n := |rs| - 1;
    var p := rs[..n];
    var j :| 0 <= j < |p| && EarliestAt(p, k, FailKind, j) && e.firstFail == p[j];
    assert Candidate(rs, k, FailKind, n);
    var jf := if e.firstFail.created > rs[n].created then n else j;
    if jf == n {
      EarliestIsLast(rs, k, FailKind, j);
    } else {
      EarliestStays(rs, k, FailKind, j);
    }
    assert EarliestAt(rs, k, FailKind, jf) && e'.firstFail == rs[jf];
    PassUnchanged(rs, k, e);
  }

  /** A failure read last changes nothing about the expected pass. */
  lemma PassUnchanged(rs: seq<Record>, k: Key, e: Entry)
    requires |rs| > 0 && rs[|rs| - 1].status == 0
    requires Holds(rs[..|rs| - 1], k, e)
    ensures e.firstPass.None? <==> !HasCandidate(rs, k, PassKind)
    ensures e.firstPass.Some? ==> exists j | 0 <= j < |rs| :: EarliestAt(rs, k, PassKind, j) && e.firstPass.value == rs[j]
  {
    var p := rs[..|rs| - 1];
    EarliestWithoutLast(rs, k, PassKind, 0);
    if e.firstPass.Some? {
      var j1 :| 0 <= j1 < |p| && EarliestAt(p, k, PassKind, j1) && e.firstPass.value == p[j1];
      EarliestWithoutLast(rs, k, PassKind, j1);
      assert EarliestAt(rs, k, PassKind, j1) && e.firstPass.value == rs[j1];
    }
  }

  lemma ReducePass(rs: seq<Record>, k: Key)
    requires |rs| > 0 && KeyOf(rs[|rs| - 1]) == k && rs[|rs| - 1].status == 1
    requires var p := rs[..|rs| - 1];
      (k in Reduce(p) <==> HasCandidate(p, k, FailKind)) &&
      (k in Reduce(p) ==> Holds(p, k, Reduce(p)[k]))
    ensures k in Reduce(rs) <==> HasCandidate(rs, k, FailKind)
    ensures k in Reduce(rs) ==> Holds(rs, k, Reduce(rs)[k])
  {
    if k !in Reduce(rs[..|rs| - 1]) {
      ReducePassUnknown(rs, k);
    } else {
      ReducePassKnown(rs, k);
    }
  }

  /** A pass for a key with no failure yet is dropped. */
  lemma ReducePassUnknown(rs: seq<Record>, k: Key)
    requires |rs| > 0 && KeyOf(rs[|rs| - 1]) == k && rs[|rs| - 1].status == 1
    requires var p := rs[..|rs| - 1];
      k !in Reduce(p) && !HasCandidate(p, k, FailKind)
    ensures k !in Reduce(rs) && !HasCandidate(rs, k, FailKind)
  {
    var n := |rs| - 1;
    assert !Candidate(rs, k, FailKind, n);
    EarliestWithoutLast(rs, k, FailKind, 0);
    PassQualifies(rs, k, 0);
  }

  /** A pass for a key with a failure: kept if it is the earliest so far. */
  lemma ReducePassKnown(rs: seq<Record>, k: Key)
    requires |rs| > 0 && KeyOf(rs[|rs| - 1]) == k && rs[|rs| - 1].status == 1
    requires var p := rs[..|rs| - 1];
      k in Reduce(p) && HasCandidate(p, k, FailKind) && Holds(p, k, Reduce(p)[k])
    ensures k in Reduce(rs) && HasCandidate(rs, k, FailKind) && Holds(rs, k, Reduce(rs)[k])
  {
    var n := |rs| - 1;
    var p := rs[..n];
    var r := rs[n];
    var m := Reduce(p);
    var e := m[k];
    assert Reduce(rs) == Step(m, r);
    assert !Candidate(rs, k, FailKind, n);
    EarliestWithoutLast(rs, k, FailKind, 0);
    var j :| 0 <= j < |p| && EarliestAt(p, k, FailKind, j) && e.firstFail == p[j];
    EarliestWithoutLast(rs, k, FailKind, j);
    assert e.firstFail == rs[j];
    PassQualifies(rs, k, j);
    if !Candidate(rs, k, PassKind, n) {
      HoldsWithoutLast(rs, k, e);
    } else {
      ReducePassKept(rs, k, j);
    }
  }

  /** A qualifying pass replaces the recorded pass iff it was created earlier. */
  lemma ReducePassKept(rs: seq<Record>, k: Key, j: int)
    requires |rs| > 0 && KeyOf(rs[|rs| - 1]) == k && rs[|rs| - 1].status == 1
    requires Candidate(rs, k, PassKind, |rs| - 1)
    requires var p := rs[..|rs| - 1];
      k in Reduce(p) && Holds(p, k, Reduce(p)[k]) &&
      0 <= j < |p| && EarliestAt(rs, k, FailKind, j) && Reduce(p)[k].firstFail == rs[j] &&
      Reduce(p)[k].firstFail.created < rs[|rs| - 1].created
    ensures k in Reduce(rs) && Holds(rs, k, Reduce(rs)[k])
  {
    var n := |rs| - 1;
    var p := rs[..n];
    var r := rs[n];
    var m := Reduce(p);
    var e := m[k];
    assert Reduce(rs) == Step(m, r);
    var e' := e.(firstPass := Some(r));
    if e.firstPass.None? {
      assert Reduce(rs)[k] == e';
      EarliestIsLast(rs, k, PassKind, 0);
      HoldsFrom(rs, k, e', j, n);
    } else {
      var j1 :| 0 <= j1 < |p| && EarliestAt(p, k, PassKind, j1) && e.firstPass.value == p[j1];
      if e.firstPass.value.created > r.created {
        assert Reduce(rs)[k] == e';
        EarliestIsLast(rs, k, PassKind, j1);
        HoldsFrom(rs, k, e', j, n);
      } else {
        assert Reduce(rs)[k] == e;
        EarliestStays(rs, k, PassKind, j1);
        HoldsFrom(rs, k, e, j, j1);
      }
    }
  }

  /** `Holds` from its witnesses. */
  lemma HoldsFrom(rs: seq<Record>, k: Key, e: Entry, jf: int, jp: int)
    requires 0 <= jf < |rs| && EarliestAt(rs, k, FailKind, jf) && e.firstFail == rs[jf]
    requires e.firstPass.Some? && 0 <= jp < |rs| && EarliestAt(rs, k, PassKind, jp) && e.firstPass.value == rs[jp]
    ensures Holds(rs, k, e)
  {
    assert Candidate(rs, k, PassKind, jp);
  }

  /** A qualifying pass for `k` needs a failure for `k`. */
  lemma PassNeedsFail(rs: seq<Record>, k: Key)
    ensures HasCandidate(rs, k, PassKind) ==> HasCandidate(rs, k, FailKind)
  {
    if HasCandidate(rs, k, PassKind) {
      var j :| 0 <= j < |rs| && Candidate(rs, k, PassKind, j);
      var i :| 0 <= i < j && FailAt(rs, k, i) && rs[i].created < rs[j].created;
      assert Candidate(rs, k, FailKind, i);
    }
  }

  /** A record that is no candidate of either kind for `k` leaves the
      expected entry as it was. */
  lemma HoldsWithoutLast(rs: seq<Record>, k: Key, e: Entry)
    requires |rs| > 0 && !Candidate(rs, k, FailKind, |rs| - 1) && !Candidate(rs, k, PassKind, |rs| - 1)
    requires Holds(rs[..|rs| - 1], k, e)
    ensures Holds(rs, k, e)
  {
    var p := rs[..|rs| - 1];
    var j :| 0 <= j < |p| && EarliestAt(p, k, FailKind, j) && e.firstFail == p[j];
    EarliestWithoutLast(rs, k, FailKind, j);
    EarliestWithoutLast(rs, k, PassKind, 0);
    if e.firstPass.Some? {
      var j1 :| 0 <= j1 < |p| && EarliestAt(p, k, PassKind, j1) && e.firstPass.value == p[j1];
      EarliestWithoutLast(rs, k, PassKind, j1);
    }
  }

  /** The ordering invariant: a recorded pass was created strictly after the
      recorded failure. */
  lemma PassAfterFail(rs: seq<Record>, k: Key)
    requires k in Reduce(rs) && Reduce(rs)[k].firstPass.Some?
    ensures Reduce(rs)[k].firstFail.created < Reduce(rs)[k].firstPass.value.created
  {
    ReduceMeetsReference(rs, k);
    var e := Reduce(rs)[k];
    var jf :| 0 <= jf < |rs| && EarliestAt(rs, k, FailKind, jf) && e.firstFail == rs[jf];
    var jp :| 0 <= jp < |rs| && EarliestAt(rs, k, PassKind, jp) && e.firstPass.value == rs[jp];
    assert Candidate(rs, k, PassKind, jp);
    var i :| 0 <= i < jp && FailAt(rs, k, i) && rs[i].created < rs[jp].created;
    assert Candidate(rs, k, FailKind, i);
    assert rs[jf].created <= rs[i].created;
  }

  /** Order matters: a pass read before any failure is never recorded, even if
      it was created after that failure. */
  lemma PassBeforeFailIgnored()
    ensures var pass := Record("d", "c", 1, 5);
            var fail := Record("d", "c", 0, 1);
            ("d", "c") in Reduce([pass, fail]) && Reduce([pass, fail])[("d", "c")] == Entry(fail, None) &&
            ("d", "c") in Reduce([fail, pass]) && Reduce([fail, pass])[("d", "c")] == Entry(fail, Some(pass))
  {
    var pass := Record("d", "c", 1, 5);
    var fail := Record("d", "c", 0, 1);
    assert [pass, fail][..1] == [pass];
    assert [fail, pass][..1] == [fail];
    assert [pass][..0] == [];
    assert [fail][..0] == [];
    assert Reduce([pass]) == map[];
    assert Reduce([fail]) == map[("d", "c") := Entry(fail, None)];
    assert Reduce([fail, pass]) == Step(Reduce([fail]), pass);
  }
}

=== FILE: route.dfy ===
/**
  How a link reaches the rack page: the router matches the path before `?`
  against `/rack/:id` and reads the query string after it, and the page
  receives both as its `attrs`. Only the `id` path parameter and the
  `device` query parameter are modelled, without percent-decoding.
 */
module Route {
  import opened JsValues

  /** The first index of `c` in `s`, or `|s|` when `c` does not occur. */
  function IndexOf(s: string, c: char): (i: nat)
    ensures i <= |s|
    ensures i < |s| ==> s[i] == c
    ensures forall j | 0 <= j < i :: s[j] != c
  {
    if |s| == 0 || s[0] == c then 0 else 1 + IndexOf(s[1..], c)
  }

  /** `s.split(c)`: the pieces between the occurrences of `c`, at least one. */
  function Split(s: string, c: char): (parts: seq<string>)
    ensures |parts| > 0
    ensures forall k | 0 <= k < |parts| :: c !in parts[k]
    ensures c !in s ==> parts == [s]
    decreases |s|
  {
    var i := IndexOf(s, c);
    if i == |s| then [s] else [s[..i]] + Split(s[i + 1..], c)
  }

  /** `parts.join(c)`. */
  function Join(parts: seq<string>, c: char): (s: string)
    requires |parts| > 0
  {
    if |parts| == 1 then parts[0] else parts[0] + [c] + Join(parts[1..], c)
  }

  /** Splitting loses nothing: joining the pieces gives the text back. */
  lemma {:induction false} JoinSplit(s: string, c: char)
    ensures Join(Split(s, c), c) == s
    decreases |s|
  {
    var i := IndexOf(s, c);
    if i < |s| {
      calc {
        Join(Split(s, c), c);
        == { JoinSplitStep(s, c, i); }
        s[..i] + [c] + Join(Split(s[i + 1..], c), c);
        == { JoinSplit(s[i + 1..], c); }
        s[..i] + [c] + s[i + 1..];
        == { assert s == s[..i] + [c] + s[i + 1..]; }
        s;
      }
    }
  }

  /** One step of `JoinSplit`: the first piece, `c`, and the rest joined. */
  lemma JoinSplitStep(s: string, c: char, i: nat)
    requires i == IndexOf(s, c) && i < |s|
    ensures Join(Split(s, c), c) == s[..i] + [c] + Join(Split(s[i + 1..], c), c)
  {
    var tail := Split(s[i + 1..], c);
    calc {
      Join(Split(s, c), c);
      == { SplitStep(s, c, i); }
      Join([s[..i]] + tail, c);
      == { JoinCons(s[..i], tail, c); }
      s[..i] + [c] + Join(tail, c);
    }
  }

  /** Splitting at the first `c`. */
  lemma SplitStep(s: string, c: char, i: nat)
    requires i == IndexOf(s, c) && i < |s|
    ensures Split(s, c) == [s[..i]] + Split(s[i + 1..], c)
  {
  }

  /** Joining a piece in front of others. */
  lemma JoinCons(head: string, tail: seq<string>, c: char)
    requires |tail| > 0
    ensures Join([head] + tail, c) == head + [c] + Join(tail, c)
  {
    assert ([head] + tail)[1..] == tail;
  }

  /** One entry of a query string: the key before the first `=`; the value
      after it when there is exactly one `=`, and "" otherwise. */
  function Entry(e: string): (kv: (string, string))
    ensures '=' !in kv.0 && '=' !in kv.1
    ensures '=' !in e ==> kv == (e, "")
  {
    var parts := Split(e, '=');
    (parts[0], if |parts| == 2 then parts[1] else "")
  }

  /** The index of the entry that sets `key`: the last one naming it wins;
      -1 when no entry names it. */
  function LastIndex(entries: seq<string>, key: string): (k: int)
    ensures -1 <= k < |entries|
    ensures k == -1 <==> forall j | 0 <= j < |entries| :: Entry(entries[j]).0 != key
    ensures k >= 0 ==> LastNaming(entries, key, k)
  {
    if |entries| == 0 then -1
    else if Entry(entries[|entries| - 1]).0 == key then |entries| - 1
    else
      var init := entries[..|entries| - 1];
      var k := LastIndex(init, key);
      LastIndexExtends(entries, init, key, k);
      k
  }

  /** An entry that does not name `key`, appended, changes nothing. */
  lemma LastIndexExtends(entries: seq<string>, init: seq<string>, key: string, k: int)
    requires |entries| > 0 && init == entries[..|entries| - 1]
    requires Entry(entries[|entries| - 1]).0 != key
    requires -1 <= k < |init|
    requires k == -1 <==> forall j | 0 <= j < |init| :: Entry(init[j]).0 != key
    requires k >= 0 ==> LastNaming(init, key, k)
    ensures k == -1 <==> forall j | 0 <= j < |entries| :: Entry(entries[j]).0 != key
    ensures k >= 0 ==> LastNaming(entries, key, k)
  {
    assert forall j | 0 <= j < |init| :: init[j] == entries[j];
  }

  /** Entry `k` names `key` and no later entry does. */
  predicate LastNaming(entries: seq<string>, key: string, k: nat)
    requires k < |entries|
  {
    Entry(entries[k]).0 == key && forall j | k < j < |entries| :: Entry(entries[j]).0 != key
  }

  /** The value of `key` in a query string (the text after `?`): the value
      of the last `&`-separated entry naming it. */
  function QueryValue(query: string, key: string): (v: Option<string>)
    ensures query == "" ==> v.None?
    ensures v.Some? ==> '=' !in v.value
  {
    var entries := Split(query, '&');
    var k := LastIndex(entries, key);
    if query == "" || k < 0 then None else Some(Entry(entries[k]).1)
  }

  /** A one-entry query `key=value` gives `key` exactly that value. */
  lemma QueryOfOne(key: string, value: string)
    requires key != "" && '=' !in key && '&' !in key
    requires '=' !in value && '&' !in value
    ensures QueryValue(key + "=" + value, key) == Some(value)
  {
    var q := key + "=" + value;
    assert '&' !in q by {
      assert forall i | 0 <= i < |q| :: q[i] == (if i < |key| then key[i] else if i == |key| then '=' else value[i - |key| - 1]);
    }
    assert Split(q, '&') == [q];
    SplitAtOne(q, key, value);
  }

  /** `key=value` splits at its one `=` into the key and the value. */
  lemma SplitAtOne(e: string, key: string, value: string)
    requires e == key + "=" + value && '=' !in key && '=' !in value
    ensures Entry(e) == (key, value)
  {
    assert IndexOf(e, '=') == |key| by {
      assert e[|key|] == '=';
      assert forall j | 0 <= j < |key| :: e[j] == key[j];
    }
    assert e[..|key|] == key;
    assert e[|key| + 1..] == value;
    assert Split(value, '=') == [value];
  }

  /** What the rack page receives from the router. */
  datatype RackAttrs = RackAttrs(id: string, device: Option<string>)

  const RackPath: string := "/rack/"

  /** The query parameter naming the device to highlight. */
  const DeviceKey: string := "device"

  /** The path of a link: the text before its first `?`. */
  function PathOf(href: string): (path: string)
    ensures path <= href && '?' !in path
  {
    href[..IndexOf(href, '?')]
  }

  /** The query string of a link: the text after its first `?`, if any. */
  function QueryOf(href: string): (query: string)
    ensures '?' in href <==> |PathOf(href)| < |href|
    ensures '?' in href ==> href == PathOf(href) + ['?'] + query
    ensures '?' !in href ==> query == ""
  {
    var q := IndexOf(href, '?');
    assert q < |href| ==> href == href[..q] + ['?'] + href[q + 1..];
    if q < |href| then href[q + 1..] else ""
  }

  /** The `:id` of a path matching `/rack/:id`: one non-empty segment. */
  function RackId(path: string): (id: Option<string>)
    ensures id.Some? ==> PlainSegment(id.value) || '?' in path
    ensures id.Some? ==> path == RackPath + id.value
  {
    if RackPath < path && '/' !in path[|RackPath|..] then
      assert path == RackPath + path[|RackPath|..];
      Some(path[|RackPath|..])
    else None
  }

  /** The `/rack/:id` route: the path must be `/rack/` and one non-empty
      segment; `device` comes from the query string. */
  function MatchRack(href: string): (a: Option<RackAttrs>)
    ensures a.Some? ==> PlainSegment(a.value.id) && RackPath + a.value.id <= href
  {
    match RackId(PathOf(href))
    case None => None
    case Some(id) => Some(RackAttrs(id, QueryValue(QueryOf(href), DeviceKey)))
  }

  /** A path parameter that survives the route unchanged. */
  predicate PlainSegment(s: string)
  {
    s != "" && '/' !in s && '?' !in s
  }

  /** A query value that survives the query string unchanged. */
  predicate PlainValue(s: string)
  {
    '&' !in s && '=' !in s
  }

  /** A link `/rack/<id>?device=<dev>` routes to rack `id` with `device` set
      to `dev`. */
  lemma MatchRackLink(id: string, dev: string)
    requires PlainSegment(id) && PlainValue(dev)
    ensures MatchRack(RackPath + id + "?device=" + dev) == Some(RackAttrs(id, Some(dev)))
  {
    var path := RackPath + id;
    var query := DeviceKey + "=" + dev;
    var href := RackPath + id + "?device=" + dev;
    PathFree(id);
    LinkShape(path, dev);
    LinkParts(href, path, query);
    RackIdOf(path, id);
    QueryOfOne(DeviceKey, dev);
  }

  /** `/rack/<id>` has no `?` when `id` has none. */
  lemma PathFree(id: string)
    requires '?' !in id
    ensures '?' !in RackPath + id
  {
    var path := RackPath + id;
    assert forall j | 0 <= j < |path| :: path[j] == if j < |RackPath| then RackPath[j] else id[j - |RackPath|];
  }

  /** The deep link is the path, `?` and a one-entry query. */
  lemma LinkShape(path: string, dev: string)
    ensures path + "?device=" + dev == path + ['?'] + (DeviceKey + "=" + dev)
  {
    assert "?device=" == ['?'] + DeviceKey + "=";
  }

  /** A link splits at its first `?`. */
  lemma LinkParts(href: string, path: string, query: string)
    requires '?' !in path && href == path + ['?'] + query
    ensures PathOf(href) == path && QueryOf(href) == query
  {
    IndexOfAfter(path, '?', query);
    assert href[..|path|] == path;
    assert href[|path| + 1..] == query;
  }

  /** `/rack/<id>` names rack `id`. */
  lemma RackIdOf(path: string, id: string)
    requires path == RackPath + id && PlainSegment(id)
    ensures RackId(path) == Some(id)
  {
    assert path[|RackPath|..] == id;
  }

  /** The first `c` is the one right after a prefix free of `c`. */
  lemma {:induction false} IndexOfAfter(p: string, c: char, r: string)
    requires c !in p
    ensures IndexOf(p + [c] + r, c) == |p|
    decreases |p|
  {
    if |p| > 0 {
      assert (p + [c] + r)[1..] == p[1..] + [c] + r;
      IndexOfAfter(p[1..], c, r);
    }
  }
}

=== FILE: sorting.dfy ===
/**
  `Array.prototype.sort(cmp)` as a stable insertion sort driven by the same
  comparator. The ECMAScript 2019 sort is stable, so for a consistent
  comparator this yields the very array the engine yields; for an
  inconsistent comparator the engine's order is implementation-defined and
  only the permutation property is promised.
 */
module Sorting {

  /** Insert `x` in front of the first element it does not compare greater than. */
  function Insert<T>(x: T, s: seq<T>, cmp: (T, T) -> int): (r: seq<T>)
    ensures multiset(r) == multiset(s) + multiset{x}
    ensures |r| == |s| + 1
  {
    if |s| == 0 then [x]
    else if cmp(x, s[0]) > 0 then
      assert s == [s[0]] + s[1..];
      [s[0]] + Insert(x, s[1..], cmp)
    else [x] + s
  }

  function Sort<T>(s: seq<T>, cmp: (T, T) -> int): (r: seq<T>)
    ensures multiset(r) == multiset(s)
    ensures |r| == |s|
  {
    if |s| == 0 then []
    else
      assert s == [s[0]] + s[1..];
      Insert(s[0], Sort(s[1..], cmp), cmp)
  }

  /** `cmp` behaves as a total preorder on the elements of `s`: the sign of
      `cmp(a, b)` is the opposite of the sign of `cmp(b, a)`, and "not greater"
      is transitive. */
  ghost predicate ConsistentOn<T>(cmp: (T, T) -> int, s: seq<T>)
  {
    && (forall a, b | a in s && b in s :: cmp(a, b) > 0 <==> cmp(b, a) < 0)
    && (forall a, b, c | a in s && b in s && c in s ::
          cmp(a, b) <= 0 && cmp(b, c) <= 0 ==> cmp(a, c) <= 0)
  }

  ghost predicate SortedBy<T>(cmp: (T, T) -> int, s: seq<T>)
  {
    forall i, j | 0 <= i < j < |s| :: cmp(s[i], s[j]) <= 0
  }

  lemma ConsistentOnSub<T>(cmp: (T, T) -> int, s: seq<T>, t: seq<T>)
    requires ConsistentOn(cmp, s)
    requires forall y | y in t :: y in s
    ensures ConsistentOn(cmp, t)
  {
  }

  lemma InMultiset<T>(y: T, r: seq<T>, s: seq<T>, x: T)
    requires multiset(r) == multiset(s) + multiset{x}
    requires y in r
    ensures y == x || y in s
  {
    assert y in multiset(r);
  }

  lemma {:induction false} InsertSorted<T>(x: T, s: seq<T>, cmp: (T, T) -> int)
    requires SortedBy(cmp, s)
    requires ConsistentOn(cmp, [x] + s)
    ensures SortedBy(cmp, Insert(x, s, cmp))
    decreases |s|, 1
  {
    if |s| == 0 {
    } else if cmp(x, s[0]) > 0 {
      InsertSortedGreater(x, s, cmp);
    } else {
      InsertSortedFront(x, s, cmp);
    }
  }

  lemma InsertSortedFront<T>(x: T, s: seq<T>, cmp: (T, T) -> int)
    requires |s| > 0 && cmp(x, s[0]) <= 0
    requires SortedBy(cmp, s)
    requires ConsistentOn(cmp, [x] + s)
    ensures SortedBy(cmp, [x] + s)
  {
    var r := [x] + s;
    forall i, j | 0 <= i < j < |r|
      ensures cmp(r[i], r[j]) <= 0
    {
      if i == 0 && j > 1 {
        assert r[j] == s[j - 1];
        assert s[0] in r && s[j - 1] in r;
        assert cmp(s[0], s[j - 1]) <= 0;
      }
    }
  }

  lemma {:induction false} InsertSortedGreater<T>(x: T, s: seq<T>, cmp: (T, T) -> int)
    requires |s| > 0 && cmp(x, s[0]) > 0
    requires SortedBy(cmp, s)
    requires ConsistentOn(cmp, [x] + s)
    ensures SortedBy(cmp, Insert(x, s, cmp))
    decreases |s|, 0
  {
    assert x in [x] + s && s[0] in [x] + s;
    assert cmp(s[0], x) < 0;
    ConsistentOnSub(cmp, [x] + s, [x] + s[1..]);
    InsertSorted(x, s[1..], cmp);
    var t := Insert(x, s[1..], cmp);
    forall j | 0 <= j < |t|
      ensures cmp(s[0], t[j]) <= 0
    {
      assert t[j] in t;
      InMultiset(t[j], t, s[1..], x);
      if t[j] != x {
        var k :| 0 <= k < |s[1..]| && s[1..][k] == t[j];
        assert s[k + 1] == t[j];
      }
    }
    SortedCons(s[0], t, cmp);
  }

  lemma SortedCons<T>(y: T, t: seq<T>, cmp: (T, T) -> int)
    requires SortedBy(cmp, t)
    requires forall j | 0 <= j < |t| :: cmp(y, t[j]) <= 0
    ensures SortedBy(cmp, [y] + t)
  {
    var r := [y] + t;
    forall i, j | 0 <= i < j < |r|
      ensures cmp(r[i], r[j]) <= 0
    {
      if i == 0 {
        assert r[j] == t[j - 1];
      } else {
        assert r[i] == t[i - 1] && r[j] == t[j - 1];
      }
    }
  }

  lemma {:induction false} SortSorted<T>(s: seq<T>, cmp: (T, T) -> int)
    requires ConsistentOn(cmp, s)
    ensures SortedBy(cmp, Sort(s, cmp))
    decreases |s|
  {
    if |s| > 0 {
      ConsistentOnSub(cmp, s, s[1..]);
      SortSorted(s[1..], cmp);
      var t := Sort(s[1..], cmp);
      forall y | y in [s[0]] + t
        ensures y in s
      {
        if y != s[0] {
          assert y in multiset(t);
          assert y in multiset(s[1..]);
        }
      }
      ConsistentOnSub(cmp, s, [s[0]] + t);
      InsertSorted(s[0], t, cmp);
    }
  }

  /** Sorting an array that is already in order leaves it as it is. */
  lemma {:induction false} SortOfSorted<T>(s: seq<T>, cmp: (T, T) -> int)
    requires SortedBy(cmp, s)
    ensures Sort(s, cmp) == s
    decreases |s|
  {
    if |s| > 0 {
      SortOfSorted(s[1..], cmp);
      assert s == [s[0]] + s[1..];
    }
  }
}

=== FILE: status_view.dfy ===
/**
  The status page: health buckets counted over the active, inactive and
  whole device lists, the summary table built from them, the active-relay
  rows, and the links of the `deviceList` helper, which the page itself
  never calls.
 */
module StatusView {
  import opened JsValues
  import opened DeviceModel
  import Relay

  const Graduated: string := "GRADUATED"
  const Validated: string := "VALIDATED"

  /** The `countBy` key of a device: a `graduated` string (even "") wins, then
      a `validated` string, then the health value; a missing health counts
      under "undefined". */
  function BucketKey(d: Device): (k: string)
    ensures d.graduated.Some? ==> k == Graduated
    ensures d.graduated.None? && d.validated.Some? ==> k == Validated
    ensures d.graduated.None? && d.validated.None? && d.health.Some? ==> k == d.health.value
    ensures d.graduated.None? && d.validated.None? && d.health.None? ==> k == "undefined"
  {
    if d.graduated.Some? then Graduated
    else if d.validated.Some? then Validated
    else match d.health case Some(h) => h case None => "undefined"
  }

  /** `healthCounts(ds)[key] || 0`. */
  function Count(ds: seq<Device>, key: string): (n: nat)
    ensures n <= |ds|
  {
    if |ds| == 0 then 0
    else (if BucketKey(ds[0]) == key then 1 else 0) + Count(ds[1..], key)
  }

  lemma {:induction false} CountAppend(a: seq<Device>, b: seq<Device>, key: string)
    ensures Count(a + b, key) == Count(a, key) + Count(b, key)
  {
    if |a| > 0 {
      assert (a + b)[1..] == a[1..] + b;
      CountAppend(a[1..], b, key);
    } else {
      assert a + b == b;
    }
  }

  /** A device is counted under exactly one key. */
  lemma {:induction false} CountIsMembers(ds: seq<Device>, key: string)
    ensures Count(ds, key) > 0 <==> exists i | 0 <= i < |ds| :: BucketKey(ds[i]) == key
  {
    if |ds| > 0 {
      CountIsMembers(ds[1..], key);
      if Count(ds[1..], key) > 0 {
        var i :| 0 <= i < |ds[1..]| && BucketKey(ds[1..][i]) == key;
        assert BucketKey(ds[i + 1]) == key;
      }
      if exists i | 0 <= i < |ds| :: BucketKey(ds[i]) == key {
        var i :| 0 <= i < |ds| && BucketKey(ds[i]) == key;
        if i > 0 {
          assert BucketKey(ds[1..][i - 1]) == key;
        }
      }
    }
  }

  function Active(ds: seq<Device>, now: int): (r: seq<Device>)
    ensures forall d | d in r :: d in ds && IsActive(d.lastSeen, now)
    ensures forall d | d in ds && IsActive(d.lastSeen, now) :: d in r
  {
    if |ds| == 0 then []
    else (if IsActive(ds[0].lastSeen, now) then [ds[0]] else []) + Active(ds[1..], now)
  }

  function Inactive(ds: seq<Device>, now: int): (r: seq<Device>)
    ensures forall d | d in r :: d in ds && !IsActive(d.lastSeen, now)
    ensures forall d | d in ds && !IsActive(d.lastSeen, now) :: d in r
  {
    if |ds| == 0 then []
    else (if IsActive(ds[0].lastSeen, now) then [] else [ds[0]]) + Inactive(ds[1..], now)
  }

  /** The active and inactive lists split the device list: together they hold
      every device once, and every bucket's counts add up. */
  lemma Partition(ds: seq<Device>, now: int, key: string)
    ensures multiset(Active(ds, now)) + multiset(Inactive(ds, now)) == multiset(ds)
    ensures |Active(ds, now)| + |Inactive(ds, now)| == |ds|
    ensures Count(Active(ds, now), key) + Count(Inactive(ds, now), key) == Count(ds, key)
  {
    PartitionMultiset(ds, now);
    assert |multiset(Active(ds, now))| + |multiset(Inactive(ds, now))| == |multiset(ds)|;
    PartitionCount(ds, now, key);
  }

  lemma {:induction false} PartitionMultiset(ds: seq<Device>, now: int)
    ensures multiset(Active(ds, now)) + multiset(Inactive(ds, now)) == multiset(ds)
  {
    if |ds| > 0 {
      PartitionMultiset(ds[1..], now);
      var a, i := Active(ds[1..], now), Inactive(ds[1..], now);
      if IsActive(ds[0].lastSeen, now) {
        assert Active(ds, now) == [ds[0]] + a && Inactive(ds, now) == i;
        ConsOnOneSide(ds, a, i);
      } else {
        assert Active(ds, now) == a && Inactive(ds, now) == [ds[0]] + i;
        ConsOnOneSide(ds, i, a);
      }
    }
  }

  /** Adding the head of a list to either side of a split of its tail splits
      the whole list. */
  lemma ConsOnOneSide<T>(whole: seq<T>, a: seq<T>, b: seq<T>)
    requires |whole| > 0 && multiset(a) + multiset(b) == multiset(whole[1..])
    ensures multiset([whole[0]] + a) + multiset(b) == multiset(whole)
    ensures multiset(b) + multiset([whole[0]] + a) == multiset(whole)
  {
    assert whole == [whole[0]] + whole[1..];
    assert multiset([whole[0]] + a) == multiset{whole[0]} + multiset(a);
  }

  lemma {:induction false} PartitionCount(ds: seq<Device>, now: int, key: string)
    ensures Count(Active(ds, now), key) + Count(Inactive(ds, now), key) == Count(ds, key)
  {
    if |ds| > 0 {
      PartitionCount(ds[1..], now, key);
      if IsActive(ds[0].lastSeen, now) {
        CountAppend([ds[0]], Active(ds[1..], now), key);
        assert Inactive(ds, now) == Inactive(ds[1..], now);
      } else {
        CountAppend([ds[0]], Inactive(ds[1..], now), key);
        assert Active(ds, now) == Active(ds[1..], now);
      }
    }
  }

  /** One line of the summary table: active, inactive and total counts. */
  datatype CountRow = CountRow(title: string, active: nat, inactive: nat, total: nat)

  function BucketRow(title: string, key: string, ds: seq<Device>, now: int): (r: CountRow)
    ensures r.title == title
    ensures r.active == Count(Active(ds, now), key) && r.inactive == Count(Inactive(ds, now), key)
    ensures r.total == Count(ds, key)
    ensures r.active + r.inactive == r.total
  {
    Partition(ds, now, key);
    CountRow(title, Count(Active(ds, now), key), Count(Inactive(ds, now), key), Count(ds, key))
  }

  /** A row's active and inactive counts add up to its total. */
  predicate Balanced(r: CountRow)
  {
    r.active + r.inactive == r.total
  }

  /** The summary table: five buckets, then the Sum row. */
  function Summary(ds: seq<Device>, now: int): (rows: seq<CountRow>)
    ensures |rows| == 6
    ensures rows[0].total == Count(ds, "UNKNOWN") && rows[1].total == Count(ds, "FAIL")
    ensures rows[2].total == Count(ds, "PASS") && rows[3].total == Count(ds, Validated)
    ensures rows[4].total == Count(ds, Graduated)
    ensures rows[0].active == Count(Active(ds, now), "UNKNOWN") && rows[0].inactive == Count(Inactive(ds, now), "UNKNOWN")
    ensures rows[1].active == Count(Active(ds, now), "FAIL") && rows[1].inactive == Count(Inactive(ds, now), "FAIL")
    ensures rows[2].active == Count(Active(ds, now), "PASS") && rows[2].inactive == Count(Inactive(ds, now), "PASS")
    ensures rows[3].active == Count(Active(ds, now), Validated) && rows[3].inactive == Count(Inactive(ds, now), Validated)
    ensures rows[4].active == Count(Active(ds, now), Graduated) && rows[4].inactive == Count(Inactive(ds, now), Graduated)
    ensures rows[5].active == |Active(ds, now)| && rows[5].inactive == |Inactive(ds, now)|
    ensures Balanced(rows[0]) && Balanced(rows[1]) && Balanced(rows[2])
    ensures Balanced(rows[3]) && Balanced(rows[4]) && Balanced(rows[5])
    ensures rows[5].total == |ds|
    ensures rows[0].total + rows[1].total + rows[2].total + rows[3].total + rows[4].total <= rows[5].total
  {
    FiveBucketsBounded(ds);
    var unknown := BucketRow("Unknown", "UNKNOWN", ds, now);
    var failing := BucketRow("Failing", "FAIL", ds, now);
    var passing := BucketRow("Passing", "PASS", ds, now);
    var validated := BucketRow("Validated", Validated, ds, now);
    var graduated := BucketRow("Graduated", Graduated, ds, now);
    var sum := SumRow(ds, now);
    assert unknown.total + failing.total + passing.total + validated.total + graduated.total <= sum.total;
    [unknown, failing, passing, validated, graduated, sum]
  }

  /** The Sum row: the sizes of the active and inactive lists and their total. */
  function SumRow(ds: seq<Device>, now: int): (r: CountRow)
    ensures r.title == "Sum"
    ensures r.active == |Active(ds, now)| && r.inactive == |Inactive(ds, now)|
    ensures r.total == |ds|
    ensures r.active + r.inactive == r.total
  {
    var active := Active(ds, now);
    var inactive := Inactive(ds, now);
    Partition(ds, now, "");
    CountRow("Sum", |active|, |inactive|, |active| + |inactive|)
  }

  /** The five buckets are disjoint, so their totals never exceed the list. */
  lemma {:induction false} FiveBucketsBounded(ds: seq<Device>)
    ensures Count(ds, "UNKNOWN") + Count(ds, "FAIL") + Count(ds, "PASS") + Count(ds, Validated) + Count(ds, Graduated) <= |ds|
  {
    if |ds| > 0 {
      FiveBucketsBounded(ds[1..]);
    }
  }

  /** A device with no recognised health (for instance none at all) is in
      none of the five buckets, so the buckets can sum to less than the Sum row. */
  lemma UnreportedDeviceUncounted(d: Device)
    requires d.graduated.None? && d.validated.None? && d.health.None?
    ensures Count([d], "UNKNOWN") + Count([d], "FAIL") + Count([d], "PASS") + Count([d], Validated) + Count([d], Graduated) == 0
  {
  }

  /** A row of the active-relay table. */
  datatype RelayRow = RelayRow(name: string, connected: nat, relayHref: string, rackHref: Option<string>)

  function ActiveDeviceCount(ds: seq<Relay.RelayDevice>, now: int): (n: nat)
    ensures n <= |ds|
    ensures n == 0 <==> forall i | 0 <= i < |ds| :: !IsActive(ds[i].lastSeen, now)
  {
    if |ds| == 0 then 0
    else
      var rest := ActiveDeviceCount(ds[1..], now);
      assert forall i | 1 <= i < |ds| :: ds[i] == ds[1..][i - 1];
      (if IsActive(ds[0].lastSeen, now) then 1 else 0) + rest
  }

  function RelayRowOf(r: Relay.Relay, now: int): (row: RelayRow)
    ensures Truthy(r.alias) ==> row.name == r.alias.value
    ensures !Truthy(r.alias) ==> row.name == r.id
    ensures row.connected == ActiveDeviceCount(r.devices, now)
    ensures row.relayHref == "/relay/" + r.id
    ensures row.rackHref.Some? <==> r.location.Some?
    ensures r.location.Some? ==> row.rackHref.value == "/rack/" + r.location.value.rackId
  {
    RelayRow(OrElse(r.alias, r.id), ActiveDeviceCount(r.devices, now), "/relay/" + r.id,
      match r.location case Some(l) => Some("/rack/" + l.rackId) case None => None)
  }

  /** One row per active relay, in the stored order. */
  function RelayRows(activeList: seq<Relay.Relay>, now: int): (rows: seq<RelayRow>)
    ensures |rows| == |activeList|
    ensures forall i | 0 <= i < |rows| :: rows[i] == RelayRowOf(activeList[i], now)
  {
    if |activeList| == 0 then [] else [RelayRowOf(activeList[0], now)] + RelayRows(activeList[1..], now)
  }

  /** `deviceList`'s links: to the problem page for a problem list, to the
      device page otherwise; no list, no links. The status page defines this
      helper but does not render it. */
  function DeviceLinks(isProblem: bool, devices: Option<seq<Device>>): (links: Option<seq<string>>)
    ensures links.Some? <==> devices.Some?
    ensures devices.Some? ==> |links.value| == |devices.value|
    ensures devices.Some? && isProblem ==> forall i | 0 <= i < |devices.value| :: links.value[i] == "/problem/" + devices.value[i].id
    ensures devices.Some? && !isProblem ==> forall i | 0 <= i < |devices.value| :: links.value[i] == "/device/" + devices.value[i].id
  {
    match devices
    case None => None
    case Some(ds) => Some(Links(if isProblem then "/problem/" else "/device/", ds))
  }

  function Links(prefix: string, ds: seq<Device>): (links: seq<string>)
    ensures |links| == |ds|
    ensures forall i | 0 <= i < |ds| :: links[i] == prefix + ds[i].id
  {
    if |ds| == 0 then [] else [prefix + ds[0].id] + Links(prefix, ds[1..])
  }
}

=== FILE: string_order.dfy ===
/**
  The ordering JavaScript's relational operators and the default
  `Array.prototype.sort` use on strings: lexicographic comparison of
  characters, a proper prefix ordering first. Characters compare by code
  point, which agrees with JavaScript's UTF-16 code units except for
  characters above U+FFFF.
 */
module StringOrder {

  /** `a < b` on strings. */
  predicate Less(a: string, b: string)
    decreases |a|
  {
    if |a| == 0 then |b| > 0
    else if |b| == 0 then false
    else if a[0] != b[0] then a[0] < b[0]
    else Less(a[1..], b[1..])
  }

  /** A comparator in the style of `Array.prototype.sort`: -1, 0 or 1. */
  function Compare(a: string, b: string): (r: int)
    ensures r == 0 <==> a == b
    ensures r < 0 <==> Less(a, b)
    ensures r > 0 <==> Less(b, a)
  {
    LessTrichotomy(a, b);
    LessAsymmetric(a, b);
    if Less(a, b) then -1 else if a == b then 0 else 1
  }

  lemma {:induction false} LessIrreflexive(a: string)
    ensures !Less(a, a)
    decreases |a|
  {
    if |a| > 0 {
      LessIrreflexive(a[1..]);
    }
  }

  lemma {:induction false} LessAsymmetric(a: string, b: string)
    ensures Less(a, b) ==> !Less(b, a)
    decreases |a|
  {
    if |a| > 0 && |b| > 0 && a[0] == b[0] {
      LessAsymmetric(a[1..], b[1..]);
    }
  }

  lemma {:induction false} LessTransitive(a: string, b: string, c: string)
    requires Less(a, b) && Less(b, c)
    ensures Less(a, c)
    decreases |a|
  {
    if |a| > 0 && a[0] == b[0] && b[0] == c[0] {
      LessTransitive(a[1..], b[1..], c[1..]);
    }
  }

  lemma {:induction false} LessTrichotomy(a: string, b: string)
    ensures Less(a, b) || a == b || Less(b, a)
    decreases |a|
  {
    if |a| > 0 && |b| > 0 && a[0] == b[0] {
      LessTrichotomy(a[1..], b[1..]);
      if a[1..] == b[1..] {
        assert a == [a[0]] + a[1..] && b == [b[0]] + b[1..];
      }
    }
  }

  /** Strictly ascending under `Less`: what `.sort()` yields on distinct strings. */
  ghost predicate StrictlyAscending(s: seq<string>)
  {
    forall i, j | 0 <= i < j < |s| :: Less(s[i], s[j])
  }

  lemma AscendingSuffix(s: seq<string>)
    requires |s| > 0 && StrictlyAscending(s)
    ensures StrictlyAscending(s[1..])
  {
    forall i, j | 0 <= i < j < |s| - 1
      ensures Less(s[1..][i], s[1..][j])
    {
      assert Less(s[i + 1], s[j + 1]);
    }
  }

  lemma AscendingCons(h: string, s: seq<string>)
    requires StrictlyAscending(s)
    requires forall j | 0 <= j < |s| :: Less(h, s[j])
    ensures StrictlyAscending([h] + s)
  {
    var r := [h] + s;
    forall i, j | 0 <= i < j < |r|
      ensures Less(r[i], r[j])
    {
      assert r[j] == s[j - 1];
      if i > 0 {
        assert r[i] == s[i - 1];
      }
    }
  }

  /** Ascending under `Less`, duplicates allowed. */
  ghost predicate Ascending(s: seq<string>)
  {
    forall i, j | 0 <= i < j < |s| :: !Less(s[j], s[i])
  }

  /** "Not greater" under `Compare` is transitive: the fact that makes every
      comparator built from `Compare` on a key consistent. */
  lemma CompareTransitive(a: string, b: string, c: string)
    requires Compare(a, b) <= 0 && Compare(b, c) <= 0
    ensures Compare(a, c) <= 0
  {
    if a != b && b != c {
      LessTransitive(a, b, c);
    }
  }
}

=== FILE: validation.dfy ===
/**
  The validation and validation-plan stores: each keeps the list the backend
  returned and an index from id to name built from it. Both stores build
  their index the same way.
 */
module NameIndex {
  import opened JsValues
  import opened JsObject

  /** A validation or validation plan: only `id` and `name` are read. */
  datatype Named = Named(id: string, name: string)

  datatype Index = Index(list: seq<Named>, idToName: Obj<string>)

  const Empty: Index := Index([], [])

  /** `list` holds no later entry with the id of entry `i`. */
  predicate LastWithId(list: seq<Named>, i: nat)
    requires i < |list|
  {
    forall j | i < j < |list| :: list[j].id != list[i].id
  }

  /** `list.reduce((acc, {id, name}) => { acc[id] = name; return acc; }, {})`. */
  function IdToName(list: seq<Named>): (m: Obj<string>)
    ensures forall k :: Get(m, k).Some? ==> exists i | 0 <= i < |list| :: list[i].id == k
    ensures forall i | 0 <= i < |list| && LastWithId(list, i) :: Get(m, list[i].id) == Some(list[i].name)
  {
    if |list| == 0 then []
    else
      var init := list[..|list| - 1];
      var prev := IdToName(init);
      var m := Put(prev, list[|list| - 1].id, list[|list| - 1].name);
      StepKeys(list, prev, m);
      StepNames(list, prev, m);
      m
  }

  lemma StepKeys(list: seq<Named>, prev: Obj<string>, m: Obj<string>)
    requires |list| > 0
    requires forall k :: Get(prev, k).Some? ==> exists i | 0 <= i < |list| - 1 :: list[i].id == k
    requires forall k | k != list[|list| - 1].id :: Get(m, k) == Get(prev, k)
    ensures forall k :: Get(m, k).Some? ==> exists i | 0 <= i < |list| :: list[i].id == k
  {
    forall k | Get(m, k).Some?
      ensures exists i | 0 <= i < |list| :: list[i].id == k
    {
      if k == list[|list| - 1].id {
        assert list[|list| - 1].id == k;
      }
    }
  }

  lemma StepNames(list: seq<Named>, prev: Obj<string>, m: Obj<string>)
    requires |list| > 0
    requires forall i | 0 <= i < |list| - 1 && LastWithId(list[..|list| - 1], i) ::
               Get(prev, list[i].id) == Some(list[i].name)
    requires Get(m, list[|list| - 1].id) == Some(list[|list| - 1].name)
    requires forall k | k != list[|list| - 1].id :: Get(m, k) == Get(prev, k)
    ensures forall i | 0 <= i < |list| && LastWithId(list, i) :: Get(m, list[i].id) == Some(list[i].name)
  {
    forall i | 0 <= i < |list| - 1 && LastWithId(list, i)
      ensures Get(m, list[i].id) == Some(list[i].name)
    {
      assert LastWithId(list[..|list| - 1], i);
    }
  }

  /** Every listed id is in the index. */
  lemma EveryIdIndexed(list: seq<Named>, i: nat)
    requires i < |list|
    ensures Get(IdToName(list), list[i].id).Some?
  {
    var j := LastOf(list, i);
  }

  /** The last entry carrying the id of entry `i`. */
  lemma {:induction false} LastOf(list: seq<Named>, i: nat) returns (j: nat)
    requires i < |list|
    ensures i <= j < |list| && list[j].id == list[i].id && LastWithId(list, j)
    decreases |list| - i
  {
    if LastWithId(list, i) {
      j := i;
    } else {
      var k :| i < k < |list| && list[k].id == list[i].id;
      j := LastOf(list, k);
    }
  }

  /** With duplicate ids the later name wins. */
  lemma LaterNameWins(a: Named, b: Named)
    requires a.id == b.id
    ensures Get(IdToName([a, b]), a.id) == Some(b.name)
  {
    assert LastWithId([a, b], 1);
  }

  /** `load()`: on success the list is the response and the index is built
      from it; a failure is not caught and changes nothing. */
  function Load(ix: Index, res: Response<seq<Named>>): (h: Handled<Index>)
    ensures res.Ok? ==> h.state.list == res.body && h.effect == NoEffect
    ensures res.Ok? ==> forall k :: Get(h.state.idToName, k).Some? <==> exists i | 0 <= i < |res.body| :: res.body[i].id == k
    ensures res.Fail? ==> h == Handled(ix, Rejected)
  {
    match res
    case Ok(list) =>
      forall k | exists i | 0 <= i < |list| :: list[i].id == k
        ensures Get(IdToName(list), k).Some?
      {
        var i :| 0 <= i < |list| && list[i].id == k;
        EveryIdIndexed(list, i);
      }
      Handled(Index(list, IdToName(list)), NoEffect)
    case Fail(_, _) => Handled(ix, Rejected)
  }
}

/** The validation states of a device or workspace, as the pages read them. */
module ValidationStateModel {
  import opened JsValues

  /** One result of a validation state. */
  datatype Result = Result(
    category: string, validationId: string, componentId: Option<string>,
    status: string, message: Option<string>, hint: Option<string>)

  datatype ValidationState = ValidationState(planId: string, results: seq<Result>)
}

=== FILE: workspace.dfy ===
/**
  Workspace selection: the list of workspaces the user can see, the
  workspace id remembered in the browser, and how a page obtains the id it
  works in.
 */
module WorkspaceModel {
  import opened JsValues

  datatype Workspace = Workspace(id: string, name: string)

  /** `list` and the remembered id (absent when nothing is stored). */
  datatype Store = Store(list: seq<Workspace>, stored: Option<string>)

  const GlobalName: string := "GLOBAL"

  predicate Listed(list: seq<Workspace>, id: string)
  {
    exists i | 0 <= i < |list| :: list[i].id == id
  }

  /** `list.find(w => w.name === name)`. */
  function FindNamed(list: seq<Workspace>, name: string): (r: Option<nat>)
    ensures r.None? <==> forall i | 0 <= i < |list| :: list[i].name != name
    ensures r.Some? ==>
              (r.value < |list| && list[r.value].name == name && forall i | 0 <= i < r.value :: list[i].name != name)
  {
    if |list| == 0 then None
    else if list[0].name == name then Some(0)
    else
      var r := FindNamed(list[1..], name);
      assert forall i | 1 <= i < |list| :: list[i] == list[1..][i - 1];
      if r.Some? then Some(r.value + 1) else None
  }

  /** The id `loadWorkspaces` settles on: the remembered id if it is set and
      listed, else the first workspace named GLOBAL, else the first workspace;
      an empty list has no first workspace and the lookup throws. */
  function ChooseId(list: seq<Workspace>, stored: Option<string>): (r: Option<string>)
    ensures Truthy(stored) && Listed(list, stored.value) ==> r == stored
    ensures !(Truthy(stored) && Listed(list, stored.value)) && FindNamed(list, GlobalName).Some? ==>
              r == Some(list[FindNamed(list, GlobalName).value].id)
    ensures !(Truthy(stored) && Listed(list, stored.value)) && FindNamed(list, GlobalName).None? && |list| > 0 ==>
              r == Some(list[0].id)
    ensures r.None? <==> |list| == 0
    ensures r.Some? ==> Listed(list, r.value)
  {
    if Truthy(stored) && Listed(list, stored.value) then stored
    else match FindNamed(list, GlobalName)
      case Some(i) => Some(list[i].id)
      case None => if |list| > 0 then Some(list[0].id) else None
  }

  /** The result of `loadWorkspaces`: the new store and the id it resolves
      with, or `None` when it rejects. */
  datatype Loaded = Loaded(store: Store, id: Option<string>, effect: Effect)

  function LoadWorkspaces(st: Store, res: Response<seq<Workspace>>): (r: Loaded)
    ensures res.Fail? ==> r == Loaded(st, None, Rejected)
    ensures res.Ok? ==> r.store.list == res.body
    ensures res.Ok? ==> r.id == ChooseId(res.body, st.stored)
    ensures r.id.Some? ==> r.store.stored == r.id && r.effect == NoEffect
    ensures r.id.None? ==> r.store.stored == st.stored && r.effect == Rejected
    ensures res.Ok? && |res.body| > 0 ==> r.id.Some? && Listed(res.body, r.id.value)
  {
    match res
    case Fail(_, _) => Loaded(st, None, Rejected)
    case Ok(ws) =>
      match ChooseId(ws, st.stored)
      case Some(id) => Loaded(Store(ws, Some(id)), Some(id), NoEffect)
      case None => Loaded(st.(list := ws), None, Rejected)
  }

  /** A remembered id that is still listed is kept as it is. */
  lemma ListedIdKept(st: Store, ws: seq<Workspace>)
    requires Truthy(st.stored) && Listed(ws, st.stored.value)
    ensures LoadWorkspaces(st, Ok(ws)).id == st.stored
    ensures LoadWorkspaces(st, Ok(ws)).store == Store(ws, st.stored)
  {
  }

  /** Loading twice in a row settles on the same id. */
  lemma ChoiceIsStable(st: Store, ws: seq<Workspace>)
    requires |ws| > 0
    ensures var first := LoadWorkspaces(st, Ok(ws));
            LoadWorkspaces(first.store, Ok(ws)) == first
  {
  }

  /** How `withWorkspace` ended: the id the callback received (if it ran),
      and whether the workspace list was requested. */
  datatype WithResult = WithResult(store: Store, callback: Option<string>, requested: bool, effect: Effect)

  /** `withWorkspace(cb)`: with a remembered id and a non-empty list the
      callback runs at once with that id, whether or not the list holds it;
      otherwise the list is loaded and the callback gets the chosen id. */
  function WithWorkspace(st: Store, res: Response<seq<Workspace>>): (r: WithResult)
    ensures Truthy(st.stored) && |st.list| > 0 ==> r == WithResult(st, st.stored, false, NoEffect)
    ensures !(Truthy(st.stored) && |st.list| > 0) ==>
              r.requested && r.callback == LoadWorkspaces(st, res).id && r.store == LoadWorkspaces(st, res).store
  {
    if Truthy(st.stored) && |st.list| > 0 then WithResult(st, st.stored, false, NoEffect)
    else
      var l := LoadWorkspaces(st, res);
      WithResult(l.store, l.id, true, l.effect)
  }

  /** The shortcut does not check the list: a remembered id no longer listed
      still reaches the callback. */
  lemma StaleIdUsed(w: Workspace, stale: string, res: Response<seq<Workspace>>)
    requires stale != "" && stale != w.id
    ensures WithWorkspace(Store([w], Some(stale)), res).callback == Some(stale)
    ensures !Listed([w], stale)
  {
  }

  /** After a load that chose an id, the next page gets that id at once. */
  lemma SecondPageUsesChoice(st: Store, ws: seq<Workspace>, res: Response<seq<Workspace>>)
    requires |ws| > 0 && !(Truthy(st.stored) && |st.list| > 0)
    requires LoadWorkspaces(st, Ok(ws)).id.value != ""
    ensures var first := WithWorkspace(st, Ok(ws));
            WithWorkspace(first.store, res) == WithResult(first.store, first.callback, false, NoEffect)
  {
  }
}
